=== FILE: README.md ===
# unirun query protocol, modelled in Dafny

unirun is a GTK launcher. A coordinator process owns the search window. It
talks to plugin processes over one Unix socket. Each keystroke cancels the
previous round of queries and asks every connected plugin for results. The
coordinator stores the results it gets and acknowledges each one. Activating
a row sends `activate` to the plugin that produced it. If the plugin reports
success, the coordinator tells itself to quit.

The protocol exists in two generations, and both are modelled.

* **Current.** The coordinator is `unirun/src/utils.rs`. It exchanges typed
  `Package`s (`unirun-interface/src/package.rs`). These are serde externally
  tagged enums with the payload flattened beside the package id.
* **Older.** The coordinator is `unirun/src/gui.rs`, and the applications
  plugin (`plugins/applications/src/main.rs`) still speaks it. The messages
  are plain strings such as `abort`, `get_data,<text>`, `ok: N` and `ok`,
  plus JSON-encoded `Match` records.

The older generation frames its messages with the socket helpers in
`unirun-interface/src/lib.rs`:

* A writer cuts or zero-pads every message to one 4096-byte frame.
* A reader decodes the frame as lossy UTF-8, strips NULs, then strips
  whitespace.

The current generation reads and writes typed packages through
`unirun_if::socket::Stream` (`read_future` and `write_future`), which is not
part of this model. Its reads are modelled as a decoded package or a
failure.

Everything is modelled with immutable datatypes and pure functions:

| File | Module | What it models |
|---|---|---|
| `wrappers.dfy` | `Wrappers` | `Option`, `Result` and the panic reasons |
| `utf8.dfy` | `Utf8` | UTF-8 encoding, `String::from_utf8_lossy` (maximal-subpart replacement) and `OsStr::to_str` |
| `text.dfy` | `Text` | `starts_with`, `trim_start_matches`, `trim_matches('\0')` and `trim` with Unicode White_Space; `usize` printing and parsing |
| `framing.dfy` | `Framing` | `create_buffer`, `bytes_to_string`, the socket path |
| `match_if.dfy` | `MatchIf` | the legacy `Match` record |
| `package.dfy` | `Packages` | `Uuid`, `Command`, `Payload`, `Package` and `Hit`, with their serde shape as a `Json` value tree, read by key as serde's derived visitors read it |
| `gobject.dfy` | `GObjects`, `GHits`, `GMatches` | the property bag shared by the `GHit` and `GMatch` list items, and their conversions |
| `app_info.dfy` | `AppInfos` | the plugin's `AppInfo` record and its conversion to `Match` |
| `launch.dfy` | `Launch` | the two plugin-binary filters and `build_image` |
| `session.dfy`, `coordinator.dfy` | `Session`, `Coordinator` | the current coordinator |
| `wire.dfy`, `legacy_session.dfy`, `legacy_coordinator.dfy` | `LegacyWire`, `LegacySession`, `LegacyCoordinator` | the older coordinator |
| `app_plugin.dfy` | `AppPlugin` | the applications plugin |
| `legacy_pair.dfy` | `LegacyPair` | the older coordinator and the plugin composed: what one side writes is, after framing, what the other reads |

In both coordinators, one query session is a state machine:

* Its input is the sequence of reads it gets.
* Its output is the writes it makes and the items it appends to the store.

The coordinator itself is a sequence of events over its runtime state. That
state is the connections, the task pool and the store. A task that was
aborted keeps its handle in an `aborted` list, and an event addressed to a
handle no longer in the pool does nothing.

Some behaviour of the code shapes the whole model:

- **Dead connections.** The current coordinator never drops dead
  connections: its `filter_connections` call is commented out
  (unirun/src/utils.rs:148-167). Only the older coordinator filters them
  (unirun/src/gui.rs:221-240).
- **Panics.** A failed read, a connection missing at activation and a
  missing list-store item all panic through `unwrap`
  (unirun/src/utils.rs:196, 205, 242, 252, 260). An unexpected payload
  reaches `unreachable!()` (unirun/src/utils.rs:228, 287). The model
  records each of these as a `Panic`.
- **Activation reply.** Activation reads exactly one reply.
  - The current coordinator quits only on `Result((request id, Ok))`. It
    notifies on any `Err`, whatever its id. Any other payload is
    `unreachable!()`.
  - The older coordinator quits only on the exact text `ok`.
- **Plugin protocol.** The only plugin in the repository, the applications
  plugin, speaks the older string protocol, not the typed one. Its stream
  opens with `ok: N` rather than an id-matched `Result`
  (plugins/applications/src/main.rs:22-39).
- **Oversized messages.** `create_buffer` silently cuts a message longer
  than 4096 bytes, and raises no error (unirun-interface/src/lib.rs:75-81).

## Model

| member | source | states |
|---|---|---|
| Framing.CreateBuffer | unirun-interface/src/lib.rs:75-81 | The frame is exactly 4096 bytes. Its first min(len, 4096) bytes are the message's. Every later byte is 0. A longer message is cut to its first 4096 bytes. |
| Framing.BytesToString | unirun-interface/src/lib.rs:174-179 | The text a reader gets never starts or ends with whitespace. |
| Framing.Frame | unirun-interface/src/lib.rs:101-113 | A written message goes out as exactly one 4096-byte buffer. When its encoding fits, the buffer holds the whole encoding followed by zeros. |
| Framing.Unframe | unirun-interface/src/lib.rs:67-73 | A read frame never yields text with whitespace at either end. |
| Framing.DecodeFrame | unirun-interface/src/lib.rs:175 | Lossily decoding the frame of a message that fits gives back the message followed by one NUL per padding byte. |
| Framing.FrameRoundTrip | unirun-interface/src/lib.rs:75-81 | A message that fits in one frame and neither starts nor ends with NUL or whitespace is read back exactly as written. |
| Framing.FrameRoundTripOnlyIfClean | unirun-interface/src/lib.rs:174-179 | A message that fits but does start or end with NUL or whitespace is never read back as written. |
| Framing.FrameRoundTripIff | unirun-interface/src/lib.rs:174-179 | For messages that fit, the frame round trip is exact if and only if the message is clean at both ends. |
| Framing.UnframeShorter | unirun-interface/src/lib.rs:176 | A message with a NUL at either end arrives strictly shorter than it was sent. |
| Framing.NulTrimShortens | unirun-interface/src/lib.rs:176 | Stripping NULs from a padded text that starts or ends with NUL leaves fewer characters than the text had. |
| Framing.ZeroFrameIsEmpty | unirun-interface/src/lib.rs:174-179 | An all-zero frame reads as the empty string. |
| Framing.SocketPath | unirun-interface/src/lib.rs:29-31 | The socket lives in the runtime directory, and its file name is `com.bzglve.unirun` followed by `.sock`. |
| Utf8.EncodeChar | unirun-interface/src/lib.rs:75-76 | A character encodes to 1 to 4 bytes. It takes a single byte, equal to its code point, exactly when it is ASCII. Every byte after the first is a continuation byte. |
| Utf8.DecodeOne | unirun-interface/src/lib.rs:175 | One lossy decoding step consumes 1 to 4 bytes. An ill-formed prefix yields U+FFFD. |
| Utf8.DecodeOneSound | unirun-interface/src/lib.rs:175 | When a step is well formed, the bytes it consumed are exactly the encoding of the character it produced. |
| Utf8.DecodeOneEncodeChar | unirun-interface/src/lib.rs:175 | Decoding the encoding of any character, whatever follows it, gives back that character, consumes its whole encoding, and is well formed. |
| Utf8.DecodeEncode | unirun-interface/src/lib.rs:175 | Lossy decoding of an encoded string followed by any bytes gives back the string, then the decoding of those bytes. |
| Utf8.EncodeValid | unirun-interface/src/lib.rs:175 | Putting an encoded string in front of well-formed bytes keeps them well formed. |
| Utf8.DecodeLossyEncode | unirun-interface/src/lib.rs:175 | Every encoded string is well formed and decodes back to itself. |
| Utf8.EncodeDecodeValid | unirun-interface/src/lib.rs:175 | On well-formed bytes, lossy decoding loses nothing: re-encoding gives back the bytes. |
| Utf8.ToStrEncode | unirun/src/utils.rs:108-110 | `to_str` yields the string s exactly when the bytes are the encoding of s. |
| Text.TrimStartMatches | plugins/applications/src/main.rs:95 | The result is a suffix of the input. For a non-empty pattern, it no longer starts with the pattern. Input that does not start with the pattern, or an empty pattern, leaves it unchanged. |
| Text.TrimStartMatchesSplits | plugins/applications/src/main.rs:95 | What `trim_start_matches` removes is exactly some number of whole copies of the pattern at the front: the input is that many copies followed by the result. |
| Text.Trim | unirun-interface/src/lib.rs:177 | The result is no longer than the input and is whitespace-free at both ends. |
| Text.TrimBySplits | unirun-interface/src/lib.rs:176-177 | Trimming by any character test at both ends keeps one contiguous slice of the input and drops only characters the test strips before and after it. |
| Text.TrimSplits | unirun-interface/src/lib.rs:177 | `trim` keeps one contiguous slice of the input and drops only whitespace before and after it. |
| Text.TrimNoop | unirun-interface/src/lib.rs:177 | Text with no whitespace at either end is left unchanged by `trim`. |
| Text.TrimIdempotent | unirun-interface/src/lib.rs:177 | Trimming twice is the same as trimming once. |
| Text.TrimKeepsContent | unirun-interface/src/lib.rs:177 | Text with no whitespace anywhere is left unchanged by `trim`. |
| Text.TrimNul | unirun-interface/src/lib.rs:176 | The result is no longer than the input and has no NUL at either end. |
| Text.TrimNulSplits | unirun-interface/src/lib.rs:176 | `trim_matches('\0')` keeps one contiguous slice of the input and drops only NULs before and after it. |
| Text.Decimal | plugins/applications/src/main.rs:22 | `usize` display is a non-empty run of ASCII digits with no leading zero. |
| Text.DecimalValue | plugins/applications/src/main.rs:22 | The digits displayed for n have the value n. |
| Text.ParseUsize | unirun/src/gui.rs:279 | A successful `usize` parse is below 2^64. |
| Text.ParseDecimal | unirun/src/gui.rs:276-279 | Parsing the display of any `usize` gives back that number. |
| Text.ParseRejectsNonDigits | unirun/src/gui.rs:279 | A text with a non-digit after its first character does not parse as a `usize`. |
| Text.ShowPair | unirun-interface/src/lib.rs:262 | `({}, {})` formatting: the text is `(`, the first part, `, `, the second part, `)`. |
| Text.ShowPairInjective | unirun-interface/src/lib.rs:262 | When the first parts have one length, two formatted pairs are equal exactly when both parts are. |
| MatchIf.New | unirun-interface/src/lib.rs:215-228 | `Match::new` stores the fresh id and copies title, description, icon and `use_pango` unchanged. |
| MatchIf.UpdateId | unirun-interface/src/lib.rs:244-248 | `update_id` returns exactly the id `get_id` then reports, and leaves every other field unchanged. |
| MatchIf.DisplayDeterminesIdAndTitle | unirun-interface/src/lib.rs:260-264 | Matches whose ids have one length (every v4 UUID) display alike exactly when their ids and titles agree. |
| Packages.UuidRoundTrip | unirun-interface/src/package.rs:24-34 | A `Uuid` made from a string displays as exactly that string, and every `Uuid` is made from its display. |
| Packages.NewPackage | unirun-interface/src/package.rs:82-91 | `Package::new` keeps the payload as given, and `get_id` returns the fresh id it stored. |
| Packages.NewHit | unirun-interface/src/package.rs:113-126 | `Hit::new` stores the fresh id and copies title, description, icon and `use_pango` unchanged. |
| Packages.HitDisplayDeterminesIdAndTitle | unirun-interface/src/package.rs:129-133 | A hit displays as `(id, title)`, so hits whose ids have one length display alike exactly when their ids and titles agree. |
| Packages.CommandTagsDistinct | unirun-interface/src/package.rs:47-59 | The tags `quit`, `activate`, `get_data` and `abort` are pairwise distinct, so the tag alone identifies the command variant. |
| Packages.PayloadTagsDistinct | unirun-interface/src/package.rs:62-71 | The tags `command`, `result` and `hit` are pairwise distinct. |
| Packages.DecodeCommand | unirun-interface/src/package.rs:46-59 | A command is read from its bare tag only if it is a unit variant, and otherwise from a one-entry object keyed by its tag. A tag naming no command is refused as an unknown variant that names the tag. |
| Packages.DecodeEncodeCommand | unirun-interface/src/package.rs:46-59 | Every command decodes back from its encoding. |
| Packages.CommandCodec | unirun-interface/src/package.rs:46-59 | A tree decodes to a command exactly when it is one of the forms serde reads as that command. |
| Packages.UnitCommandsAsObjects | unirun-interface/src/package.rs:48-58 | `{"quit": null}` reads as `Quit` and `{"abort": null}` as `Abort`, as does a body of `{}`. |
| Packages.DecodeOutcome | unirun-interface/src/package.rs:67 | `Ok(())` is read only from a one-entry `Ok` object with a null or empty body. `Err(message)` is read only from a one-entry `Err` object holding a string. A bare tag is refused. |
| Packages.OutcomeCodec | unirun-interface/src/package.rs:67 | An outcome decodes back from its encoding, and a tree decodes to it exactly when serde reads it as that outcome. |
| Packages.DecodeOptString | unirun-interface/src/package.rs:107-108 | An optional string is accepted only as null or a string. |
| Packages.DecodeOptional | unirun-interface/src/package.rs:107-108 | A missing `Option` field reads as `None`. A present one reads as null or a string. |
| Packages.DecodeHitFields | unirun-interface/src/package.rs:103-110 | A hit is built from its five collected fields. The three required fields must be present and of the right type. |
| Packages.DecodeHit | unirun-interface/src/package.rs:103-110 | A hit is read from an object or from a five-element array. In an object, each required field occurs once and each `Option` field at most once. A duplicate field is refused. Other keys are ignored. |
| Packages.HitCodec | unirun-interface/src/package.rs:103-110 | A tree decodes to a hit exactly when serde reads it as that hit, from the object form or the array form. |
| Packages.DecodeEncodeHit | unirun-interface/src/package.rs:103-110 | Every hit decodes back from its encoding. |
| Packages.HitKeyOrderFree | unirun-interface/src/package.rs:103-110 | Swapping two neighbouring entries of a hit object does not change what it decodes to. |
| Packages.HitUnknownKeysIgnored | unirun-interface/src/package.rs:103-110 | An entry whose key is not a field of `Hit` does not change what the object decodes to. |
| Packages.HitOptionalsMayBeMissing | unirun-interface/src/package.rs:107-108 | An object with only `id`, `title` and `use_pango` reads as a hit with no description and no icon. |
| Packages.DecodeResultBody | unirun-interface/src/package.rs:67 | A result payload is read only from a two-element array: the request id as a string, then an outcome. |
| Packages.DecodeVariant | unirun-interface/src/package.rs:61-71 | An entry keyed by a payload tag decodes only to a payload of that tag whose body serde reads from the entry's value. Any other key is not a variant. |
| Packages.VariantCodec | unirun-interface/src/package.rs:61-71 | An entry decodes to a payload exactly when serde reads it as that payload. |
| Packages.FirstTagged | unirun-interface/src/package.rs:76-78 | The flattened payload takes the first entry whose key is a payload tag. There is none only when no key is a payload tag. |
| Packages.DecodePayload | unirun-interface/src/package.rs:61-78 | The payload is read from the first entry keyed by a payload tag, and the later entries are ignored. With no such entry it fails with the flattened enum's error. |
| Packages.DecodeEncodePayload | unirun-interface/src/package.rs:61-71 | Every payload decodes back from its single encoded entry. |
| Packages.DecodePackage | unirun-interface/src/package.rs:73-79 | A package is read from an object with exactly one `id` entry, which holds a string. A missing or repeated `id` is refused. |
| Packages.PackageCodec | unirun-interface/src/package.rs:73-79 | Every package decodes back from its encoding. A tree decodes to package p exactly when serde reads it as p: the one `id` entry holds p's id, and the first tagged entry reads as p's payload. |
| Packages.FirstTaggedSwap | unirun-interface/src/package.rs:76-78 | Two neighbouring entries that are not both payload tags may change places without changing which entry the flattened payload is read from. |
| Packages.FirstTaggedDrop | unirun-interface/src/package.rs:76-78 | An entry not keyed by a payload tag never changes which entry the flattened payload is read from. |
| Packages.PackageKeyOrderFree | unirun-interface/src/package.rs:73-79 | Swapping two neighbouring entries of a package object does not change what it decodes to, unless both keys are payload tags. The `id` may come after the payload. |
| Packages.PackageUnknownKeysIgnored | unirun-interface/src/package.rs:73-79 | An entry keyed neither `id` nor by a payload tag does not change what the package decodes to. |
| Packages.UnknownPayloadTagRefused | unirun-interface/src/package.rs:76-78 | A package with no entry keyed by a payload tag is refused with the flattened enum's error, which names no key. |
| GObjects.SetProperty | unirun/src/types/ghit.rs:48-94 | `set_property` fails only by reaching `unimplemented!()` or by a type-mismatch `expect` panic. |
| GObjects.Property | unirun/src/types/ghit.rs:96-106 | A property read succeeds exactly for the six declared names, and returns a value of the declared type. |
| GObjects.SetPropertyAccepts | unirun/src/types/ghit.rs:48-94 | A set succeeds exactly when the name is declared, the value has its type, and `id` or `title` is not given a null string. An undeclared name reaches `unimplemented!()`. |
| GObjects.GetAfterSet | unirun/src/types/ghit.rs:48-106 | After a successful set, reading that property returns the value just set. |
| GObjects.SetLeavesOthers | unirun/src/types/ghit.rs:48-94 | A successful set leaves every other property reading as before. |
| GObjects.SetWhatWasRead | unirun/src/types/ghit.rs:48-106 | Setting a property to the value it reads leaves the item unchanged. |
| GObjects.GetId | unirun/src/types/ghit.rs:124-126 | `get_id` is the string the `id` property reads. |
| GObjects.SetId | unirun/src/types/ghit.rs:128-130 | `set_id` is a successful set of the `id` property. |
| GObjects.GetTitle | unirun/src/types/ghit.rs:132-134 | `get_title` is the string the `title` property reads. |
| GObjects.SetTitle | unirun/src/types/ghit.rs:136-138 | `set_title` is a successful set of the `title` property. |
| GObjects.GetDescription | unirun/src/types/ghit.rs:140-142 | `get_description` is the optional string the `description` property reads. |
| GObjects.SetDescription | unirun/src/types/ghit.rs:144-146 | `set_description` is a successful set of the `description` property. |
| GObjects.GetIcon | unirun/src/types/ghit.rs:148-150 | `get_icon` is the optional string the `icon` property reads. |
| GObjects.SetIcon | unirun/src/types/ghit.rs:152-154 | `set_icon` is a successful set of the `icon` property. |
| GObjects.GetUsePango | unirun/src/types/ghit.rs:156-158 | `get_use_pango` is the boolean the `use-pango` property reads. |
| GObjects.SetUsePango | unirun/src/types/ghit.rs:160-162 | `set_use_pango` is a successful set of the `use-pango` property. |
| GObjects.GetPluginPid | unirun/src/types/ghit.rs:164-166 | `get_plugin_pid` is the number the `plugin-pid` property reads. |
| GObjects.SetPluginPid | unirun/src/types/ghit.rs:168-170 | `set_plugin_pid` is a successful set of the `plugin-pid` property. |
| GHits.FromHit | unirun/src/types/ghit.rs:179-193 | `GHit::from(hit)` leaves the plugin pid at its default of 0. |
| GHits.ToHit | unirun/src/types/ghit.rs:195-205 | Converting a list item to a hit keeps everything but the plugin pid: converting back gives the same item with pid 0. |
| GHits.HitRoundTrip | unirun/src/types/ghit.rs:179-205 | `Hit::from(GHit::from(h)) == h` for every hit. |
| GHits.ItemRoundTrip | unirun/src/types/ghit.rs:195-205 | The other way round, an item comes back with only its plugin pid reset to 0. It is unchanged exactly when that pid was already 0. |
| GMatches.FromMatch | unirun/src/types/gmatch.rs:172-186 | `GMatch::from(m)` leaves the plugin pid at 0. |
| GMatches.ToMatch | unirun/src/types/gmatch.rs:188-198 | Converting a list item to a match keeps everything but the plugin pid: converting back gives the same item with pid 0. |
| GMatches.MatchRoundTrip | unirun/src/types/gmatch.rs:172-198 | `Match::from(GMatch::from(m)) == m` for every match. |
| GMatches.ItemRoundTrip | unirun/src/types/gmatch.rs:188-198 | An item comes back with only its plugin pid reset to 0. It is unchanged exactly when that pid was 0. |
| AppInfos.ToMatch | plugins/applications/src/app_info.rs:73-82 | The owned conversion gives the match the app's display name as its title. It carries description and icon over, sets `use_pango` to false, and takes a fresh id. |
| AppInfos.RefToMatch | plugins/applications/src/app_info.rs:84-93 | The borrowed conversion does the same. |
| AppInfos.ConversionsAgree | plugins/applications/src/app_info.rs:73-93 | The owned and borrowed conversions agree on every field except the id. Their results are equal exactly when the fresh ids are. |
| AppInfos.ToMatchIgnoresRest | plugins/applications/src/app_info.rs:73-82 | Only display name, description and icon reach the match. Command line, executable, name, desktop id and MIME types do not. |
| AppInfos.Display | plugins/applications/src/app_info.rs:34-44 | An app displays as `(display_name, executable, name)`. |
| AppInfos.DisplayInjective | plugins/applications/src/app_info.rs:34-44 | When display names and executables have the same lengths, two apps display alike exactly when all three shown fields agree. |
| Launch.ExecutableBits | unirun/src/utils.rs:114 | `mode & 0o111 != 0` holds exactly when the owner, group or other execute bit is set. |
| Launch.PluginsToLaunch | unirun/src/utils.rs:103-116 | Every kept entry comes from the directory and is launchable: a regular file, with a well-formed UTF-8 name starting with `unirun-plugin`, and an execute bit. Every launchable entry is kept. PluginsToLaunchAppend and PluginsToLaunchOne state the order and multiplicity. |
| Launch.PluginsToLaunchAppend | unirun/src/utils.rs:103-116 | Filtering distributes over concatenation, so entries keep their directory order and multiplicity. |
| Launch.PluginsToLaunchOne | unirun/src/utils.rs:103-116 | A single entry is kept exactly when it is launchable. |
| Launch.LegacyLaunchable | unirun/src/gui.rs:163-170 | The older test panics only on a regular file with no name or unreadable metadata. |
| Launch.LegacyPluginsToLaunch | unirun/src/gui.rs:159-171 | The older filter panics exactly when some entry's test panics, and then with the panic of the first such entry, since the lazy iterator stops there. Otherwise it keeps exactly the entries whose test passes. |
| Launch.LegacyPluginsToLaunchAppend | unirun/src/gui.rs:159-171 | The older list for a concatenation is the first part's panic, else the second part's, else the two lists one after the other: directory order and multiplicity are kept. |
| Launch.LegacyPluginsToLaunchOne | unirun/src/gui.rs:159-171 | A single entry gives its test's panic, or a list holding the entry exactly when its test passes. |
| Launch.CurrentImpliesLegacy | unirun/src/utils.rs:107-111 | Every binary the current filter launches, the older one launches too. |
| Launch.FiltersDisagreeOnBadUtf8 | unirun/src/gui.rs:165-168 | A plugin-prefixed name with an ill-formed UTF-8 byte is launched by the older, lossy filter but not by the current one. |
| Launch.BuildImage | unirun/src/utils.rs:87-97 | An icon is loaded from a file exactly when its text is an absolute path. Otherwise it is used as a theme icon name. |
| LegacyWire.Transmit | unirun-interface/src/lib.rs:67-113 | Framing keeps a text message a text message and delivers a `Match` entry unchanged. |
| LegacyWire.TransmitTrimmed | unirun-interface/src/lib.rs:67-73 | Text always arrives free of whitespace at both ends. |
| LegacyWire.TransmitClean | unirun-interface/src/lib.rs:67-113 | Text that is clean and fits one frame arrives unchanged. |
| LegacyWire.CountMessage | plugins/applications/src/main.rs:22 | The announcement starts with `ok:`. |
| LegacyWire.CountShort | plugins/applications/src/main.rs:22 | The announcement of any `usize` is at most 24 characters. |
| LegacyWire.CountClean | plugins/applications/src/main.rs:22-26 | The announcement of any `usize` survives framing: it fits and has no NUL or whitespace at either end. |
| LegacyWire.CountFrames | plugins/applications/src/main.rs:22-26 | The announcement arrives at the coordinator exactly as the plugin wrote it. |
| LegacyWire.ParseCount | unirun/src/gui.rs:276-286 | The count the coordinator reads is always a `usize`. |
| LegacyWire.CountParses | unirun/src/gui.rs:276-286 | Parsing `ok: N` yields N. |
| LegacyWire.CountRoundTrip | unirun/src/gui.rs:276-286 | The count the plugin announces is, after framing and parsing, the count the coordinator reads. |
| LegacyWire.QueryMessage | unirun/src/gui.rs:266 | The query is `get_data,` followed by the typed text, unchanged. |
| LegacyWire.ActivateMessage | unirun/src/gui.rs:340-343 | The activation request is `activate,` followed by the match id, unchanged. |
| AppPlugin.Entries | plugins/applications/src/main.rs:106-111 | The matches handed to the streaming loop are the stored pairs' matches, in order. |
| AppPlugin.QueryOf | plugins/applications/src/main.rs:95 | The query is no longer than the command and has no whitespace at either end. |
| AppPlugin.Lookup | plugins/applications/src/main.rs:94-104 | An empty query selects all applications, any other query the search results. Each is paired, in order, with a match whose id is drawn afresh for this query. |
| AppPlugin.FindById | plugins/applications/src/main.rs:116-122 | It finds the first stored pair whose match has the id, and finds none exactly when no match has it. |
| AppPlugin.DesktopIdOf | plugins/applications/src/main.rs:116-123 | The desktop id is found exactly when a stored match has the id and its application has a desktop id, and it is that application's. |
| AppPlugin.StartSending | plugins/applications/src/main.rs:22-39 | `ok: N` is written before any entry. With matches, the first entry follows and streaming starts at index 0. With none, the plugin is back to waiting. |
| AppPlugin.ActivateApp | plugins/applications/src/main.rs:114-137 | The plugin replies, only with `ok` or `err`, exactly when a stored match has the id, its app has a desktop id, and that id resolves. The reply is `ok` exactly when the launch succeeds. A desktop id that does not resolve panics. Otherwise nothing is written and the state is unchanged. |
| AppPlugin.StaleIdIgnored | plugins/applications/src/main.rs:114-122 | When UUID draws never repeat, an id handed out by an earlier query matches none of the current matches. Activating it finds nothing and writes nothing. |
| AppPlugin.CommandsDisjoint | plugins/applications/src/main.rs:94-114 | No input starts with both `get_data` and `activate`, so at most one of the two command branches runs. |
| AppPlugin.Command | plugins/applications/src/main.rs:83-143 | `get_data` starts a stream for the query's lookup and counts the query. `activate` goes to `ActivateApp` with the id after `activate,`, trimmed. Empty input stops the plugin. Any other input is ignored. |
| AppPlugin.GetDataStarts | plugins/applications/src/main.rs:94-112 | In the command loop, any input starting with `get_data` starts a stream for its query's lookup. |
| AppPlugin.Step | plugins/applications/src/main.rs:28-143 | Covers both loops. Waiting input goes to the command loop. In a stream, `abort` ends the stream at once, any response other than `ok` resends the current entry, and `ok` sends the next entry or returns to waiting. Once stopped or crashed, nothing happens. Only `get_data` changes the query count. |
| AppPlugin.SendingNeverStops | plugins/applications/src/main.rs:57-64 | The `main_loop.quit()` branch inside the stream is unreachable. An empty response resends the entry instead. |
| AppPlugin.AckGated | plugins/applications/src/main.rs:28-66 | With no `abort` in the responses, each response makes the plugin write exactly one entry: the one at the current index plus the number of `ok`s so far. The index advances only on `ok`. |
| AppPlugin.StreamCompletes | plugins/applications/src/main.rs:28-67 | Acknowledging each remaining entry with `ok` sends the later entries once each, in order, and returns the plugin to waiting. |
| AppPlugin.RunAppend | plugins/applications/src/main.rs:83-144 | Running the command loop over two input sequences in turn is the same as running it over their concatenation. |
| LegacySession.AsU64 | unirun/src/gui.rs:300-301 | The `i32` pid cast to `u64` keeps a non-negative pid and sign-extends a negative one. |
| LegacySession.AsU64Injective | unirun/src/gui.rs:300-301 | The cast maps distinct pids to distinct numbers. |
| LegacySession.Tagged | unirun/src/gui.rs:298-304 | The stored item converts back to the received match and carries the connection's pid. |
| LegacySession.Open | unirun/src/gui.rs:256-268 | A session writes `abort`, then `get_data,<text>`, then waits for the count. |
| LegacySession.ReadingFor | unirun/src/gui.rs:290 | The session expects exactly `count` entries, and a count of 0 ends it at once. |
| LegacySession.Receive | unirun/src/gui.rs:270-309 | Before the count, every message not starting with `ok:` is dropped and an `ok:` message sets the count. After it, each entry is stored with the pid and acked with `ok`. Text where an entry is due, or a failed read, panics. |
| LegacySession.EndIsFinal | unirun/src/gui.rs:255-310 | A finished or panicked session ignores every later read. |
| LegacySession.CountWaitDiscards | unirun/src/gui.rs:271-274 | Reads that do not start with `ok:` are dropped without writing or storing. |
| LegacySession.ReadEntries | unirun/src/gui.rs:290-309 | Reading N entries stores each one, in order and tagged with the pid, and writes exactly N `ok`s. |
| LegacySession.TextInsteadOfEntry | unirun/src/gui.rs:292-295 | A text message where an entry is due panics the session. |
| LegacySession.CountStep | unirun/src/gui.rs:272-288 | Receiving the plugin's `ok: N` makes the session expect exactly N entries. |
| LegacySession.GarbledCountEndsSession | unirun/src/gui.rs:270-290 | An `ok:` announcement whose number does not parse as a `usize` is taken as 0. The session then ends at once, with no acks written and nothing stored, and ignores every later read. |
| LegacySession.CountedSession | unirun/src/gui.rs:276-309 | After `ok: N` and N entries, the session is done with N acks and the N entries stored. Later reads are ignored. |
| LegacySession.WholeSession | unirun/src/gui.rs:255-310 | Stray replies before the count change nothing. Then the counted entries are all stored and acked. |
| Session.Tagged | unirun/src/utils.rs:209-215 | The stored item converts back to the received hit and carries the connection's pid. |
| Session.Open | unirun/src/utils.rs:183-192 | A session writes `Abort`, then `GetData(text)`, then waits for the acknowledgement of that second package's id. |
| Session.Receive | unirun/src/utils.rs:194-229 | The ack wait drops every package except `Result((request id, Ok))`, storing nothing. In the stream, a `Hit` is stored with the pid and answered with `Result((its id, Ok))`. `Abort` ends the session. Any other payload is the `unreachable!()` panic. |
| Session.EndIsFinal | unirun/src/utils.rs:225-227 | A finished or panicked session ignores every later read. |
| Session.AckWaitDiscards | unirun/src/utils.rs:194-202 | Packages that are not the id-matched `Ok` result leave the ack wait unchanged, with no writes and no stores. |
| Session.StreamHits | unirun/src/utils.rs:204-224 | A run of hits stores each one, in arrival order and tagged with the pid, and answers each with exactly one acknowledgement of its own id. |
| Session.WholeSession | unirun/src/utils.rs:182-231 | With stray packages, the ack, some hits, `Abort` and then anything: the session finishes with exactly the hits stored and acknowledged, in order. |
| Coordinator.Init | unirun/src/types/mod.rs:15-23 | The default runtime has an empty store and pool and satisfies the coordinator invariant. |
| Coordinator.ClearEntryPool | unirun/src/utils.rs:134-146 | Every held task is aborted and the pool emptied. Nothing else changes. |
| Coordinator.OnEntryChanged | unirun/src/utils.rs:163-177 | The old round's tasks are aborted and the store emptied. Then there is exactly one new task per connection, with that connection's pid and fresh handles. Connections are not filtered. |
| Coordinator.HandleSelf | unirun/src/utils.rs:28-43 | The coordinator's own connection acts only on `Quit`, and touches neither registry, pool nor store. |
| Coordinator.Accept | unirun/src/utils.rs:27-53 | A connection from the coordinator's own pid is never registered. Any other is appended and triggers a query for the empty text, without quitting. |
| Coordinator.Poll | unirun/src/utils.rs:183-192 | A live spawned task writes `Abort`, then `GetData(text)`, to its own connection and waits for that request's ack. Every other task is unchanged. A handle no longer in the pool does nothing. |
| Coordinator.Deliver | unirun/src/utils.rs:194-229 | A read only appends to the store and never changes the connections or the pool's handles. Every other task is unchanged. A read for an aborted task does nothing. |
| Coordinator.Apply | unirun/src/utils.rs:24-234 | No event takes back anything already sent. Only a new query round empties the store: a changed entry, or another process connecting. Every other event at most appends to the store. |
| Coordinator.ApplyAll | unirun/src/utils.rs:24-234 | Over any run of events the sent log only grows. Over reads and polls alone the store only grows. |
| Coordinator.OnEntryChangedInv | unirun/src/utils.rs:163-177 | A new round keeps the invariant. Every task points at a registered connection with its pid, handles increase, aborted handles are older than live ones, and every stored hit belongs to a live task of its pid. |
| Coordinator.PollInv | unirun/src/utils.rs:183-192 | A session's opening writes keep the invariant. |
| Coordinator.DeliverInv | unirun/src/utils.rs:194-229 | A session's read keeps the invariant. |
| Coordinator.ApplyInv | unirun/src/utils.rs:27-53 | Every event keeps the invariant. |
| Coordinator.ApplyAllInv | unirun/src/utils.rs:163-234 | Any sequence of events keeps the invariant. |
| Coordinator.AbortedTaskInert | unirun/src/utils.rs:143-144 | An aborted task takes no further step: its polls and reads change nothing. |
| Coordinator.StoredPidsRegistered | unirun/src/utils.rs:209-213 | Every stored hit's pid is the pid of some registered connection. |
| Coordinator.FindConn | unirun/src/utils.rs:249-252 | It finds the first connection with the pid, and finds none exactly when no connection has it. |
| Coordinator.Activate | unirun/src/utils.rs:236-290 | A missing row panics. `Activate(hit id)` goes to the first connection with the row's pid. `Quit` is sent exactly when the reply is `Result((request id, Ok))`. An `Err(e)` reply notifies with `e`, and an `Ok` for another request is ignored. The activation panics exactly when the read fails or the reply is not a `Result`. |
| Coordinator.ActivateFindsConnection | unirun/src/utils.rs:248-252 | Under the invariant, activating an existing row always finds its connection. |
| LegacyCoordinator.FilterConnections | unirun/src/gui.rs:221-233 | It keeps exactly the connected connections, in their original order. |
| LegacyCoordinator.FilterConnectionsAppend | unirun/src/gui.rs:221-233 | Filtering distributes over concatenation, so the original order is preserved. |
| LegacyCoordinator.FilterConnectionsKeepsLive | unirun/src/gui.rs:221-233 | When all connections are live, filtering changes nothing, and filtering twice is filtering once. |
| LegacyCoordinator.FilterConnectionsDrops | unirun/src/gui.rs:221-233 | One disconnected connection makes the list strictly shorter. |
| LegacyCoordinator.ClearEntryPool | unirun/src/gui.rs:205-219 | Every held task is aborted and the pool emptied. Nothing else changes. |
| LegacyCoordinator.OnEntryChanged | unirun/src/gui.rs:235-250 | Disconnected peers are dropped, the old tasks aborted and the store emptied. Then there is one new task per remaining connection. |
| LegacyCoordinator.Drop | unirun/src/gui.rs:226 | A peer closing its end marks only that connection as no longer connected. |
| LegacyCoordinator.Poll | unirun/src/gui.rs:256-268 | A live spawned task writes `abort`, then `get_data,<text>`, to its own connection and waits for the count. Every other task is unchanged. |
| LegacyCoordinator.Deliver | unirun/src/gui.rs:270-309 | A read only appends to the store and never changes the connections or the pool's handles. Every other task is unchanged. |
| LegacyCoordinator.Apply | unirun/src/gui.rs:204-312 | No event takes back anything already sent. Only a changed entry empties the store, and every other event at most appends to it. |
| LegacyCoordinator.ApplyAll | unirun/src/gui.rs:204-312 | Over any run of events the sent log only grows. Without a changed entry the store only grows. |
| LegacyCoordinator.OnEntryChangedInv | unirun/src/gui.rs:235-250 | A new round keeps the invariant: tasks point at their connection's pid, and stored matches belong to live tasks of their pid. |
| LegacyCoordinator.PollInv | unirun/src/gui.rs:256-268 | A session's opening writes keep the invariant. |
| LegacyCoordinator.DeliverInv | unirun/src/gui.rs:270-309 | A session's read keeps the invariant. |
| LegacyCoordinator.ApplyInv | unirun/src/gui.rs:204-313 | Every event keeps the invariant. |
| LegacyCoordinator.ApplyAllInv | unirun/src/gui.rs:204-313 | Any sequence of events keeps the invariant. |
| LegacyCoordinator.AbortedTaskInert | unirun/src/gui.rs:214-217 | An aborted task takes no further step. |
| LegacyCoordinator.StoredPidsRegistered | unirun/src/gui.rs:298-302 | Every stored match's pid is the cast pid of some connection. |
| LegacyCoordinator.FindConn | unirun/src/gui.rs:330-338 | It finds the first connection whose cast pid matches, and finds none exactly when none matches. |
| LegacyCoordinator.Activate | unirun/src/gui.rs:315-355 | A missing or out-of-range row panics. `activate,<id>` goes to the matching connection. `quit` is sent exactly when the single reply is `ok`, and any other reply is ignored. A failed read panics, and only then. |
| LegacyCoordinator.ActivateFindsConnection | unirun/src/gui.rs:330-338 | Under the invariant, activating an existing row always finds its connection. |
| LegacyPair.Heard | unirun-interface/src/lib.rs:67-73 | The plugin hears one text per message the coordinator wrote. |
| LegacyPair.HeardAt | unirun-interface/src/lib.rs:67-73 | The k-th text the plugin hears is the framed k-th write. |
| LegacyPair.Delivered | unirun-interface/src/lib.rs:67-73 | The coordinator gets one successful read per message the plugin wrote. |
| LegacyPair.DeliveredAt | unirun-interface/src/lib.rs:67-73 | The k-th read is the framed k-th write. |
| LegacyPair.Oks | unirun/src/gui.rs:306-308 | The acknowledgements the plugin hears are all `ok`. |
| LegacyPair.EntryMsgs | plugins/applications/src/main.rs:34-39 | The plugin writes one entry message per stored match, in order. |
| LegacyPair.AbortArrives | unirun/src/gui.rs:257 | `abort` survives framing unchanged. |
| LegacyPair.OkArrives | unirun/src/gui.rs:306 | `ok` survives framing unchanged. |
| LegacyPair.QueryArrives | plugins/applications/src/main.rs:94-95 | The plugin's query text is the typed text with every leading `get_data,` stripped and trimmed. A text that has neither is received exactly as typed. |
| LegacyPair.ActivateArrives | plugins/applications/src/main.rs:114-115 | The `activate,<id>` the coordinator writes reaches `ActivateApp` with exactly that id, for an id clean at both ends that does not itself start with `activate,`. |
| LegacyPair.QueryPrefixSwallowed | plugins/applications/src/main.rs:95 | Typing `get_data,` yourself is indistinguishable from not typing it, because the plugin strips every leading copy. |
| LegacyPair.AbortIgnored | plugins/applications/src/main.rs:83-143 | An `abort` that reaches the waiting loop writes nothing and changes nothing. |
| LegacyPair.OpeningStarts | plugins/applications/src/main.rs:94-112 | The session's opening pair starts the plugin's stream for the query it carries. |
| LegacyPair.StreamAnswered | plugins/applications/src/main.rs:22-67 | Acking every entry with `ok` makes the plugin write the count and then every entry once, in order, and return to waiting. |
| LegacyPair.PluginAnswers | plugins/applications/src/main.rs:94-112 | Given the coordinator's opening and acks, the plugin's whole answer is the count, then its matches, in order. |
| LegacyPair.EntriesDelivered | plugins/applications/src/main.rs:34-39 | Each entry the plugin writes is read by the coordinator as the same `Match`. |
| LegacyPair.AnswerDelivered | plugins/applications/src/main.rs:22-39 | The whole answer arrives as the count message followed by the entries. |
| LegacyPair.CoordinatorReads | unirun/src/gui.rs:270-309 | Reading the plugin's answer, the coordinator stores every match in order, tagged with the plugin's pid, and acks each one. |
| LegacyPair.OpeningHeard | unirun/src/gui.rs:257-268 | The plugin hears the session's opening as `abort` and then the query, unchanged. |
| LegacyPair.AcksHeard | unirun/src/gui.rs:306-308 | The coordinator's acks are heard by the plugin as exactly `ok` each. |
| LegacyPair.Exchange | plugins/applications/src/main.rs:22-67 | The plugin answered with its count and entries ends up waiting. The coordinator's session reading that answer ends done, with every match stored and acked. |
| LegacyPair.Conversation | unirun/src/gui.rs:255-310 | End to end: what the coordinator writes is what the plugin hears. The plugin's answer leaves the coordinator with exactly the plugin's matches, in order, each tagged with its pid and acked once. |

## Left out

- Socket I/O is not modelled: gio socket services, connections, flushing and the read/write futures. Each session's reads are an input sequence, and its writes an output sequence.
- Every write is assumed to succeed. The source `unwrap`s each write, so a failed write would panic. Failed reads are modelled, as a panic in the coordinators and as the empty string in the plugin.
- glib task spawning and `JoinHandle::abort` are not modelled as concurrency. Events are applied one at a time, and an aborted handle is inert.
- A panic does not stop the coordinators. It is recorded in `faults`, and `ApplyAll` keeps applying events, whereas the program would have ended. The invariants therefore hold over more runs than the program can reach.
- Peer credentials are assumed always readable. Each connection carries its pid. The source panics when they are not: `creds.pid.expect(..)` at unirun/src/utils.rs:47, `credentials.unwrap().pid.unwrap()` at utils.rs:212 and 251, and `credentials().unwrap().unix_pid().unwrap()` at unirun/src/gui.rs:301 and 334-336.
- The activation read race is not modelled. Activation reads the plugin's connection once (utils.rs:260, gui.rs:346-349), while that connection's session may still be reading it (utils.rs:194-224, gui.rs:270-309). A plugin still streaming treats `activate,<id>` as a response other than `ok` and resends its current entry (plugins/applications/src/main.rs:57-59), so the activation reads that entry and nothing is launched. The reply is a free parameter of `Activate` in both coordinators.
- The legacy stale-frame race is not modelled. An `ok` or `abort` that is still in flight when the next round starts can be read by the wrong loop.
- serde_json itself is not modelled. Typed packages are decoded from a `Json` value tree, which stands for the buffered content serde reads a flattened struct from, not from JSON text. Number values, escapes and whitespace are therefore out of scope. serde's error messages are collapsed into three kinds: an unknown variant naming its tag, no variant, and malformed. A legacy entry is modelled as the `Match` it serialises.
- The current generation's transport, `unirun_if::socket::Stream`, is not part of this model. Its framing is unknown, so a current-generation read is modelled only as a decoded package or a failure. The lib.rs framing is modelled for the older generation alone.
- Coordinator.Poll: the `Abort` and `GetData` writes of a newly polled session are one step. The source awaits between them, and an abort of the session in between is not modelled.
- LegacyCoordinator.Poll: the two opening writes of a legacy session are one step, though the source awaits between them. An abort in between is not modelled.
- Session.Receive: appending a hit to the store and writing its acknowledgement are one step. The source awaits the write after the append, and an abort in between is not modelled.
- LegacyWire.Msg: a `Text` message is assumed never to be the JSON of a `Match`. The model reads every `Text` in the entry loop as a failed parse, which panics. In the source, a plugin text that happened to be a match's JSON would be read as an entry.
- AppPlugin.StaleIdIgnored: it assumes the UUID draws never repeat (`DistinctIds`). UUID v4 makes this overwhelmingly likely, not certain.
- LegacyWire.Transmit: it delivers an entry unchanged. That assumes the serialised `Match` fits one frame. Its JSON text starts with `{` and ends with `}`, so it is already clean, but an entry over 4096 bytes would be cut in the source.
- LegacyPair.Conversation: it requires `get_data,<text>` to fit one frame and to have no NUL or whitespace at either end. For other texts, QueryArrives and FrameRoundTripOnlyIfClean say what the plugin hears instead.
- UUID v4 generation is random, so fresh package, hit and match ids are parameters.
- The application database is not modelled: `gio::AppInfo::all`, `DesktopAppInfo::search` and `DesktopAppInfo::new(..).launch`. They are the plugin's `Env`: two lists, a resolution predicate and a launch outcome.
- The GTK UI is not modelled: window setup, key handling, list binding, `build_label`, the `From<GHit>`/`From<GMatch>` widget builders, and the desktop notification. An `Err` reply is modelled only as the `Notify` effect with its text.
- Filesystem and process work is not modelled: the directory scan, metadata reads, `Command::spawn`, runtime-directory creation and the `glib::user_runtime_dir` lookup. A directory entry is what the scan would report, and the user runtime directory is a parameter.
- unirun/src/main.rs is not part of this model: process setup, the Ctrl-C handler and shutdown.
- LegacyCoordinator: new connections are registered by the current revision's socket service, so the older coordinator's connection list is given at start and only shrinks, when a peer drops.
- The `GHit`/`GMatch` `Default` and `new` constructors are the `DEFAULT` constant. `From<Hit>` and `From<Match>` build from it.
- Helpers need no row of their own: `KeyCount`, `FirstValue`, `LookupCons`, `KeyCountAppend`, `FirstValueAppend`, `SwapKeepsLookup`, `DropKeepsLookup`, `HitFieldLookup`, `FirstTaggedAppend`, `IsUnit`, `Repeat`, `ConcatAssoc`, `PrefixSplit`, `TrimStartMatchesStep`, `RunPair`, `Min`, `Zeros`, `Nuls`, `Pow10`, `Split64`, `Then`, `Run`, `RunCons`, `ThenAssoc`, `OkCount` and similar. Their facts appear in the lemmas listed above.

=== FILE: app_info.dfy ===
/** The applications plugin's record of one installed application
    (plugins/applications/src/app_info.rs) and its conversion to the
    result record it streams. Enumerating, searching and reading
    `gio::AppInfo` objects is not modelled: an `AppInfo` is the record
    `From<T: IsA<gio::AppInfo>>` would have filled in. */
module AppInfos {
  import opened Wrappers
  import opened Text
  import MatchIf

  /** Paths are kept as the text `to_string_lossy` shows. */
  datatype AppInfo = AppInfo(
    commandline: Option<string>,
    description: Option<string>,
    displayName: string,
    executable: string,
    icon: Option<string>,
    id: Option<string>,
    name: string,
    supportedTypes: seq<string>)

  /** `From<AppInfo> for Match`: the display name is the title, description
      and icon are carried over, markup is never used, and the id is fresh. */
  function ToMatch(a: AppInfo, freshId: string): (m: MatchIf.Match)
    ensures m.title == a.displayName && m.description == a.description && m.icon == a.icon
    ensures !m.usePango && m.id == freshId
  {
    MatchIf.New(freshId, a.displayName, a.description, a.icon, false)
  }

  /** `From<&AppInfo> for Match`. */
  function RefToMatch(a: AppInfo, freshId: string): (m: MatchIf.Match)
    ensures m.title == a.displayName && m.description == a.description && m.icon == a.icon
    ensures !m.usePango && m.id == freshId
  {
    MatchIf.New(freshId, a.displayName, a.description, a.icon, false)
  }

  /** The owned and borrowed conversions agree on every field but the id,
      which each draws afresh. */
  lemma ConversionsAgree(a: AppInfo, id1: string, id2: string)
    ensures ToMatch(a, id1).(id := id2) == RefToMatch(a, id2)
    ensures ToMatch(a, id1) == RefToMatch(a, id2) <==> id1 == id2
  {
  }

  /** Only the four shown fields reach the match: two applications that
      agree on them convert to the same match. */
  lemma ToMatchIgnoresRest(a: AppInfo, b: AppInfo, freshId: string)
    requires a.displayName == b.displayName && a.description == b.description && a.icon == b.icon
    ensures ToMatch(a, freshId) == ToMatch(b, freshId)
  {
  }

  /** `Display for AppInfo`: `(display_name, executable, name)`. */
  function Display(a: AppInfo): (r: string)
    ensures |r| == |a.displayName| + |a.executable| + |a.name| + 6
    ensures StartsWith(r, "(" + a.displayName + ", ")
    ensures r[|r| - |a.name| - 1..] == a.name + ")"
  {
    "(" + a.displayName + ", " + a.executable + ", " + a.name + ")"
  }

  /** Where each field sits in the rendering. */
  lemma DisplayFields(a: AppInfo)
    ensures var r := Display(a);
            var n := |a.displayName|;
            var e := |a.executable|;
            && r[1..n + 1] == a.displayName
            && r[n + 3..n + 3 + e] == a.executable
            && r[n + e + 5..|r| - 1] == a.name
  {
    var r := Display(a);
    var n := |a.displayName|;
    var e := |a.executable|;
    var head := "(" + a.displayName + ", ";
    var mid := head + a.executable + ", ";
    assert r == mid + a.name + ")";
    assert |head| == n + 3 && |mid| == n + e + 5;
    assert head[1..n + 1] == a.displayName;
    assert r[..n + 3] == head;
    assert (head + a.executable)[n + 3..] == a.executable;
    assert r[..n + 3 + e] == head + a.executable;
    assert r[..n + e + 5] == mid;
  }

  /** With the display name and executable of known lengths, the rendering
      determines all three shown fields. */
  lemma DisplayInjective(a: AppInfo, b: AppInfo)
    requires |a.displayName| == |b.displayName| && |a.executable| == |b.executable|
    ensures Display(a) == Display(b) <==>
            a.displayName == b.displayName && a.executable == b.executable && a.name == b.name
  {
    DisplayFields(a);
    DisplayFields(b);
  }
}

=== FILE: app_plugin.dfy ===
/** The applications plugin's side of the string protocol
    (plugins/applications/src/main.rs): a command loop that answers
    `get_data,<text>` by announcing and streaming its matches one at a time,
    each gated on the coordinator's `ok`, answers `activate,<id>` by
    launching the application, and stops on empty input.

    Each input is the text one `stream_read_future` returned; a failed read
    is already the empty string, as `unwrap_or_else` makes it. The
    application database, desktop-entry lookup, launching and UUID
    generation are the `Env` the plugin runs in. */
module AppPlugin {
  import opened Wrappers
  import opened Text
  import opened LegacyWire
  import MatchIf
  import opened AppInfos

  datatype Env = Env(
    all: seq<AppInfo>,                  // `AppInfo::all()`
    search: string -> seq<AppInfo>,     // `AppInfo::search(text)`
    resolves: string -> bool,           // `DesktopAppInfo::new(id)` is `Some`
    launches: string -> bool,           // `launch` of that entry succeeds
    freshId: (nat, nat) -> string)      // the id `Match::new` draws for the k-th application of the r-th query

  datatype Mode =
    | Waiting                 // in the command loop
    | Sending(index: nat)     // in `handle_get_data`, entry `index` written, awaiting its `ok`
    | Stopped                 // `main_loop.quit()`
    | Crashed(why: Panic)

  /** The plugin's state: the last query's applications with their matches,
      where it stands, and how many queries it has answered (every query
      converts its applications afresh, so each draws new ids). */
  datatype Plugin = Plugin(matches: seq<(AppInfo, MatchIf.Match)>, mode: Mode, queries: nat)

  predicate Good(p: Plugin) {
    p.mode.Sending? ==> p.mode.index < |p.matches|
  }

  const START: Plugin := Plugin([], Waiting, 0)

  /** The entries `handle_get_data` streams. */
  function Entries(pairs: seq<(AppInfo, MatchIf.Match)>): (ms: seq<MatchIf.Match>)
    ensures |ms| == |pairs| && forall k :: 0 <= k < |pairs| ==> ms[k] == pairs[k].1
  {
    seq(|pairs|, k requires 0 <= k < |pairs| => pairs[k].1)
  }

  /** The query of a `get_data` command: every leading `get_data,` removed,
      then trimmed. */
  function QueryOf(data: string): (q: string)
    ensures |q| <= |data|
    ensures |q| > 0 ==> !IsWhitespace(q[0]) && !IsWhitespace(q[|q| - 1])
  {
    Trim(TrimStartMatches(data, "get_data,"))
  }

  /** The applications query number `round` selects: all of them for an
      empty query, the search results otherwise, each paired with a match
      carrying an id drawn for this query. */
  function Lookup(env: Env, round: nat, text: string): (pairs: seq<(AppInfo, MatchIf.Match)>)
    ensures var apps := if text == "" then env.all else env.search(text);
            |pairs| == |apps| &&
            forall k :: 0 <= k < |apps| ==> pairs[k] == (apps[k], ToMatch(apps[k], env.freshId(round, k)))
  {
    var apps := if text == "" then env.all else env.search(text);
    seq(|apps|, k requires 0 <= k < |apps| => (apps[k], ToMatch(apps[k], env.freshId(round, k))))
  }

  /** UUID v4 draws never repeat. */
  ghost predicate DistinctIds(env: Env) {
    forall r1: nat, k1: nat, r2: nat, k2: nat :: (r1, k1) != (r2, k2) ==> env.freshId(r1, k1) != env.freshId(r2, k2)
  }

  /** The first stored pair whose match has the given id (`find_map`). */
  function FindById(pairs: seq<(AppInfo, MatchIf.Match)>, id: string): (r: Option<nat>)
    ensures r.Some? ==> r.value < |pairs| && MatchIf.GetId(pairs[r.value].1) == id
    ensures r.Some? ==> forall j :: 0 <= j < r.value ==> MatchIf.GetId(pairs[j].1) != id
    ensures r.None? <==> forall j :: 0 <= j < |pairs| ==> MatchIf.GetId(pairs[j].1) != id
  {
    if |pairs| == 0 then None
    else if MatchIf.GetId(pairs[0].1) == id then Some(0)
    else
      match FindById(pairs[1..], id)
      case None => None
      case Some(j) => Some(j + 1)
  }

  /** The desktop id of the application whose stored match has the given
      id, when there is such a match and its application has one. */
  function DesktopIdOf(pairs: seq<(AppInfo, MatchIf.Match)>, id: string): (r: Option<string>)
    ensures r.Some? <==> FindById(pairs, id).Some? && pairs[FindById(pairs, id).value].0.id.Some?
    ensures r.Some? ==> r == pairs[FindById(pairs, id).value].0.id
  {
    match FindById(pairs, id)
    case None => None
    case Some(j) => pairs[j].0.id
  }

  /** `handle_get_data`'s opening: the count, then the first entry. */
  function StartSending(pairs: seq<(AppInfo, MatchIf.Match)>, queries: nat): (r: (Plugin, seq<Msg>))
    ensures Good(r.0) && r.0.matches == pairs && r.0.queries == queries
    ensures |r.1| > 0 && r.1[0] == Text(CountMessage(|pairs|))
    ensures |pairs| > 0 ==> r.1 == [r.1[0], Entry(pairs[0].1)] && r.0.mode == Sending(0)
    ensures |pairs| == 0 ==> r.1 == [r.1[0]] && r.0.mode == Waiting
  {
    var announce := Text(CountMessage(|pairs|));
    if |pairs| == 0 then (Plugin(pairs, Waiting, queries), [announce])
    else (Plugin(pairs, Sending(0), queries), [announce, Entry(pairs[0].1)])
  }

  /** The `activate` branch: a reply only when a stored match has the id and
      its application has a desktop id; an unresolvable desktop id
      panics. */
  function ActivateApp(p: Plugin, env: Env, id: string): (r: (Plugin, seq<Msg>))
    ensures r.0.matches == p.matches && r.0.queries == p.queries
    ensures var target := DesktopIdOf(p.matches, id);
            && (|r.1| > 0 <==> target.Some? && env.resolves(target.value))
            && (|r.1| > 0 ==> r.1 == [Text("ok")] || r.1 == [Text("err")])
            && (|r.1| > 0 ==> (r.1 == [Text("ok")] <==> env.launches(target.value)))
            && (target.Some? && !env.resolves(target.value) ==> r.0.mode == Crashed(NoDesktopEntry))
            && (!(target.Some? && !env.resolves(target.value)) ==> r.0.mode == p.mode)
  {
    match FindById(p.matches, id)
    case None => (p, [])
    case Some(j) =>
      match p.matches[j].0.id
      case None => (p, [])
      case Some(appId) =>
        if !env.resolves(appId) then (p.(mode := Crashed(NoDesktopEntry)), [])
        else (p, [Text(if env.launches(appId) then "ok" else "err")])
  }

  /** An id handed out by an earlier query matches none of the current
      query's matches, so activating it finds nothing and writes nothing. */
  lemma {:induction false} StaleIdIgnored(p: Plugin, env: Env, text: string, earlier: nat, k: nat)
    requires DistinctIds(env)
    requires p.queries > 0 && p.matches == Lookup(env, p.queries - 1, text)
    requires earlier < p.queries - 1
    ensures FindById(p.matches, env.freshId(earlier, k)) == None
    ensures ActivateApp(p, env, env.freshId(earlier, k)) == (p, [])
  {
    var id := env.freshId(earlier, k);
    forall j | 0 <= j < |p.matches|
      ensures MatchIf.GetId(p.matches[j].1) != id
    {
      assert p.matches[j].1.id == env.freshId(p.queries - 1, j);
      assert (p.queries - 1, j) != (earlier, k);
    }
  }

  /** `get_data` and `activate` cannot both begin one input. */
  lemma CommandsDisjoint(data: string)
    ensures !(StartsWith(data, "get_data") && StartsWith(data, "activate"))
  {
  }

  /** One input to the command loop. */
  function Command(p: Plugin, env: Env, data: string): (r: (Plugin, seq<Msg>))
    requires Good(p) && p.mode.Waiting?
    ensures Good(r.0)
    ensures StartsWith(data, "get_data") ==>
              r == StartSending(Lookup(env, p.queries, QueryOf(data)), p.queries + 1)
    ensures !StartsWith(data, "get_data") ==> r.0.queries == p.queries
    ensures StartsWith(data, "activate") ==>
              r == ActivateApp(p, env, Trim(TrimStartMatches(data, "activate,")))
    ensures data == "" ==> r == (p.(mode := Stopped), [])
    ensures data != "" && !StartsWith(data, "get_data") && !StartsWith(data, "activate") ==> r == (p, [])
  {
    CommandsDisjoint(data);
    if StartsWith(data, "get_data") then StartSending(Lookup(env, p.queries, QueryOf(data)), p.queries + 1)
    else if StartsWith(data, "activate") then ActivateApp(p, env, Trim(TrimStartMatches(data, "activate,")))
    else if data == "" then (p.(mode := Stopped), [])
    else (p, [])
  }

  /** One input, in whichever loop the plugin is in. */
  function Step(p: Plugin, env: Env, data: string): (r: (Plugin, seq<Msg>))
    requires Good(p)
    ensures Good(r.0)
    ensures p.mode.Waiting? ==> r == Command(p, env, data)
    ensures !(p.mode.Waiting? && StartsWith(data, "get_data")) ==> r.0.queries == p.queries
    ensures p.mode.Sending? && StartsWith(data, "abort") ==> r == (p.(mode := Waiting), [])
    ensures p.mode.Sending? && !StartsWith(data, "abort") && data != "ok" ==>
              r == (p, [Entry(p.matches[p.mode.index].1)])
    ensures p.mode.Sending? && data == "ok" ==>
              r == if p.mode.index + 1 < |p.matches|
                   then (p.(mode := Sending(p.mode.index + 1)), [Entry(p.matches[p.mode.index + 1].1)])
                   else (p.(mode := Waiting), [])
    ensures (p.mode.Stopped? || p.mode.Crashed?) ==> r == (p, [])
  {
    match p.mode
    case Waiting => Command(p, env, data)
    case Sending(i) =>
      if StartsWith(data, "abort") then (p.(mode := Waiting), [])
      else if data != "ok" then (p, [Entry(p.matches[i].1)])
      else if data == "" then (p.(mode := Stopped), [])
      else if i + 1 < |p.matches| then (p.(mode := Sending(i + 1)), [Entry(p.matches[i + 1].1)])
      else (p.(mode := Waiting), [])
    case _ => (p, [])
  }

  /** Sequencing two runs: the second starts where the first ended. */
  function Then(first: (Plugin, seq<Msg>), second: (Plugin, seq<Msg>)): (Plugin, seq<Msg>) {
    (second.0, first.1 + second.1)
  }

  /** The `main_loop.quit()` inside the stream loop is dead: an empty
      response has already been sent back round by the `!= "ok"` branch,
      so streaming never stops the plugin, even when reads keep failing. */
  lemma SendingNeverStops(p: Plugin, env: Env, data: string)
    requires Good(p) && p.mode.Sending?
    ensures !Step(p, env, data).0.mode.Stopped?
    ensures data == "" ==> Step(p, env, data) == (p, [Entry(p.matches[p.mode.index].1)])
  {
  }

  /** A sequence of inputs, in order. */
  function Run(p: Plugin, env: Env, inputs: seq<string>): (r: (Plugin, seq<Msg>))
    requires Good(p)
    ensures Good(r.0)
    decreases |inputs|
  {
    if |inputs| == 0 then (p, [])
    else
      var first := Step(p, env, inputs[0]);
      Then(first, Run(first.0, env, inputs[1..]))
  }

  function OkCount(rs: seq<string>): (n: nat)
    ensures n <= |rs|
  {
    if |rs| == 0 then 0 else OkCount(rs[..|rs| - 1]) + (if rs[|rs| - 1] == "ok" then 1 else 0)
  }

  lemma OkCountCons(r: string, rs: seq<string>)
    ensures OkCount([r] + rs) == (if r == "ok" then 1 else 0) + OkCount(rs)
    decreases |rs|
  {
    if |rs| > 0 {
      assert ([r] + rs)[..|rs|] == [r] + rs[..|rs| - 1];
      OkCountCons(r, rs[..|rs| - 1]);
    } else {
      assert [r] + rs == [r];
    }
  }

  lemma {:induction false} OkCountPrefix(rs: seq<string>, j: nat)
    requires j <= |rs|
    ensures OkCount(rs[..j]) <= OkCount(rs)
    decreases |rs| - j
  {
    if j < |rs| {
      assert rs[..j + 1][..j] == rs[..j];
      OkCountPrefix(rs, j + 1);
    } else {
      assert rs[..j] == rs;
    }
  }

  /** The acknowledgements among the first `k + 1` responses. */
  function AcksThrough(rs: seq<string>, k: nat): (n: nat)
    requires k < |rs|
    ensures n <= OkCount(rs)
  {
    OkCountPrefix(rs, k + 1);
    OkCount(rs[..k + 1])
  }

  lemma AcksThroughFirst(rs: seq<string>)
    requires 0 < |rs|
    ensures AcksThrough(rs, 0) == if rs[0] == "ok" then 1 else 0
  {
    assert rs[..1] == [rs[0]];
    OkCountCons(rs[0], []);
  }

  lemma AcksThroughCons(rs: seq<string>, k: nat)
    requires 0 < k < |rs|
    ensures AcksThrough(rs, k) == (if rs[0] == "ok" then 1 else 0) + AcksThrough(rs[1..], k - 1)
  {
    assert rs[..k + 1] == [rs[0]] + rs[1..][..k];
    OkCountCons(rs[0], rs[1..][..k]);
  }

  /** One response while streaming, neither `abort` nor the last `ok`:
      exactly one entry goes out, the next one on an `ok` and the same one
      again otherwise. */
  lemma SendingStep(p: Plugin, env: Env, data: string) returns (r: (Plugin, seq<Msg>))
    requires Good(p) && p.mode.Sending? && !StartsWith(data, "abort")
    requires p.mode.index + (if data == "ok" then 1 else 0) < |p.matches|
    ensures r == Step(p, env, data)
    ensures var i := p.mode.index + (if data == "ok" then 1 else 0);
            r == (p.(mode := Sending(i)), [Entry(p.matches[i].1)])
  {
    r := Step(p, env, data);
  }

  /** Ack-gated streaming: while the coordinator has acknowledged fewer
      than all entries and has not aborted, the plugin answers every
      response with exactly one entry, namely the one after the last
      acknowledged, so entries go out in list order and each index moves on
      only on an `ok`. */
  lemma {:induction false} AckGated(p: Plugin, env: Env, rs: seq<string>)
    requires Good(p) && p.mode.Sending?
    requires forall k :: 0 <= k < |rs| ==> !StartsWith(rs[k], "abort")
    requires p.mode.index + OkCount(rs) < |p.matches|
    ensures var r := Run(p, env, rs);
            && r.0 == p.(mode := Sending(p.mode.index + OkCount(rs)))
            && |r.1| == |rs|
            && forall k :: 0 <= k < |rs| ==>
                 && p.mode.index + AcksThrough(rs, k) < |p.matches|
                 && r.1[k] == Entry(p.matches[p.mode.index + AcksThrough(rs, k)].1)
    decreases |rs|
  {
    if |rs| > 0 {
      var i := p.mode.index;
      OkCountCons(rs[0], rs[1..]);
      assert [rs[0]] + rs[1..] == rs;
      var step := if rs[0] == "ok" then 1 else 0;
      var first := SendingStep(p, env, rs[0]);
      AckGated(first.0, env, rs[1..]);
      var rest := Run(first.0, env, rs[1..]);
      var r := Run(p, env, rs);
      RunCons(p, env, rs);
      assert r.1 == first.1 + rest.1;
      forall k | 0 <= k < |rs|
        ensures p.mode.index + AcksThrough(rs, k) < |p.matches|
        ensures r.1[k] == Entry(p.matches[p.mode.index + AcksThrough(rs, k)].1)
      {
        if k == 0 {
          AcksThroughFirst(rs);
        } else {
          AcksThroughCons(rs, k);
          assert r.1[k] == rest.1[k - 1];
        }
      }
      assert r.0 == p.(mode := Sending(i + OkCount(rs)));
      assert |r.1| == |rs|;
    }
  }

  /** Normal completion: once every entry has been acknowledged `ok`, in
      order, the stream ends and the plugin is back in its command loop; the
      entries written along the way are exactly the rest of the list. */
  lemma {:induction false} StreamCompletes(p: Plugin, env: Env, n: nat)
    requires Good(p) && p.mode.Sending? && p.mode.index + n == |p.matches|
    ensures var r := Run(p, env, seq(n, _ => "ok"));
            r.0 == p.(mode := Waiting) && r.1 == seq(n - 1, k requires 0 <= k < n - 1 => Entry(p.matches[p.mode.index + 1 + k].1))
    decreases n
  {
    var i := p.mode.index;
    var oks := seq(n, _ => "ok");
    if n == 1 {
      assert oks == ["ok"];
    } else {
      assert n > 1;
      var first := Step(p, env, "ok");
      assert first == (p.(mode := Sending(i + 1)), [Entry(p.matches[i + 1].1)]);
      assert oks[1..] == seq(n - 1, _ => "ok");
      StreamCompletes(first.0, env, n - 1);
      var tail := seq(n - 2, k requires 0 <= k < n - 2 => Entry(p.matches[i + 2 + k].1));
      assert [Entry(p.matches[i + 1].1)] + tail == seq(n - 1, k requires 0 <= k < n - 1 => Entry(p.matches[i + 1 + k].1));
    }
  }

  lemma RunCons(p: Plugin, env: Env, inputs: seq<string>)
    requires Good(p) && |inputs| > 0
    ensures Run(p, env, inputs) == Then(Step(p, env, inputs[0]), Run(Step(p, env, inputs[0]).0, env, inputs[1..]))
  {
  }

  /** A `get_data` command in the command loop starts a stream for its
      query's lookup. */
  lemma GetDataStarts(p: Plugin, env: Env, q: string)
    requires Good(p) && p.mode.Waiting? && StartsWith(q, "get_data")
    ensures Step(p, env, q) == StartSending(Lookup(env, p.queries, QueryOf(q)), p.queries + 1)
  {
  }

  /** Two inputs in a row. */
  lemma RunPair(p: Plugin, env: Env, a: string, b: string)
    requires Good(p)
    ensures var first := Step(p, env, a);
            var second := Step(first.0, env, b);
            Run(p, env, [a, b]) == (second.0, first.1 + second.1)
  {
    var first := Step(p, env, a);
    var second := Step(first.0, env, b);
    RunCons(p, env, [a, b]);
    assert [a, b][0] == a && [a, b][1..] == [b];
    RunCons(first.0, env, [b]);
    assert [b][0] == b && [b][1..] == [];
    assert second.1 + [] == second.1;
  }

  lemma ThenAssoc(x: (Plugin, seq<Msg>), y: (Plugin, seq<Msg>), z: (Plugin, seq<Msg>))
    ensures Then(x, Then(y, z)) == Then(Then(x, y), z)
  {
    assert x.1 + (y.1 + z.1) == (x.1 + y.1) + z.1;
  }

  /** Reading `a` then `b` is reading `a + b`. */
  lemma {:induction false} RunAppend(p: Plugin, env: Env, a: seq<string>, b: seq<string>)
    requires Good(p)
    ensures Run(p, env, a + b) == Then(Run(p, env, a), Run(Run(p, env, a).0, env, b))
    decreases |a|
  {
    if |a| == 0 {
      assert a + b == b;
      assert [] + Run(p, env, b).1 == Run(p, env, b).1;
    } else {
      var first := Step(p, env, a[0]);
      var ab := a + b;
      assert ab[0] == a[0];
      assert ab[1..] == a[1..] + b;
      RunCons(p, env, ab);
      RunCons(p, env, a);
      RunAppend(first.0, env, a[1..], b);
      var tail := Run(first.0, env, a[1..]);
      var last := Run(tail.0, env, b);
      assert Run(p, env, ab) == Then(first, Then(tail, last));
      assert Run(p, env, a) == Then(first, tail);
      ThenAssoc(first, tail, last);
    }
  }
}

=== FILE: coordinator.dfy ===
/** The current coordinator's shared state and its event handlers
    (unirun/src/utils.rs over the `RuntimeData` record of
    unirun/src/types/mod.rs): connection routing by peer pid, one round of
    query sessions per keystroke, and row activation.

    The glib main loop is modelled as a sequence of `Event`s applied one at
    a time. A spawned session is a `Task` in the entry pool; aborting it
    removes it from the pool and records its handle, and an event addressed
    to a handle that is not in the pool does nothing, which is how an
    aborted task "takes no further steps". */
module Coordinator {
  import opened Wrappers
  import opened Packages
  import opened GObjects
  import opened Session
  import GHits

  /** `std::process::id()` and the peer pid in a connection's credentials. */
  type u32 = x: int | 0 <= x < 0x1_0000_0000

  /** An accepted plugin connection, known by its peer's pid. */
  datatype Conn = Conn(pid: u32)

  /** A spawned session: its handle, the connection it talks to (an index
      into `connections`, which never shrinks), the pid it tags hits with,
      and where its state machine stands. */
  datatype Task = Task(handle: nat, conn: nat, pid: u32, state: State)

  /** One package written to the plugin connection at index `conn`. */
  datatype Sent = Sent(conn: nat, pkg: Package)

  /** `RuntimeData` plus what the model needs to state properties about it:
      the handles aborted so far, every package written to a plugin, the
      quit flag, and the panics of spawned futures. `owners[k]` is the
      position in `pool` of the task that appended `store[k]`. */
  datatype Runtime = Runtime(
    selfPid: u32,
    connections: seq<Conn>,
    pool: seq<Task>,
    store: seq<Props>,
    owners: seq<nat>,
    nextHandle: nat,
    aborted: seq<nat>,
    sent: seq<Sent>,
    quit: bool,
    faults: seq<Panic>)

  /** `RuntimeData::default()`: no connections, no tasks, an empty store. */
  function Init(selfPid: u32): (r: Runtime)
    ensures Inv(r) && r.store == [] && r.pool == [] && !r.quit
  {
    Runtime(selfPid, [], [], [], [], 0, [], [], false, [])
  }

  function Handles(pool: seq<Task>): (hs: seq<nat>)
    ensures |hs| == |pool| && forall i :: 0 <= i < |pool| ==> hs[i] == pool[i].handle
  {
    seq(|pool|, i requires 0 <= i < |pool| => pool[i].handle)
  }

  function SentTo(conn: nat, ps: seq<Package>): (s: seq<Sent>)
    ensures |s| == |ps| && forall k :: 0 <= k < |ps| ==> s[k] == Sent(conn, ps[k])
  {
    seq(|ps|, k requires 0 <= k < |ps| => Sent(conn, ps[k]))
  }

  /** The bookkeeping the handlers keep. */
  ghost predicate Inv(r: Runtime) {
    && (forall i :: 0 <= i < |r.pool| ==>
          r.pool[i].conn < |r.connections| && r.pool[i].pid == r.connections[r.pool[i].conn].pid
          && r.pool[i].handle < r.nextHandle)
    && (forall i, j :: 0 <= i < j < |r.pool| ==> r.pool[i].handle < r.pool[j].handle)
    && (forall k :: 0 <= k < |r.aborted| ==> r.aborted[k] < r.nextHandle)
    && (forall k, i :: 0 <= k < |r.aborted| && 0 <= i < |r.pool| ==> r.aborted[k] < r.pool[i].handle)
    && |r.owners| == |r.store|
    && (forall k :: 0 <= k < |r.store| ==>
          r.owners[k] < |r.pool| && r.store[k].pluginPid == r.pool[r.owners[k]].pid)
    && (forall k :: 0 <= k < |r.sent| ==> r.sent[k].conn < |r.connections|)
  }

  /** `clear_entry_pool`: every held task is aborted and the pool emptied;
      nothing else changes. */
  function ClearEntryPool(r: Runtime): (r': Runtime)
    ensures r'.pool == [] && r'.aborted == r.aborted + Handles(r.pool)
    ensures r' == r.(pool := [], aborted := r'.aborted)
  {
    if |r.pool| == 0 then r else r.(pool := [], aborted := r.aborted + Handles(r.pool))
  }

  /** `on_entry_changed`: abort the old round, empty the store, and spawn one
      session per connection, in connection order. The connection list is
      not filtered. */
  function OnEntryChanged(r: Runtime, text: string): (r': Runtime)
    ensures r'.connections == r.connections && r'.store == [] && r'.sent == r.sent
    ensures r'.aborted == r.aborted + Handles(r.pool)
    ensures |r'.pool| == |r.connections|
    ensures forall i :: 0 <= i < |r'.pool| ==>
              r'.pool[i].conn == i && r'.pool[i].pid == r.connections[i].pid && r'.pool[i].state == Spawned(text)
    ensures forall i :: 0 <= i < |r'.pool| ==> r'.pool[i].handle >= r.nextHandle
  {
    var cleared := ClearEntryPool(r);
    var tasks := seq(|r.connections|, i requires 0 <= i < |r.connections| =>
                       Task(r.nextHandle + i, i, r.connections[i].pid, Spawned(text)));
    cleared.(store := [], owners := [], pool := tasks, nextHandle := r.nextHandle + |tasks|)
  }

  /** The single read of a connection from the coordinator's own pid: only a
      `Quit` command acts, by quitting the application; a failed read
      panics. */
  function HandleSelf(r: Runtime, msg: Incoming): (r': Runtime)
    ensures r'.quit <==> r.quit || (msg.Received? && msg.pkg.payload == CommandPayload(Quit))
    ensures r'.connections == r.connections && r'.pool == r.pool && r'.store == r.store && r'.sent == r.sent
  {
    match msg
    case ReadError => r.(faults := r.faults + [ReadFailed])
    case Received(p) => if p.payload == CommandPayload(Quit) then r.(quit := true) else r
  }

  /** `handle_new_connection`: a connection from the coordinator itself goes
      to `HandleSelf` and is never registered; any other is appended to the
      registry and triggers a query for the empty text. */
  function Accept(r: Runtime, pid: u32, selfRead: Incoming): (r': Runtime)
    ensures pid == r.selfPid ==> r'.connections == r.connections && r'.pool == r.pool && r'.store == r.store
    ensures pid != r.selfPid ==> r'.connections == r.connections + [Conn(pid)] && !(r'.quit && !r.quit)
    ensures pid != r.selfPid ==> r' == OnEntryChanged(r.(connections := r.connections + [Conn(pid)]), "")
  {
    if pid == r.selfPid then HandleSelf(r, selfRead)
    else OnEntryChanged(r.(connections := r.connections + [Conn(pid)]), "")
  }

  /** The position of the pool task with the given handle, if it is still
      held. */
  function FindTask(pool: seq<Task>, handle: nat): (r: Option<nat>)
    ensures r.Some? ==> r.value < |pool| && pool[r.value].handle == handle
    ensures r.None? ==> forall i :: 0 <= i < |pool| ==> pool[i].handle != handle
  {
    if |pool| == 0 then None
    else if pool[|pool| - 1].handle == handle then Some(|pool| - 1)
    else FindTask(pool[..|pool| - 1], handle)
  }

  /** The first poll of a spawned session writes its opening pair. */
  function Poll(r: Runtime, handle: nat, abortId: PackageId, requestId: PackageId): (r': Runtime)
    ensures FindTask(r.pool, handle).None? ==> r' == r
    ensures r'.store == r.store && r'.connections == r.connections && |r'.pool| == |r.pool|
    ensures r.sent <= r'.sent
    ensures forall j :: 0 <= j < |r.pool| && FindTask(r.pool, handle) != Some(j) ==> r'.pool[j] == r.pool[j]
    ensures var f := FindTask(r.pool, handle);
            f.Some? && r.pool[f.value].state.Spawned? ==>
              && r'.sent == r.sent + [Sent(r.pool[f.value].conn, Package(abortId, CommandPayload(Abort))),
                                      Sent(r.pool[f.value].conn, Package(requestId, CommandPayload(GetData(r.pool[f.value].state.text))))]
              && r'.pool[f.value].state == AwaitingAck(requestId)
  {
    match FindTask(r.pool, handle)
    case None => r
    case Some(i) =>
      var t := r.pool[i];
      match t.state
      case Spawned(text) =>
        var o := Open(text, abortId, requestId);
        r.(pool := r.pool[i := t.(state := o.next)], sent := r.sent + SentTo(t.conn, o.writes))
      case _ => r
  }

  /** A read completing in the session with the given handle. */
  function Deliver(r: Runtime, handle: nat, d: Delivery): (r': Runtime)
    ensures FindTask(r.pool, handle).None? ==> r' == r
    ensures r'.connections == r.connections && |r'.pool| == |r.pool| && Handles(r'.pool) == Handles(r.pool)
    ensures |r'.store| >= |r.store| && r'.store[..|r.store|] == r.store
    ensures r.sent <= r'.sent
    ensures forall j :: 0 <= j < |r.pool| && FindTask(r.pool, handle) != Some(j) ==> r'.pool[j] == r.pool[j]
  {
    match FindTask(r.pool, handle)
    case None => r
    case Some(i) =>
      var t := r.pool[i];
      var st := Receive(t.state, t.pid, d);
      var faults := if st.next.Panicked? && !t.state.Panicked? then r.faults + [st.next.why] else r.faults;
      r.(pool := r.pool[i := t.(state := st.next)],
         store := r.store + st.appended,
         owners := r.owners + seq(|st.appended|, _ => i),
         sent := r.sent + SentTo(t.conn, st.writes),
         faults := faults)
  }

  datatype Event =
    | Connected(pid: u32, selfRead: Incoming)
    | EntryChanged(text: string)
    | Polled(handle: nat, abortId: PackageId, requestId: PackageId)
    | Read(handle: nat, delivery: Delivery)

  /** One event. Nothing once sent is taken back, and only a new query
      round (a changed entry, or another process connecting) empties the
      store; every other event at most appends to it. */
  function Apply(r: Runtime, e: Event): (r': Runtime)
    ensures r.sent <= r'.sent
    ensures (e.EntryChanged? || (e.Connected? && e.pid != r.selfPid)) ==> r'.store == []
    ensures !(e.EntryChanged? || (e.Connected? && e.pid != r.selfPid)) ==> r.store <= r'.store
  {
    match e
    case Connected(pid, selfRead) => Accept(r, pid, selfRead)
    case EntryChanged(text) => OnEntryChanged(r, text)
    case Polled(h, abortId, requestId) => Poll(r, h, abortId, requestId)
    case Read(h, d) => Deliver(r, h, d)
  }

  /** A sequence of events, in order: the sent log only grows, and
      reads and polls only ever extend the store. */
  function ApplyAll(r: Runtime, es: seq<Event>): (r': Runtime)
    ensures r.sent <= r'.sent
    ensures (forall k :: 0 <= k < |es| ==> es[k].Read? || es[k].Polled?) ==> r.store <= r'.store
    decreases |es|
  {
    if |es| == 0 then r else ApplyAll(Apply(r, es[0]), es[1..])
  }

  lemma OnEntryChangedInv(r: Runtime, text: string)
    requires Inv(r)
    ensures Inv(OnEntryChanged(r, text))
  {
    var r' := OnEntryChanged(r, text);
    forall k, i | 0 <= k < |r'.aborted| && 0 <= i < |r'.pool|
      ensures r'.aborted[k] < r'.pool[i].handle
    {
      if k >= |r.aborted| {
        assert r'.aborted[k] == r.pool[k - |r.aborted|].handle;
      }
    }
  }

  lemma PollInv(r: Runtime, handle: nat, abortId: PackageId, requestId: PackageId)
    requires Inv(r)
    ensures Inv(Poll(r, handle, abortId, requestId))
  {
    match FindTask(r.pool, handle)
    case None =>
    case Some(i) =>
      var r' := Poll(r, handle, abortId, requestId);
      assert Handles(r'.pool) == Handles(r.pool);
  }

  lemma DeliverInv(r: Runtime, handle: nat, d: Delivery)
    requires Inv(r)
    ensures Inv(Deliver(r, handle, d))
  {
    match FindTask(r.pool, handle)
    case None =>
    case Some(i) =>
      var t := r.pool[i];
      var st := Receive(t.state, t.pid, d);
      var r' := Deliver(r, handle, d);
      assert st.appended == [] || st.appended == [Tagged(d.msg.pkg.payload.hit, t.pid)];
      forall k | 0 <= k < |r'.store|
        ensures r'.owners[k] < |r'.pool| && r'.store[k].pluginPid == r'.pool[r'.owners[k]].pid
      {
        if k >= |r.store| {
          assert r'.owners[k] == i;
        }
      }
    }

  /** Every handler keeps the bookkeeping: tasks point at registered
      connections with their pids, handles are fresh and never reused,
      aborted handles are older than every held task, and every stored hit
      was appended by a task of the current round and carries that task's
      connection pid. */
  lemma ApplyInv(r: Runtime, e: Event)
    requires Inv(r)
    ensures Inv(Apply(r, e))
  {
    match e
    case Connected(pid, selfRead) =>
      if pid != r.selfPid {
        OnEntryChangedInv(r.(connections := r.connections + [Conn(pid)]), "");
      }
    case EntryChanged(text) => OnEntryChangedInv(r, text);
    case Polled(h, abortId, requestId) => PollInv(r, h, abortId, requestId);
    case Read(h, d) => DeliverInv(r, h, d);
  }

  lemma {:induction false} ApplyAllInv(r: Runtime, es: seq<Event>)
    requires Inv(r)
    ensures Inv(ApplyAll(r, es))
    decreases |es|
  {
    if |es| > 0 {
      ApplyInv(r, es[0]);
      ApplyAllInv(Apply(r, es[0]), es[1..]);
    }
  }

  /** An aborted session takes no further steps: polling it or completing a
      read in it changes nothing. */
  lemma AbortedTaskInert(r: Runtime, k: nat, abortId: PackageId, requestId: PackageId, d: Delivery)
    requires Inv(r) && k < |r.aborted|
    ensures Apply(r, Polled(r.aborted[k], abortId, requestId)) == r
    ensures Apply(r, Read(r.aborted[k], d)) == r
  {
    assert FindTask(r.pool, r.aborted[k]).None?;
  }

  /** Every stored hit carries the pid of a registered connection. */
  lemma StoredPidsRegistered(r: Runtime, k: nat) returns (c: nat)
    requires Inv(r) && k < |r.store|
    ensures c < |r.connections| && r.connections[c].pid == r.store[k].pluginPid
  {
    c := r.pool[r.owners[k]].conn;
  }

  // ---------------------------------------------------------------------
  // Row activation

  /** The first connection with the given pid, as `Iterator::find`. */
  function FindConn(cs: seq<Conn>, pid: int): (r: Option<nat>)
    ensures r.Some? ==> r.value < |cs| && cs[r.value].pid == pid
    ensures r.Some? ==> forall j :: 0 <= j < r.value ==> cs[j].pid != pid
    ensures r.None? <==> forall j :: 0 <= j < |cs| ==> cs[j].pid != pid
  {
    if |cs| == 0 then None
    else if cs[0].pid == pid then Some(0)
    else
      match FindConn(cs[1..], pid)
      case None => None
      case Some(i) => Some(i + 1)
  }

  /** What activating a row leads to once the plugin replies. */
  datatype Effect =
    | SendQuit(pkg: Package)    // `Quit` over a fresh connection to the coordinator itself
    | Notify(body: string)      // a desktop notification with the error text
    | Ignore                    // an `Ok` for some other request
    | Crash(why: Panic)

  /** The connection written to, the `Activate` request written, and the
      effect of the reply. */
  datatype Activation = Activation(target: nat, request: Package, effect: Effect)

  /** `handle_selection_activation`: look up the row, route the request to
      the first connection whose pid is the item's plugin pid, and act on
      the one reply. The reply and the two fresh package ids are
      parameters. */
  function Activate(r: Runtime, row: nat, requestId: PackageId, reply: Incoming, quitId: PackageId)
    : (a: Result<Activation, Panic>)
    ensures row >= |r.store| ==> a == Failure(MissingRow)
    ensures row < |r.store| ==>
              (a == Failure(NoSuchConnection) <==> FindConn(r.connections, r.store[row].pluginPid).None?)
    ensures a.Success? ==>
              && row < |r.store|
              && a.value.target == FindConn(r.connections, r.store[row].pluginPid).value
              && a.value.request == Package(requestId, CommandPayload(Command.Activate(GHits.ToHit(r.store[row]).id)))
    ensures a.Success? ==>
              (a.value.effect.SendQuit? <==> IsAckFor(reply, requestId))
    ensures a.Success? && a.value.effect.SendQuit? ==> a.value.effect.pkg.payload == CommandPayload(Quit)
    ensures a.Success? && reply.Received? && reply.pkg.payload.ResultPayload? && reply.pkg.payload.outcome.Err? ==>
              a.value.effect == Notify(reply.pkg.payload.outcome.message)
    ensures a.Success? ==>
              (a.value.effect.Crash? <==> reply.ReadError? || (reply.Received? && !reply.pkg.payload.ResultPayload?))
    ensures a.Success? && reply.ReadError? ==> a.value.effect == Crash(ReadFailed)
    ensures a.Success? && reply.Received? && !reply.pkg.payload.ResultPayload? ==> a.value.effect == Crash(Unexpected)
    ensures a.Success? && reply.Received? && reply.pkg.payload.ResultPayload? && reply.pkg.payload.outcome.Ok? && !IsAckFor(reply, requestId) ==>
              a.value.effect == Ignore
  {
    if row >= |r.store| then Failure(MissingRow)
    else
      var item := r.store[row];
      match FindConn(r.connections, GetPluginPid(item))
      case None => Failure(NoSuchConnection)
      case Some(c) =>
        var hit := GHits.ToHit(item);
        var request := NewPackage(requestId, CommandPayload(Command.Activate(hit.id)));
        var effect :=
          match reply
          case ReadError => Crash(ReadFailed)
          case Received(p) =>
            (match p.payload
             case ResultPayload(id, Ok) =>
               if id == Packages.GetId(request) then SendQuit(NewPackage(quitId, CommandPayload(Quit))) else Ignore
             case ResultPayload(_, Err(e)) => Notify(e)
             case _ => Crash(Unexpected));
        Success(Activation(c, request, effect))
  }

  /** Under the bookkeeping, a row in range always finds its plugin's
      connection: activation never fails with `NoSuchConnection`. */
  lemma ActivateFindsConnection(r: Runtime, row: nat, requestId: PackageId, reply: Incoming, quitId: PackageId)
    requires Inv(r) && row < |r.store|
    ensures Activate(r, row, requestId, reply, quitId).Success?
  {
    var c := StoredPidsRegistered(r, row);
    assert FindConn(r.connections, r.store[row].pluginPid).Some?;
  }
}

=== FILE: framing.dfy ===
/** The launcher's wire framing and socket naming (unirun-interface, lib.rs).

    Every message is written as exactly one fixed-size frame: the UTF-8
    bytes of the message, cut or zero-padded to `SOCKET_BUFFER_SIZE`.
    The reader decodes a frame lossily and strips the NUL padding, then
    surrounding whitespace. */
module Framing {
  import opened Utf8
  import opened Text

  const DOMAIN: string := "com.bzglve"
  const MAIN_APP_ID: string := "com.bzglve.unirun"
  const SOCKET_BUFFER_SIZE: nat := 1024 * 4

  function Min(a: nat, b: nat): nat {
    if a <= b then a else b
  }

  function Zeros(n: nat): (r: seq<uint8>)
    ensures |r| == n && forall k :: 0 <= k < n ==> r[k] == 0
  {
    seq(n, _ => 0)
  }

  function Nuls(n: nat): (r: string)
    ensures |r| == n && forall k :: 0 <= k < n ==> r[k] == '\0'
  {
    seq(n, _ => '\0')
  }

  /** `create_buffer`: the first `min(len, 4096)` bytes of the value, then
      zeros up to exactly 4096 bytes. Longer values lose their tail. */
  function CreateBuffer(value: seq<uint8>): (r: seq<uint8>)
    ensures |r| == SOCKET_BUFFER_SIZE
    ensures r[..Min(|value|, SOCKET_BUFFER_SIZE)] == value[..Min(|value|, SOCKET_BUFFER_SIZE)]
    ensures forall k :: |value| <= k < SOCKET_BUFFER_SIZE ==> r[k] == 0
    ensures |value| >= SOCKET_BUFFER_SIZE ==> r == value[..SOCKET_BUFFER_SIZE]
  {
    var len := Min(|value|, SOCKET_BUFFER_SIZE);
    value[..len] + Zeros(SOCKET_BUFFER_SIZE - len)
  }

  /** `bytes_to_string`: lossy UTF-8, then `trim_matches('\0')`, then `trim`. */
  function BytesToString(bytes: seq<uint8>): (r: string)
    ensures |r| > 0 ==> !IsWhitespace(r[0]) && !IsWhitespace(r[|r| - 1])
  {
    Trim(TrimNul(DecodeLossy(bytes)))
  }

  /** The frame `stream_write` puts on the wire for a Rust `String`: one
      buffer, holding the whole encoding followed by zeros when it fits. */
  function Frame(s: string): (f: seq<uint8>)
    ensures |f| == SOCKET_BUFFER_SIZE
    ensures |Encode(s)| <= SOCKET_BUFFER_SIZE ==>
              f[..|Encode(s)|] == Encode(s) && forall k :: |Encode(s)| <= k < SOCKET_BUFFER_SIZE ==> f[k] == 0
  {
    CreateBuffer(Encode(s))
  }

  /** What `stream_read` hands back for one frame: never text with
      whitespace at either end. */
  function Unframe(frame: seq<uint8>): (s: string)
    ensures |s| > 0 ==> !IsWhitespace(s[0]) && !IsWhitespace(s[|s| - 1])
  {
    BytesToString(frame)
  }

  /** A message survives framing when it neither starts nor ends with a NUL
      or with whitespace. */
  predicate Clean(s: string) {
    |s| > 0 ==> !IsNul(s[0]) && !IsNul(s[|s| - 1]) && !IsWhitespace(s[0]) && !IsWhitespace(s[|s| - 1])
  }

  /** A message fits when its UTF-8 encoding is at most one frame long. */
  predicate Fits(s: string) {
    |Encode(s)| <= SOCKET_BUFFER_SIZE
  }

  lemma {:induction false} EncodeNuls(n: nat)
    ensures Encode(Nuls(n)) == Zeros(n)
  {
    if n > 0 {
      assert Nuls(n)[1..] == Nuls(n - 1);
      EncodeNuls(n - 1);
      assert Zeros(n) == [0] + Zeros(n - 1);
    }
  }

  lemma {:induction false} TrimEndNuls(s: string, n: nat)
    ensures TrimEndBy(s + Nuls(n), IsNul) == TrimEndBy(s, IsNul)
  {
    if n > 0 {
      var u := s + Nuls(n);
      assert u[..|u| - 1] == s + Nuls(n - 1);
      TrimEndNuls(s, n - 1);
    } else {
      assert s + Nuls(n) == s;
    }
  }

  lemma {:induction false} TrimStartAllNuls(n: nat)
    ensures TrimStartBy(Nuls(n), IsNul) == ""
  {
    if n > 0 {
      assert Nuls(n)[1..] == Nuls(n - 1);
      TrimStartAllNuls(n - 1);
    }
  }

  /** What the reader sees of a frame written for `s`: the decoded text of
      `s` followed by the NUL characters of the padding. */
  lemma DecodeFrame(s: string)
    requires Fits(s)
    ensures DecodeLossy(Frame(s)) == s + Nuls(SOCKET_BUFFER_SIZE - |Encode(s)|)
  {
    var m := SOCKET_BUFFER_SIZE - |Encode(s)|;
    assert Frame(s) == Encode(s) + Zeros(m);
    DecodeEncode(s, Zeros(m));
    EncodeNuls(m);
    DecodeLossyEncode(Nuls(m));
  }

  /** The framing round trip: a clean message that fits in one frame is read
      back exactly as written. */
  lemma FrameRoundTrip(s: string)
    requires Clean(s) && Fits(s)
    ensures Unframe(Frame(s)) == s
  {
    var m := SOCKET_BUFFER_SIZE - |Encode(s)|;
    DecodeFrame(s);
    var u := s + Nuls(m);
    if |s| == 0 {
      assert u == Nuls(m);
      TrimStartAllNuls(m);
    } else {
      assert TrimStartBy(u, IsNul) == u;
      TrimEndNuls(s, m);
    }
    assert TrimNul(u) == s;
    TrimNoop(s);
  }

  /** ... and only a clean message is: a message that fits but starts or
      ends with a NUL or with whitespace comes back different. */
  lemma FrameRoundTripOnlyIfClean(s: string)
    requires Fits(s) && !Clean(s)
    ensures Unframe(Frame(s)) != s
  {
    var r := BytesToString(Frame(s));
    if IsNul(s[0]) || IsNul(s[|s| - 1]) {
      UnframeShorter(s);
    } else {
      assert IsWhitespace(s[0]) || IsWhitespace(s[|s| - 1]);
      assert |r| > 0 ==> !IsWhitespace(r[0]) && !IsWhitespace(r[|r| - 1]);
    }
  }

  /** Framing is lossless exactly for the clean messages that fit. */
  lemma FrameRoundTripIff(s: string)
    requires Fits(s)
    ensures Unframe(Frame(s)) == s <==> Clean(s)
  {
    if Clean(s) {
      FrameRoundTrip(s);
    } else {
      FrameRoundTripOnlyIfClean(s);
    }
  }

  lemma UnframeShorter(s: string)
    requires Fits(s) && |s| > 0 && (IsNul(s[0]) || IsNul(s[|s| - 1]))
    ensures |Unframe(Frame(s))| < |s|
  {
    var m := SOCKET_BUFFER_SIZE - |Encode(s)|;
    var d := DecodeLossy(Frame(s));
    DecodeFrame(s);
    assert d == s + Nuls(m);
    NulTrimShortens(s, m);
    var x := TrimNul(d);
    assert |x| < |s|;
    assert Unframe(Frame(s)) == Trim(x);
  }

  /** Trimming NULs from a message padded with NULs loses at least one
      character of the message when the message starts or ends with NUL. */
  lemma NulTrimShortens(s: string, m: nat)
    requires |s| > 0 && (IsNul(s[0]) || IsNul(s[|s| - 1]))
    ensures |TrimNul(s + Nuls(m))| < |s|
  {
    var u := s + Nuls(m);
    var t := TrimStartBy(u, IsNul);
    var r := TrimEndBy(t, IsNul);
    var i := |u| - |t|;
    var j := i + |r|;
    assert r == u[i..j];
    if |r| > 0 {
      assert !IsNul(u[j - 1]);
      assert j <= |s|;
      if IsNul(s[0]) {
        assert r[0] == u[i] && u[0] == s[0];
      } else {
        assert r[|r| - 1] == u[j - 1] && u[|s| - 1] == s[|s| - 1];
      }
    }
  }

  /** A frame of nothing but padding reads as the empty string. */
  lemma ZeroFrameIsEmpty()
    ensures Unframe(Zeros(SOCKET_BUFFER_SIZE)) == ""
  {
    EncodeNuls(SOCKET_BUFFER_SIZE);
    DecodeLossyEncode(Nuls(SOCKET_BUFFER_SIZE));
    TrimStartAllNuls(SOCKET_BUFFER_SIZE);
  }

  /** A path, as the list of its components. */
  type Path = seq<string>

  /** `path::runtime`: the `DOMAIN` directory under the user runtime dir. */
  function RuntimeDir(userRuntimeDir: Path): Path {
    userRuntimeDir + [DOMAIN]
  }

  /** `path::socket`: `<MAIN_APP_ID>.sock` inside the runtime directory. */
  function SocketPath(userRuntimeDir: Path): (p: Path)
    ensures |p| > 0 && p[..|p| - 1] == RuntimeDir(userRuntimeDir)
    ensures StartsWith(p[|p| - 1], MAIN_APP_ID)
    ensures p[|p| - 1][|MAIN_APP_ID|..] == ".sock"
  {
    RuntimeDir(userRuntimeDir) + [MAIN_APP_ID + ".sock"]
  }
}

=== FILE: gobject.dfy ===
/** The GObject property bag behind the launcher's two list-item classes,
    `GHit` (unirun/src/types/ghit.rs) and `GMatch`
    (unirun/src/types/gmatch.rs). Both classes declare the same six
    properties with the same types and the same `set_property`/`property`
    switches, so one `Props` value stands for the private state of either.

    A GLib `Value` is modelled by the three kinds these properties use: a
    nullable string, a boolean and an unsigned 64-bit integer. */
module GObjects {
  import opened Wrappers

  type u64 = x: int | 0 <= x < 0x1_0000_0000_0000_0000

  datatype Props = Props(
    id: string,
    title: string,
    description: Option<string>,
    icon: Option<string>,
    usePango: bool,
    pluginPid: u64)

  datatype Value = VStr(str: Option<string>) | VBool(b: bool) | VU64(n: u64)

  /** `#[derive(Default)]` on the private struct: empty strings, no
      description or icon, `false`, pid 0. */
  const DEFAULT: Props := Props("", "", None, None, false, 0)

  datatype ValueType = StringType | BoolType | U64Type

  /** The `ParamSpec` list of `properties()`: which names exist and the type
      each one is declared with. */
  function PropertyType(name: string): Option<ValueType> {
    if name in {"id", "title", "description", "icon"} then Some(StringType)
    else if name == "use-pango" then Some(BoolType)
    else if name == "plugin-pid" then Some(U64Type)
    else None
  }

  function TypeOf(v: Value): ValueType {
    match v
    case VStr(_) => StringType
    case VBool(_) => BoolType
    case VU64(_) => U64Type
  }

  /** `set_property`: each known name replaces its own field. The `id` and
      `title` fields are plain `String`s, so a null string value makes the
      `expect` panic; a value of another type panics the same way; an
      unknown name reaches `unimplemented!()`. */
  function SetProperty(p: Props, name: string, v: Value): (r: Result<Props, Panic>)
    ensures r.Failure? ==> r.error in {UnknownProperty, WrongValueType}
  {
    match (name, v)
    case ("id", VStr(Some(s))) => Success(p.(id := s))
    case ("title", VStr(Some(s))) => Success(p.(title := s))
    case ("description", VStr(o)) => Success(p.(description := o))
    case ("icon", VStr(o)) => Success(p.(icon := o))
    case ("use-pango", VBool(b)) => Success(p.(usePango := b))
    case ("plugin-pid", VU64(n)) => Success(p.(pluginPid := n))
    case _ => if PropertyType(name).None? then Failure(UnknownProperty) else Failure(WrongValueType)
  }

  /** `property`: the value of the named field. */
  function Property(p: Props, name: string): (r: Result<Value, Panic>)
    ensures r.Success? <==> PropertyType(name).Some?
    ensures r.Success? ==> TypeOf(r.value) == PropertyType(name).value
    ensures r.Failure? ==> r.error == UnknownProperty
  {
    match name
    case "id" => Success(VStr(Some(p.id)))
    case "title" => Success(VStr(Some(p.title)))
    case "description" => Success(VStr(p.description))
    case "icon" => Success(VStr(p.icon))
    case "use-pango" => Success(VBool(p.usePango))
    case "plugin-pid" => Success(VU64(p.pluginPid))
    case _ => Failure(UnknownProperty)
  }

  /** Which writes `set_property` accepts: a declared name, a value of its
      declared type, and for the two non-optional strings a value that is
      not null. */
  predicate Accepts(name: string, v: Value) {
    && PropertyType(name) == Some(TypeOf(v))
    && (name in {"id", "title"} ==> v.str.Some?)
  }

  lemma SetPropertyAccepts(p: Props, name: string, v: Value)
    ensures SetProperty(p, name, v).Success? <==> Accepts(name, v)
    ensures !Accepts(name, v) && PropertyType(name).None? ==> SetProperty(p, name, v) == Failure(UnknownProperty)
  {
  }

  /** Reading a property back returns what was written to it. */
  lemma GetAfterSet(p: Props, name: string, v: Value)
    requires SetProperty(p, name, v).Success?
    ensures Property(SetProperty(p, name, v).value, name) == Success(v)
  {
  }

  /** A write touches no other property. */
  lemma SetLeavesOthers(p: Props, name: string, v: Value, other: string)
    requires SetProperty(p, name, v).Success? && other != name
    ensures Property(SetProperty(p, name, v).value, other) == Property(p, other)
  {
  }

  /** Writing back what was read changes nothing. */
  lemma SetWhatWasRead(p: Props, name: string)
    requires PropertyType(name).Some?
    ensures SetProperty(p, name, Property(p, name).value) == Success(p)
  {
  }

  // The typed accessors: each one is the generic switch on a fixed name.

  function GetId(p: Props): (r: string)
    ensures Property(p, "id") == Success(VStr(Some(r)))
  {
    p.id
  }

  function SetId(p: Props, value: string): (q: Props)
    ensures SetProperty(p, "id", VStr(Some(value))) == Success(q)
  {
    p.(id := value)
  }

  function GetTitle(p: Props): (r: string)
    ensures Property(p, "title") == Success(VStr(Some(r)))
  {
    p.title
  }

  function SetTitle(p: Props, value: string): (q: Props)
    ensures SetProperty(p, "title", VStr(Some(value))) == Success(q)
  {
    p.(title := value)
  }

  function GetDescription(p: Props): (r: Option<string>)
    ensures Property(p, "description") == Success(VStr(r))
  {
    p.description
  }

  function SetDescription(p: Props, value: Option<string>): (q: Props)
    ensures SetProperty(p, "description", VStr(value)) == Success(q)
  {
    p.(description := value)
  }

  function GetIcon(p: Props): (r: Option<string>)
    ensures Property(p, "icon") == Success(VStr(r))
  {
    p.icon
  }

  function SetIcon(p: Props, value: Option<string>): (q: Props)
    ensures SetProperty(p, "icon", VStr(value)) == Success(q)
  {
    p.(icon := value)
  }

  function GetUsePango(p: Props): (r: bool)
    ensures Property(p, "use-pango") == Success(VBool(r))
  {
    p.usePango
  }

  function SetUsePango(p: Props, value: bool): (q: Props)
    ensures SetProperty(p, "use-pango", VBool(value)) == Success(q)
  {
    p.(usePango := value)
  }

  function GetPluginPid(p: Props): (r: u64)
    ensures Property(p, "plugin-pid") == Success(VU64(r))
  {
    p.pluginPid
  }

  function SetPluginPid(p: Props, value: u64): (q: Props)
    ensures SetProperty(p, "plugin-pid", VU64(value)) == Success(q)
  {
    p.(pluginPid := value)
  }
}

/** `GHit`: conversions between the list item and the wire `Hit`. */
module GHits {
  import opened Wrappers
  import opened GObjects
  import Packages

  /** `From<Hit> for GHit`: a default item with the five wire fields set;
      the plugin pid is left at its default. */
  function FromHit(h: Packages.Hit): (g: Props)
    ensures GetPluginPid(g) == 0
  {
    var g0 := DEFAULT;
    var g1 := SetId(g0, Packages.UuidDisplay(h.id));
    var g2 := SetTitle(g1, h.title);
    var g3 := SetDescription(g2, h.description);
    var g4 := SetIcon(g3, h.icon);
    SetUsePango(g4, h.usePango)
  }

  /** `From<GHit> for Hit`: only the plugin pid is left behind, so
      converting back gives the item with its pid reset. */
  function ToHit(g: Props): (h: Packages.Hit)
    ensures FromHit(h) == g.(pluginPid := 0)
  {
    Packages.Hit(Packages.UuidFrom(GetId(g)), GetTitle(g), GetDescription(g), GetIcon(g), GetUsePango(g))
  }

  /** A hit survives the trip through the list store unchanged. */
  lemma HitRoundTrip(h: Packages.Hit)
    ensures ToHit(FromHit(h)) == h
  {
    Packages.UuidRoundTrip(h.id.value, h.id);
  }

  /** The other way round only the plugin pid is lost: it comes back as 0. */
  lemma ItemRoundTrip(g: Props)
    ensures FromHit(ToHit(g)) == g.(pluginPid := 0)
    ensures FromHit(ToHit(g)) == g <==> g.pluginPid == 0
  {
  }
}

/** `GMatch`: conversions between the list item and the legacy `Match`. */
module GMatches {
  import opened Wrappers
  import opened GObjects
  import MatchIf

  /** `From<Match> for GMatch`: a default item with the five entry fields
      set; the plugin pid is left at its default. */
  function FromMatch(m: MatchIf.Match): (g: Props)
    ensures GetPluginPid(g) == 0
  {
    var g0 := DEFAULT;
    var g1 := SetId(g0, MatchIf.GetId(m));
    var g2 := SetTitle(g1, m.title);
    var g3 := SetDescription(g2, m.description);
    var g4 := SetIcon(g3, m.icon);
    SetUsePango(g4, m.usePango)
  }

  /** `From<GMatch> for Match`: only the plugin pid is left behind, so
      converting back gives the item with its pid reset. */
  function ToMatch(g: Props): (m: MatchIf.Match)
    ensures FromMatch(m) == g.(pluginPid := 0)
  {
    MatchIf.Match(GetId(g), GetTitle(g), GetDescription(g), GetIcon(g), GetUsePango(g))
  }

  lemma MatchRoundTrip(m: MatchIf.Match)
    ensures ToMatch(FromMatch(m)) == m
  {
  }

  lemma ItemRoundTrip(g: Props)
    ensures FromMatch(ToMatch(g)) == g.(pluginPid := 0)
    ensures FromMatch(ToMatch(g)) == g <==> g.pluginPid == 0
  {
  }
}

=== FILE: launch.dfy ===
/** Which files next to the launcher's executable are started as plugins,
    and how an icon string becomes an image source.

    The current filter (unirun/src/utils.rs `launch_plugins`) reads a file
    name only when it is well-formed UTF-8 and treats a missing name or
    unreadable metadata as "skip"; the older one (unirun/src/gui.rs) decodes
    the name lossily and panics on a missing name or metadata. The
    directory scan, metadata reads and `spawn` are not modelled: a
    directory entry is what they would report. */
module Launch {
  import opened Wrappers
  import opened Utf8
  import opened Text

  const PLUGIN_PREFIX: string := "unirun-plugin"

  /** The execute bits of a Unix mode, `0o111`. */
  const EXEC_BITS: bv32 := 0x49

  /** One directory entry: whether it is a regular file, its file name as
      raw bytes (`None` when the path has none), and its permission mode
      (`None` when the metadata cannot be read). */
  datatype DirEntry = DirEntry(isFile: bool, name: Option<seq<uint8>>, mode: Option<bv32>)

  /** `mode & 0o111 != 0`: some execute bit is set. */
  predicate Executable(mode: bv32) {
    mode & EXEC_BITS != 0
  }

  /** The mask test is exactly "owner, group or other may execute". */
  lemma ExecutableBits(mode: bv32)
    ensures Executable(mode) <==> ((mode >> 6) & 1 == 1 || (mode >> 3) & 1 == 1 || mode & 1 == 1)
  {
  }

  /** The current filter on one entry: a regular file whose name is valid
      UTF-8 beginning with `unirun-plugin` and which some execute bit
      allows. */
  predicate Launchable(e: DirEntry) {
    && e.isFile
    && e.name.Some? && ToStr(e.name.value).Some? && StartsWith(ToStr(e.name.value).value, PLUGIN_PREFIX)
    && e.mode.Some? && Executable(e.mode.value)
  }

  /** `launch_plugins`' collected list: the launchable entries, in directory
      order. */
  function PluginsToLaunch(es: seq<DirEntry>): (r: seq<DirEntry>)
    ensures |r| <= |es|
    ensures forall k :: 0 <= k < |r| ==> Launchable(r[k]) && r[k] in es
    ensures forall k :: 0 <= k < |es| ==> Launchable(es[k]) ==> es[k] in r
  {
    if |es| == 0 then []
    else
      var rest := PluginsToLaunch(es[1..]);
      assert forall k :: 1 <= k < |es| ==> es[k] == es[1..][k - 1];
      if Launchable(es[0]) then [es[0]] + rest else rest
  }

  /** Filtering keeps directory order and multiplicity: the list for a
      concatenation is the lists for its parts, one after the other. */
  lemma {:induction false} PluginsToLaunchAppend(a: seq<DirEntry>, b: seq<DirEntry>)
    ensures PluginsToLaunch(a + b) == PluginsToLaunch(a) + PluginsToLaunch(b)
    decreases |a|
  {
    if |a| == 0 {
      assert a + b == b;
    } else {
      assert (a + b)[0] == a[0];
      assert (a + b)[1..] == a[1..] + b;
      PluginsToLaunchAppend(a[1..], b);
    }
  }

  /** A single entry is kept exactly when it is launchable. */
  lemma PluginsToLaunchOne(e: DirEntry)
    ensures PluginsToLaunch([e]) == if Launchable(e) then [e] else []
  {
    assert [e][1..] == [];
  }

  /** The older filter on one entry: the name is decoded lossily; an entry
      that is a file without a name, or whose name matches but whose
      metadata cannot be read, panics. */
  function LegacyLaunchable(e: DirEntry): (r: Result<bool, Panic>)
    ensures r.Failure? ==> e.isFile && r.error in {MissingFileName, MissingMetadata}
  {
    if !e.isFile then Success(false)
    else if e.name.None? then Failure(MissingFileName)
    else if !StartsWith(DecodeLossy(e.name.value), PLUGIN_PREFIX) then Success(false)
    else if e.mode.None? then Failure(MissingMetadata)
    else Success(Executable(e.mode.value))
  }

  /** The older collected list: the entries it accepts in order, or the
      panic of the first entry that panics, since the lazy iterator stops
      there. */
  function LegacyPluginsToLaunch(es: seq<DirEntry>): (r: Result<seq<DirEntry>, Panic>)
    ensures r.Failure? <==> exists k :: 0 <= k < |es| && LegacyLaunchable(es[k]).Failure?
    ensures r.Failure? ==> exists k :: 0 <= k < |es| && LegacyLaunchable(es[k]) == Failure(r.error) &&
                                      forall j :: 0 <= j < k ==> LegacyLaunchable(es[j]).Success?
    ensures r.Success? ==> forall k :: 0 <= k < |r.value| ==> r.value[k] in es && LegacyLaunchable(r.value[k]) == Success(true)
    ensures r.Success? ==> forall k :: 0 <= k < |es| ==> LegacyLaunchable(es[k]) == Success(true) ==> es[k] in r.value
  {
    if |es| == 0 then Success([])
    else
      assert forall k :: 1 <= k < |es| ==> es[k] == es[1..][k - 1];
      match LegacyLaunchable(es[0])
      case Failure(p) => Failure(p)
      case Success(keep) =>
        match LegacyPluginsToLaunch(es[1..])
        case Failure(p) =>
          var k :| 0 <= k < |es[1..]| && LegacyLaunchable(es[1..][k]) == Failure(p) &&
                   forall j :: 0 <= j < k ==> LegacyLaunchable(es[1..][j]).Success?;
          assert LegacyLaunchable(es[k + 1]) == Failure(p);
          assert forall j :: 0 <= j < k + 1 ==> LegacyLaunchable(es[j]).Success?;
          Failure(p)
        case Success(rest) => Success(if keep then [es[0]] + rest else rest)
  }

  /** The older list for a concatenation: the first part's panic if it has
      one, else the second part's, else the two lists one after the other,
      so directory order and multiplicity are kept. */
  lemma {:induction false} LegacyPluginsToLaunchAppend(a: seq<DirEntry>, b: seq<DirEntry>)
    ensures LegacyPluginsToLaunch(a + b) ==
              match LegacyPluginsToLaunch(a)
              case Failure(p) => Failure(p)
              case Success(x) =>
                (match LegacyPluginsToLaunch(b)
                 case Failure(p) => Failure(p)
                 case Success(y) => Success(x + y))
    decreases |a|
  {
    if |a| == 0 {
      assert a + b == b;
      match LegacyPluginsToLaunch(b)
      case Failure(_) =>
      case Success(y) => assert [] + y == y;
    } else {
      assert (a + b)[0] == a[0];
      assert (a + b)[1..] == a[1..] + b;
      LegacyPluginsToLaunchAppend(a[1..], b);
      match LegacyLaunchable(a[0])
      case Failure(_) =>
      case Success(keep) =>
        match LegacyPluginsToLaunch(a[1..])
        case Failure(_) =>
        case Success(x) =>
          match LegacyPluginsToLaunch(b)
          case Failure(_) =>
          case Success(y) =>
            if keep {
              assert [a[0]] + (x + y) == ([a[0]] + x) + y;
            }
    }
  }

  /** A single entry: its panic, or a list holding it exactly when it is
      accepted. */
  lemma LegacyPluginsToLaunchOne(e: DirEntry)
    ensures LegacyPluginsToLaunch([e]) ==
              match LegacyLaunchable(e)
              case Failure(p) => Failure(p)
              case Success(keep) => Success(if keep then [e] else [])
  {
    assert [e][1..] == [];
    assert LegacyPluginsToLaunch([e][1..]) == Success([]);
    assert [e][0] == e;
    assert [e] + [] == [e];
  }

  lemma {:induction false} ValidAfterEncode(s: string, rest: seq<uint8>)
    ensures Valid(Encode(s) + rest) == Valid(rest)
    decreases |s|
  {
    if |s| > 0 {
      ValidEncodeHead(s, rest);
      ValidAfterEncode(s[1..], rest);
    } else {
      assert Encode(s) + rest == rest;
    }
  }

  /** Wherever the current filter launches an entry, the older one does
      too: for a well-formed name the lossy decoding is the name itself. */
  lemma CurrentImpliesLegacy(e: DirEntry)
    requires Launchable(e)
    ensures LegacyLaunchable(e) == Success(true)
  {
  }

  /** The two filters differ on a name that is not well-formed UTF-8:
      `unirun-plugin` followed by the byte 0xFF is launched by the older
      filter (it reads `unirun-plugin\u{FFFD}`) and skipped by the current
      one. */
  lemma FiltersDisagreeOnBadUtf8(mode: bv32)
    requires Executable(mode)
    ensures var e := DirEntry(true, Some(Encode(PLUGIN_PREFIX) + [0xFF]), Some(mode));
            !Launchable(e) && LegacyLaunchable(e) == Success(true)
  {
    var b := Encode(PLUGIN_PREFIX) + [0xFF];
    ValidAfterEncode(PLUGIN_PREFIX, [0xFF]);
    assert !DecodeOne([0xFF]).wellFormed;
    assert !Valid([0xFF]);
    DecodeEncode(PLUGIN_PREFIX, [0xFF]);
    var d := DecodeLossy(b);
    assert d == PLUGIN_PREFIX + DecodeLossy([0xFF]);
    assert d[..|PLUGIN_PREFIX|] == PLUGIN_PREFIX;
  }

  // ---------------------------------------------------------------------
  // build_image

  datatype ImageSource = FromFile(path: string) | FromIconName(name: string)

  /** `build_image`: an absolute path (one starting with `/`, as
      `Path::is_absolute` decides on Unix) is loaded as a file, anything
      else is looked up as a themed icon name; the string itself is passed
      on unchanged either way. */
  function BuildImage(icon: string): (r: ImageSource)
    ensures r.FromFile? <==> StartsWith(icon, "/")
    ensures r.FromFile? ==> r.path == icon
    ensures r.FromIconName? ==> r.name == icon
  {
    if |icon| > 0 && icon[0] == '/' then FromFile(icon) else FromIconName(icon)
  }
}

=== FILE: legacy_coordinator.dfy ===
/** The older coordinator's state and handlers (unirun/src/gui.rs):
    `on_entry_changed` with `filter_connections`, and
    `handle_selection_activation`, both speaking the string protocol.

    As for the current coordinator, the glib main loop is a sequence of
    `Event`s; a spawned session is a `Task` in the entry pool, and an event
    addressed to a handle no longer in the pool does nothing. A peer closing
    its end is the `Dropped` event, which is what `is_connected()` later
    observes. Registering new connections is done by the socket service of
    the current revision and is not part of this model: the connection list
    is given. */
module LegacyCoordinator {
  import opened Wrappers
  import opened LegacyWire
  import opened GObjects
  import opened LegacySession
  import MatchIf
  import GMatches

  /** A plugin connection: its peer's pid and whether it is still
      connected. */
  datatype Conn = Conn(pid: i32, connected: bool)

  /** A spawned session: its handle, its connection (an index into
      `connections` as they stood when it was spawned), the pid it tags
      entries with, and where its state machine stands. */
  datatype Task = Task(handle: nat, conn: nat, pid: i32, state: State)

  /** One message written to the plugin with the given pid. */
  datatype Sent = Sent(pid: i32, msg: Msg)

  /** `RuntimeData` with the match store, plus the handles aborted so far,
      every message written, and the panics of spawned futures. `owners[k]`
      is the position in `pool` of the task that appended `store[k]`. */
  datatype Runtime = Runtime(
    connections: seq<Conn>,
    pool: seq<Task>,
    store: seq<Props>,
    owners: seq<nat>,
    nextHandle: nat,
    aborted: seq<nat>,
    sent: seq<Sent>,
    faults: seq<Panic>)

  function Init(connections: seq<Conn>): (r: Runtime)
    ensures Inv(r) && r.store == [] && r.pool == []
  {
    Runtime(connections, [], [], [], 0, [], [], [])
  }

  function Handles(pool: seq<Task>): (hs: seq<nat>)
    ensures |hs| == |pool| && forall i :: 0 <= i < |pool| ==> hs[i] == pool[i].handle
  {
    seq(|pool|, i requires 0 <= i < |pool| => pool[i].handle)
  }

  function SentTo(pid: i32, ms: seq<Msg>): (s: seq<Sent>)
    ensures |s| == |ms| && forall k :: 0 <= k < |ms| ==> s[k] == Sent(pid, ms[k])
  {
    seq(|ms|, k requires 0 <= k < |ms| => Sent(pid, ms[k]))
  }

  /** The bookkeeping the handlers keep. */
  ghost predicate Inv(r: Runtime) {
    && (forall i :: 0 <= i < |r.pool| ==>
          r.pool[i].conn < |r.connections| && r.pool[i].pid == r.connections[r.pool[i].conn].pid
          && r.pool[i].handle < r.nextHandle)
    && (forall i, j :: 0 <= i < j < |r.pool| ==> r.pool[i].handle < r.pool[j].handle)
    && (forall k :: 0 <= k < |r.aborted| ==> r.aborted[k] < r.nextHandle)
    && (forall k, i :: 0 <= k < |r.aborted| && 0 <= i < |r.pool| ==> r.aborted[k] < r.pool[i].handle)
    && |r.owners| == |r.store|
    && (forall k :: 0 <= k < |r.store| ==>
          r.owners[k] < |r.pool| && r.store[k].pluginPid == AsU64(r.pool[r.owners[k]].pid))
  }

  /** `filter_connections`: the connections still connected, in their
      original order. */
  function FilterConnections(cs: seq<Conn>): (r: seq<Conn>)
    ensures |r| <= |cs|
    ensures forall k :: 0 <= k < |r| ==> r[k].connected && r[k] in cs
    ensures forall k :: 0 <= k < |cs| ==> cs[k].connected ==> cs[k] in r
  {
    if |cs| == 0 then []
    else
      var rest := FilterConnections(cs[1..]);
      assert forall k :: 1 <= k < |cs| ==> cs[k] == cs[1..][k - 1];
      if cs[0].connected then [cs[0]] + rest else rest
  }

  /** The filter keeps order: filtering a concatenation filters each part. */
  lemma {:induction false} FilterConnectionsAppend(a: seq<Conn>, b: seq<Conn>)
    ensures FilterConnections(a + b) == FilterConnections(a) + FilterConnections(b)
    decreases |a|
  {
    if |a| == 0 {
      assert a + b == b;
    } else {
      assert (a + b)[0] == a[0];
      assert (a + b)[1..] == a[1..] + b;
      FilterConnectionsAppend(a[1..], b);
    }
  }

  /** A list of live connections is left as it is, so filtering twice is
      filtering once. */
  lemma {:induction false} FilterConnectionsKeepsLive(cs: seq<Conn>)
    requires forall k :: 0 <= k < |cs| ==> cs[k].connected
    ensures FilterConnections(cs) == cs
    ensures FilterConnections(FilterConnections(cs)) == FilterConnections(cs)
  {
    if |cs| > 0 {
      FilterConnectionsKeepsLive(cs[1..]);
    }
  }

  /** A dropped connection is gone after the filter: it is one element
      shorter than the list it came from. */
  lemma {:induction false} FilterConnectionsDrops(cs: seq<Conn>, k: nat)
    requires k < |cs| && !cs[k].connected
    ensures |FilterConnections(cs)| < |cs|
    decreases k
  {
    if k > 0 {
      FilterConnectionsDrops(cs[1..], k - 1);
    }
  }

  /** `clear_entry_pool`: every held task is aborted and the pool emptied;
      nothing else changes. */
  function ClearEntryPool(r: Runtime): (r': Runtime)
    ensures r'.pool == [] && r'.aborted == r.aborted + Handles(r.pool)
    ensures r' == r.(pool := [], aborted := r'.aborted)
  {
    if |r.pool| == 0 then r else r.(pool := [], aborted := r.aborted + Handles(r.pool))
  }

  /** `on_entry_changed`: abort the old round, drop the connections that are
      gone, empty the store, and spawn one session per remaining
      connection, in order. */
  function OnEntryChanged(r: Runtime, text: string): (r': Runtime)
    ensures r'.connections == FilterConnections(r.connections)
    ensures r'.store == [] && r'.sent == r.sent
    ensures r'.aborted == r.aborted + Handles(r.pool)
    ensures |r'.pool| == |r'.connections|
    ensures forall i :: 0 <= i < |r'.pool| ==>
              r'.pool[i].conn == i && r'.pool[i].pid == r'.connections[i].pid && r'.pool[i].state == Spawned(text)
    ensures forall i :: 0 <= i < |r'.pool| ==> r'.pool[i].handle >= r.nextHandle
  {
    var cleared := ClearEntryPool(r);
    var live := FilterConnections(r.connections);
    var tasks := seq(|live|, i requires 0 <= i < |live| => Task(r.nextHandle + i, i, live[i].pid, Spawned(text)));
    cleared.(connections := live, store := [], owners := [], pool := tasks, nextHandle := r.nextHandle + |tasks|)
  }

  /** The plugin at index `k` closes its end. */
  function Drop(r: Runtime, k: nat): (r': Runtime)
    ensures |r'.connections| == |r.connections|
    ensures forall i :: 0 <= i < |r.connections| ==>
              r'.connections[i].pid == r.connections[i].pid
              && r'.connections[i].connected == (r.connections[i].connected && i != k)
    ensures r' == r.(connections := r'.connections)
  {
    if k < |r.connections| then r.(connections := r.connections[k := r.connections[k].(connected := false)]) else r
  }

  /** The position of the pool task with the given handle, if it is still
      held. */
  function FindTask(pool: seq<Task>, handle: nat): (r: Option<nat>)
    ensures r.Some? ==> r.value < |pool| && pool[r.value].handle == handle
    ensures r.None? ==> forall i :: 0 <= i < |pool| ==> pool[i].handle != handle
  {
    if |pool| == 0 then None
    else if pool[|pool| - 1].handle == handle then Some(|pool| - 1)
    else FindTask(pool[..|pool| - 1], handle)
  }

  /** The first poll of a spawned session writes `abort` and the query. */
  function Poll(r: Runtime, handle: nat): (r': Runtime)
    ensures FindTask(r.pool, handle).None? ==> r' == r
    ensures r'.store == r.store && r'.connections == r.connections && |r'.pool| == |r.pool|
    ensures r.sent <= r'.sent
    ensures forall j :: 0 <= j < |r.pool| && FindTask(r.pool, handle) != Some(j) ==> r'.pool[j] == r.pool[j]
    ensures var f := FindTask(r.pool, handle);
            f.Some? && r.pool[f.value].state.Spawned? ==>
              && r'.sent == r.sent + [Sent(r.pool[f.value].pid, Text("abort")),
                                      Sent(r.pool[f.value].pid, Text(QueryMessage(r.pool[f.value].state.text)))]
              && r'.pool[f.value].state == AwaitingCount
  {
    match FindTask(r.pool, handle)
    case None => r
    case Some(i) =>
      var t := r.pool[i];
      match t.state
      case Spawned(text) =>
        var o := Open(text);
        r.(pool := r.pool[i := t.(state := o.next)], sent := r.sent + SentTo(t.pid, o.writes))
      case _ => r
  }

  /** A read completing in the session with the given handle. */
  function Deliver(r: Runtime, handle: nat, rd: Read): (r': Runtime)
    ensures FindTask(r.pool, handle).None? ==> r' == r
    ensures r'.connections == r.connections && |r'.pool| == |r.pool| && Handles(r'.pool) == Handles(r.pool)
    ensures |r'.store| >= |r.store| && r'.store[..|r.store|] == r.store
    ensures r.sent <= r'.sent
    ensures forall j :: 0 <= j < |r.pool| && FindTask(r.pool, handle) != Some(j) ==> r'.pool[j] == r.pool[j]
  {
    match FindTask(r.pool, handle)
    case None => r
    case Some(i) =>
      var t := r.pool[i];
      var st := Receive(t.state, t.pid, rd);
      var faults := if st.next.Panicked? && !t.state.Panicked? then r.faults + [st.next.why] else r.faults;
      r.(pool := r.pool[i := t.(state := st.next)],
         store := r.store + st.appended,
         owners := r.owners + seq(|st.appended|, _ => i),
         sent := r.sent + SentTo(t.pid, st.writes),
         faults := faults)
  }

  datatype Event =
    | Dropped(conn: nat)
    | EntryChanged(text: string)
    | Polled(handle: nat)
    | ReadDone(handle: nat, read: Read)

  /** One event. Nothing once sent is taken back, and only a changed
      entry empties the store; every other event at most appends to it. */
  function Apply(r: Runtime, e: Event): (r': Runtime)
    ensures r.sent <= r'.sent
    ensures e.EntryChanged? ==> r'.store == []
    ensures !e.EntryChanged? ==> r.store <= r'.store
  {
    match e
    case Dropped(k) => Drop(r, k)
    case EntryChanged(text) => OnEntryChanged(r, text)
    case Polled(h) => Poll(r, h)
    case ReadDone(h, rd) => Deliver(r, h, rd)
  }

  /** A sequence of events, in order: the sent log only grows, and
      events other than a changed entry only ever extend the store. */
  function ApplyAll(r: Runtime, es: seq<Event>): (r': Runtime)
    ensures r.sent <= r'.sent
    ensures (forall k :: 0 <= k < |es| ==> !es[k].EntryChanged?) ==> r.store <= r'.store
    decreases |es|
  {
    if |es| == 0 then r else ApplyAll(Apply(r, es[0]), es[1..])
  }

  lemma OnEntryChangedInv(r: Runtime, text: string)
    requires Inv(r)
    ensures Inv(OnEntryChanged(r, text))
  {
    var r' := OnEntryChanged(r, text);
    forall k, i | 0 <= k < |r'.aborted| && 0 <= i < |r'.pool|
      ensures r'.aborted[k] < r'.pool[i].handle
    {
      if k >= |r.aborted| {
        assert r'.aborted[k] == r.pool[k - |r.aborted|].handle;
      }
    }
  }

  lemma PollInv(r: Runtime, handle: nat)
    requires Inv(r)
    ensures Inv(Poll(r, handle))
  {
    match FindTask(r.pool, handle)
    case None =>
    case Some(i) =>
      var r' := Poll(r, handle);
      assert Handles(r'.pool) == Handles(r.pool);
  }

  lemma DeliverInv(r: Runtime, handle: nat, rd: Read)
    requires Inv(r)
    ensures Inv(Deliver(r, handle, rd))
  {
    match FindTask(r.pool, handle)
    case None =>
    case Some(i) =>
      var t := r.pool[i];
      var st := Receive(t.state, t.pid, rd);
      var r' := Deliver(r, handle, rd);
      assert st.appended == [] || st.appended == [Tagged(rd.msg.m, t.pid)];
      forall k | 0 <= k < |r'.store|
        ensures r'.owners[k] < |r'.pool| && r'.store[k].pluginPid == AsU64(r'.pool[r'.owners[k]].pid)
      {
        if k >= |r.store| {
          assert r'.owners[k] == i;
        }
      }
  }

  /** Every handler keeps the bookkeeping: tasks point at connections with
      their pids, handles are fresh and never reused, aborted handles are
      older than every held task, and every stored match was appended by a
      task of the current round and carries that task's pid. */
  lemma ApplyInv(r: Runtime, e: Event)
    requires Inv(r)
    ensures Inv(Apply(r, e))
  {
    match e
    case Dropped(k) =>
    case EntryChanged(text) => OnEntryChangedInv(r, text);
    case Polled(h) => PollInv(r, h);
    case ReadDone(h, rd) => DeliverInv(r, h, rd);
  }

  lemma {:induction false} ApplyAllInv(r: Runtime, es: seq<Event>)
    requires Inv(r)
    ensures Inv(ApplyAll(r, es))
    decreases |es|
  {
    if |es| > 0 {
      ApplyInv(r, es[0]);
      ApplyAllInv(Apply(r, es[0]), es[1..]);
    }
  }

  /** An aborted session takes no further steps: polling it or completing a
      read in it changes nothing. */
  lemma AbortedTaskInert(r: Runtime, k: nat, rd: Read)
    requires Inv(r) && k < |r.aborted|
    ensures Apply(r, Polled(r.aborted[k])) == r
    ensures Apply(r, ReadDone(r.aborted[k], rd)) == r
  {
    assert FindTask(r.pool, r.aborted[k]).None?;
  }

  // ---------------------------------------------------------------------
  // Row activation

  /** The first connection whose pid, cast as `as u64`, is the given one
      (`Iterator::find`). */
  function FindConn(cs: seq<Conn>, pid: u64): (r: Option<nat>)
    ensures r.Some? ==> r.value < |cs| && AsU64(cs[r.value].pid) == pid
    ensures r.Some? ==> forall j :: 0 <= j < r.value ==> AsU64(cs[j].pid) != pid
    ensures r.None? <==> forall j :: 0 <= j < |cs| ==> AsU64(cs[j].pid) != pid
  {
    if |cs| == 0 then None
    else if AsU64(cs[0].pid) == pid then Some(0)
    else
      match FindConn(cs[1..], pid)
      case None => None
      case Some(i) => Some(i + 1)
  }

  /** What activating a row leads to once the plugin replies. */
  datatype Effect =
    | SendQuit(msg: Msg)    // `quit` over a fresh connection to the coordinator itself
    | Ignore
    | Crash(why: Panic)

  /** The connection written to, the message written, and the effect of the
      reply. */
  datatype Activation = Activation(target: nat, request: Msg, effect: Effect)

  /** `handle_selection_activation`: look up the row (a position that does
      not fit `u32` or is past the store panics), route `activate,<id>` to
      the first connection whose pid is the item's plugin pid, and quit only
      on a reply of exactly `ok`. */
  function Activate(r: Runtime, row: nat, reply: Read): (a: Result<Activation, Panic>)
    ensures (row >= 0x1_0000_0000 || row >= |r.store|) ==> a == Failure(MissingRow)
    ensures row < 0x1_0000_0000 && row < |r.store| ==>
              (a == Failure(NoSuchConnection) <==> FindConn(r.connections, r.store[row].pluginPid).None?)
    ensures a.Success? ==>
              && row < |r.store|
              && a.value.target == FindConn(r.connections, r.store[row].pluginPid).value
              && a.value.request == Text(ActivateMessage(GMatches.ToMatch(r.store[row]).id))
    ensures a.Success? ==> (a.value.effect.SendQuit? <==> reply == Got(Text("ok")))
    ensures a.Success? && a.value.effect.SendQuit? ==> a.value.effect.msg == Text("quit")
    ensures a.Success? ==> (a.value.effect.Crash? <==> reply.Failed?)
    ensures a.Success? && reply.Failed? ==> a.value.effect == Crash(ReadFailed)
    ensures a.Success? && reply.Got? && reply.msg != Text("ok") ==> a.value.effect == Ignore
  {
    if row >= 0x1_0000_0000 || row >= |r.store| then Failure(MissingRow)
    else
      var item := r.store[row];
      match FindConn(r.connections, GetPluginPid(item))
      case None => Failure(NoSuchConnection)
      case Some(c) =>
        var request := Text(ActivateMessage(MatchIf.GetId(GMatches.ToMatch(item))));
        var effect :=
          match reply
          case Failed => Crash(ReadFailed)
          case Got(msg) => if msg == Text("ok") then SendQuit(Text("quit")) else Ignore;
        Success(Activation(c, request, effect))
  }

  /** Every stored match carries the pid of a connection of the current
      round. */
  lemma StoredPidsRegistered(r: Runtime, k: nat) returns (c: nat)
    requires Inv(r) && k < |r.store|
    ensures c < |r.connections| && AsU64(r.connections[c].pid) == r.store[k].pluginPid
  {
    c := r.pool[r.owners[k]].conn;
  }

  /** Under the bookkeeping, a row in range always finds its plugin's
      connection, even one that has since been dropped. */
  lemma ActivateFindsConnection(r: Runtime, row: nat, reply: Read)
    requires Inv(r) && row < |r.store| && row < 0x1_0000_0000
    ensures Activate(r, row, reply).Success?
  {
    var c := StoredPidsRegistered(r, row);
    assert FindConn(r.connections, r.store[row].pluginPid).Some?;
  }
}

=== FILE: legacy_pair.dfy ===
/** The older coordinator (unirun/src/gui.rs) and the applications plugin
    (plugins/applications/src/main.rs) run against each other: every
    message one side writes is what the other side reads, after a trip
    through the 4096-byte frame. */
module LegacyPair {
  import opened Wrappers
  import opened Text
  import opened Utf8
  import opened Framing
  import opened LegacyWire
  import MatchIf
  import AppInfos
  import AppPlugin
  import LegacySession

  /** The strings the plugin reads when the coordinator writes `ws`, all of
      them text, one per message, in order. */
  function Heard(ws: seq<Msg>): (rs: seq<string>)
    requires forall k :: 0 <= k < |ws| ==> ws[k].Text?
    ensures |rs| == |ws|
  {
    if |ws| == 0 then [] else [Transmit(ws[0]).s] + Heard(ws[1..])
  }

  /** The `k`-th string read is the `k`-th message after its trip through
      the frame. */
  lemma {:induction false} HeardAt(ws: seq<Msg>, k: nat)
    requires forall k :: 0 <= k < |ws| ==> ws[k].Text?
    requires k < |ws|
    ensures Heard(ws)[k] == Transmit(ws[k]).s
  {
    if k > 0 {
      HeardAt(ws[1..], k - 1);
    }
  }

  /** The reads the coordinator completes when the plugin writes `ws`, one
      per message, in order. */
  function Delivered(ws: seq<Msg>): (rds: seq<Read>)
    ensures |rds| == |ws|
  {
    if |ws| == 0 then [] else [Got(Transmit(ws[0]))] + Delivered(ws[1..])
  }

  /** The `k`-th read is the `k`-th message after its trip through the
      frame. */
  lemma {:induction false} DeliveredAt(ws: seq<Msg>, k: nat)
    requires k < |ws|
    ensures Delivered(ws)[k] == Got(Transmit(ws[k]))
  {
    if k > 0 {
      DeliveredAt(ws[1..], k - 1);
    }
  }

  /** `n` acknowledgements as the plugin reads them. */
  function Oks(n: nat): (rs: seq<string>)
    ensures |rs| == n && forall k :: 0 <= k < n ==> rs[k] == "ok"
  {
    seq(n, _ => "ok")
  }

  /** The entries the plugin streams for the pairs it found. */
  function EntryMsgs(pairs: seq<(AppInfos.AppInfo, MatchIf.Match)>): (ms: seq<Msg>)
    ensures |ms| == |pairs| && forall k :: 0 <= k < |pairs| ==> ms[k] == Entry(pairs[k].1)
  {
    seq(|pairs|, k requires 0 <= k < |pairs| => Entry(pairs[k].1))
  }

  /** `abort` arrives as written. */
  lemma AbortArrives()
    ensures Transmit(Text("abort")) == Text("abort")
  {
    var abort := "abort";
    assert abort[0] == 'a' && abort[1] == 'b' && abort[2] == 'o' && abort[3] == 'r' && abort[4] == 't';
    assert Ascii(abort) && Clean(abort);
    EncodeAscii(abort);
    TransmitClean(abort);
  }

  /** `ok` arrives as written. */
  lemma OkArrives()
    ensures Transmit(Text("ok")) == Text("ok")
  {
    var ok := "ok";
    assert ok[0] == 'o' && ok[1] == 'k';
    assert Ascii(ok) && Clean(ok);
    EncodeAscii(ok);
    TransmitClean(ok);
  }

  /** What the plugin searches for when a query arrives intact: the text
      with every leading `get_data,` removed, then trimmed. A text that has
      neither such a prefix nor surrounding whitespace is searched for as
      typed. */
  lemma QueryArrives(text: string)
    ensures AppPlugin.QueryOf(QueryMessage(text)) == Trim(TrimStartMatches(text, "get_data,"))
    ensures !StartsWith(text, "get_data,") && (|text| > 0 ==> !IsWhitespace(text[0]) && !IsWhitespace(text[|text| - 1])) ==>
              AppPlugin.QueryOf(QueryMessage(text)) == text
  {
    var m := QueryMessage(text);
    assert m[9..] == text;
    if !StartsWith(text, "get_data,") && (|text| > 0 ==> !IsWhitespace(text[0]) && !IsWhitespace(text[|text| - 1])) {
      TrimNoop(text);
    }
  }

  /** Typing `get_data,` in front of a text changes nothing: the plugin
      strips that prefix too, so it searches for the same thing as for the
      text alone, not for what was typed. */
  lemma QueryPrefixSwallowed(text: string)
    ensures AppPlugin.QueryOf(QueryMessage(QueryMessage(text))) == AppPlugin.QueryOf(QueryMessage(text))
    ensures !StartsWith(text, "get_data,") && (|text| > 0 ==> !IsWhitespace(text[0]) && !IsWhitespace(text[|text| - 1])) ==>
              AppPlugin.QueryOf(QueryMessage(QueryMessage(text))) != QueryMessage(text)
  {
    var once := QueryMessage(text);
    var twice := QueryMessage(once);
    assert twice[9..] == once;
    assert once[9..] == text;
    QueryArrives(text);
    QueryArrives(once);
    if !StartsWith(text, "get_data,") && (|text| > 0 ==> !IsWhitespace(text[0]) && !IsWhitespace(text[|text| - 1])) {
      assert |text| < |once|;
    }
  }

  /** The activation the coordinator writes reaches `ActivateApp` with the
      id it names, when that id is clean at both ends and does not itself
      begin with `activate,`. */
  lemma ActivateArrives(p: AppPlugin.Plugin, env: AppPlugin.Env, id: string)
    requires AppPlugin.Good(p) && p.mode.Waiting?
    requires !StartsWith(id, "activate,")
    requires |id| > 0 ==> !IsWhitespace(id[0]) && !IsWhitespace(id[|id| - 1])
    ensures AppPlugin.Step(p, env, ActivateMessage(id)) == AppPlugin.ActivateApp(p, env, id)
  {
    var m := ActivateMessage(id);
    assert m[..8] == "activate";
    assert StartsWith(m, "activate");
    assert m[9..] == id;
    assert TrimStartMatches(m, "activate,") == id;
    TrimNoop(id);
  }

  /** In its command loop the plugin ignores `abort`. */
  lemma AbortIgnored(p: AppPlugin.Plugin, env: AppPlugin.Env)
    requires AppPlugin.Good(p) && p.mode.Waiting?
    ensures AppPlugin.Step(p, env, "abort") == (p, [])
  {
  }

  /** The opening makes the plugin announce the count and send the first
      entry. */
  lemma OpeningStarts(p: AppPlugin.Plugin, env: AppPlugin.Env, q: string)
    requires AppPlugin.Good(p) && p.mode.Waiting? && StartsWith(q, "get_data")
    ensures AppPlugin.Run(p, env, ["abort", q]) == AppPlugin.StartSending(AppPlugin.Lookup(env, p.queries, AppPlugin.QueryOf(q)), p.queries + 1)
  {
    var started := AppPlugin.StartSending(AppPlugin.Lookup(env, p.queries, AppPlugin.QueryOf(q)), p.queries + 1);
    AbortIgnored(p, env);
    AppPlugin.GetDataStarts(p, env, q);
    AppPlugin.RunPair(p, env, "abort", q);
    assert [] + started.1 == started.1;
  }

  /** After the first entry, the `ok`s make the plugin send the rest and
      return to its command loop. */
  lemma StreamAnswered(env: AppPlugin.Env, pairs: seq<(AppInfos.AppInfo, MatchIf.Match)>, queries: nat)
    ensures var started := AppPlugin.StartSending(pairs, queries);
            AppPlugin.Then(started, AppPlugin.Run(started.0, env, Oks(|pairs|)))
            == (AppPlugin.Plugin(pairs, AppPlugin.Waiting, queries), [Text(CountMessage(|pairs|))] + EntryMsgs(pairs))
  {
    var started := AppPlugin.StartSending(pairs, queries);
    var n := |pairs|;
    var count := Text(CountMessage(n));
    if n == 0 {
      assert Oks(n) == [];
      assert EntryMsgs(pairs) == [];
    } else {
      assert Oks(n) == seq(n, _ => "ok");
      AppPlugin.StreamCompletes(started.0, env, n);
      var tail := seq(n - 1, k requires 0 <= k < n - 1 => Entry(pairs[1 + k].1));
      assert started.1 == [count, Entry(pairs[0].1)];
      assert [count, Entry(pairs[0].1)] + tail == [count] + EntryMsgs(pairs);
    }
  }

  /** The plugin's side: it ignores `abort` in its command loop, answers the
      query with the count and the first entry, and sends each further
      entry on an `ok`, until all are acknowledged and it is back in its
      command loop. */
  lemma PluginAnswers(p: AppPlugin.Plugin, env: AppPlugin.Env, q: string)
    requires AppPlugin.Good(p) && p.mode.Waiting? && StartsWith(q, "get_data")
    ensures var pairs := AppPlugin.Lookup(env, p.queries, AppPlugin.QueryOf(q));
            AppPlugin.Run(p, env, ["abort", q] + Oks(|pairs|))
            == (AppPlugin.Plugin(pairs, AppPlugin.Waiting, p.queries + 1), [Text(CountMessage(|pairs|))] + EntryMsgs(pairs))
  {
    var pairs := AppPlugin.Lookup(env, p.queries, AppPlugin.QueryOf(q));
    AppPlugin.RunAppend(p, env, ["abort", q], Oks(|pairs|));
    OpeningStarts(p, env, q);
    StreamAnswered(env, pairs, p.queries + 1);
  }

  /** Entries arrive as sent. */
  lemma {:induction false} EntriesDelivered(pairs: seq<(AppInfos.AppInfo, MatchIf.Match)>)
    ensures Delivered(EntryMsgs(pairs)) == LegacySession.EntryReads(AppPlugin.Entries(pairs))
    decreases |pairs|
  {
    if |pairs| > 0 {
      var ms := EntryMsgs(pairs);
      assert ms[1..] == EntryMsgs(pairs[1..]);
      EntriesDelivered(pairs[1..]);
      var rds := LegacySession.EntryReads(AppPlugin.Entries(pairs));
      assert rds == [Got(Entry(pairs[0].1))] + LegacySession.EntryReads(AppPlugin.Entries(pairs[1..]));
    }
  }

  /** What the coordinator reads of the plugin's answer: the count as
      written, then each entry. */
  lemma AnswerDelivered(pairs: seq<(AppInfos.AppInfo, MatchIf.Match)>)
    requires |pairs| < USIZE_LIMIT
    ensures Delivered([Text(CountMessage(|pairs|))] + EntryMsgs(pairs))
            == [Got(Text(CountMessage(|pairs|)))] + (LegacySession.EntryReads(AppPlugin.Entries(pairs)) + [])
  {
    var count := Text(CountMessage(|pairs|));
    var ws := [count] + EntryMsgs(pairs);
    assert ws[0] == count;
    assert ws[1..] == EntryMsgs(pairs);
    CountFrames(|pairs|);
    EntriesDelivered(pairs);
    var incoming := LegacySession.EntryReads(AppPlugin.Entries(pairs));
    assert incoming + [] == incoming;
  }

  /** The coordinator's side: what the plugin wrote arrives as the count and
      the entries, and the session reads exactly that many entries. */
  lemma CoordinatorReads(pid: LegacySession.i32, pairs: seq<(AppInfos.AppInfo, MatchIf.Match)>)
    requires |pairs| < USIZE_LIMIT
    ensures LegacySession.Run(LegacySession.AwaitingCount, pid, Delivered([Text(CountMessage(|pairs|))] + EntryMsgs(pairs)))
            == LegacySession.Step(LegacySession.Done, LegacySession.Acks(|pairs|),
                                  LegacySession.TaggedAll(AppPlugin.Entries(pairs), pid))
  {
    AnswerDelivered(pairs);
    LegacySession.CountedSession(pid, AppPlugin.Entries(pairs), []);
  }

  lemma HeardPair(a: Msg, b: Msg)
    requires a.Text? && b.Text?
    ensures Heard([a, b]) == [Transmit(a).s, Transmit(b).s]
  {
    assert [a, b][1..] == [b];
    assert [b][1..] == [];
  }

  /** The coordinator's opening reaches the plugin as written when the
      query is clean and fits a frame. */
  lemma OpeningHeard(text: string)
    requires Clean(QueryMessage(text)) && Fits(QueryMessage(text))
    ensures Heard(LegacySession.Open(text).writes) == ["abort", QueryMessage(text)]
  {
    var q := QueryMessage(text);
    HeardPair(Text("abort"), Text(q));
    AbortArrives();
    TransmitClean(q);
  }

  /** Repeating one message that arrives as written is heard as that many
      copies of its text. */
  lemma {:induction false} HeardUniform(ws: seq<Msg>, w: Msg)
    requires w.Text? && Transmit(w) == w
    requires forall k :: 0 <= k < |ws| ==> ws[k] == w
    ensures forall k :: 0 <= k < |ws| ==> Heard(ws)[k] == w.s
  {
    forall k | 0 <= k < |ws| ensures Heard(ws)[k] == w.s {
      HeardAt(ws, k);
    }
  }

  /** The coordinator's acknowledgements reach the plugin as `ok`s. */
  lemma AcksHeard(n: nat)
    ensures Heard(LegacySession.Acks(n)) == Oks(n)
  {
    OkArrives();
    HeardUniform(LegacySession.Acks(n), Text("ok"));
  }

  /** One whole query between the two: the coordinator opens with `abort`
      and the query, the plugin answers with the count and its entries, the
      coordinator stores every entry tagged with the plugin's pid and
      acknowledges each, and those acknowledgements are exactly what the
      plugin waits for. Both end where they started: the session done, the
      plugin back in its command loop, holding the matches it sent. */
  lemma Conversation(p: AppPlugin.Plugin, env: AppPlugin.Env, text: string, pid: LegacySession.i32)
    requires AppPlugin.Good(p) && p.mode.Waiting?
    requires Clean(QueryMessage(text)) && Fits(QueryMessage(text))
    requires |AppPlugin.Lookup(env, p.queries, AppPlugin.QueryOf(QueryMessage(text)))| < USIZE_LIMIT
    ensures var pairs := AppPlugin.Lookup(env, p.queries, AppPlugin.QueryOf(QueryMessage(text)));
            var plugin := AppPlugin.Run(p, env, ["abort", QueryMessage(text)] + Oks(|pairs|));
            var session := LegacySession.Run(LegacySession.Open(text).next, pid, Delivered(plugin.1));
            && plugin.0 == AppPlugin.Plugin(pairs, AppPlugin.Waiting, p.queries + 1)
            && session == LegacySession.Step(LegacySession.Done, LegacySession.Acks(|pairs|),
                                             LegacySession.TaggedAll(AppPlugin.Entries(pairs), pid))
    ensures Heard(LegacySession.Open(text).writes) == ["abort", QueryMessage(text)]
    ensures var pairs := AppPlugin.Lookup(env, p.queries, AppPlugin.QueryOf(QueryMessage(text)));
            Heard(LegacySession.Acks(|pairs|)) == Oks(|pairs|)
  {
    OpeningHeard(text);
    Exchange(p, env, text, pid);
    AcksHeard(|AppPlugin.Lookup(env, p.queries, AppPlugin.QueryOf(QueryMessage(text)))|);
  }

  /** The middle of `Conversation`: the plugin's answer to the opening and
      the session's reading of it. */
  lemma Exchange(p: AppPlugin.Plugin, env: AppPlugin.Env, text: string, pid: LegacySession.i32)
    requires AppPlugin.Good(p) && p.mode.Waiting?
    requires |AppPlugin.Lookup(env, p.queries, AppPlugin.QueryOf(QueryMessage(text)))| < USIZE_LIMIT
    ensures var pairs := AppPlugin.Lookup(env, p.queries, AppPlugin.QueryOf(QueryMessage(text)));
            var plugin := AppPlugin.Run(p, env, ["abort", QueryMessage(text)] + Oks(|pairs|));
            var session := LegacySession.Run(LegacySession.Open(text).next, pid, Delivered(plugin.1));
            && plugin.0 == AppPlugin.Plugin(pairs, AppPlugin.Waiting, p.queries + 1)
            && session == LegacySession.Step(LegacySession.Done, LegacySession.Acks(|pairs|),
                                             LegacySession.TaggedAll(AppPlugin.Entries(pairs), pid))
  {
    var q := QueryMessage(text);
    var pairs := AppPlugin.Lookup(env, p.queries, AppPlugin.QueryOf(q));
    PluginAnswers(p, env, q);
    var plugin := AppPlugin.Run(p, env, ["abort", q] + Oks(|pairs|));
    assert plugin.1 == [Text(CountMessage(|pairs|))] + EntryMsgs(pairs);
    assert LegacySession.Open(text).next == LegacySession.AwaitingCount;
    CoordinatorReads(pid, pairs);
  }
}

=== FILE: legacy_session.dfy ===
/** One query session of the older coordinator (unirun/src/gui.rs, the task
    body `on_entry_changed` spawns per connection): write `abort` and
    `get_data,<text>`, discard replies until one starts with `ok:`, read the
    announced number of entries, storing and acknowledging each.

    Each input is what one `stream_read_future(..).await` returned. A failed
    read, an entry that is not a `Match` and any other `unwrap` that fails
    end the session with a panic. */
module LegacySession {
  import opened Wrappers
  import opened Text
  import opened LegacyWire
  import opened GObjects
  import MatchIf
  import GMatches

  /** The peer pid `unix_pid()` reports: a `pid_t`, signed 32-bit. */
  type i32 = x: int | -0x8000_0000 <= x < 0x8000_0000

  /** `pid as u64`: sign extension, so a negative pid wraps to the top of
      the 64-bit range. */
  function AsU64(pid: i32): (r: u64)
    ensures pid >= 0 ==> r == pid
    ensures pid < 0 ==> r >= 0x1_0000_0000_0000_0000 - 0x8000_0000
  {
    if pid < 0 then pid + 0x1_0000_0000_0000_0000 else pid
  }

  /** The cast loses nothing: distinct pids stay distinct. */
  lemma AsU64Injective(a: i32, b: i32)
    ensures AsU64(a) == AsU64(b) <==> a == b
  {
  }

  type Positive = n: nat | n > 0 witness 1

  datatype State =
    | Spawned(text: string)     // spawned, not yet polled
    | AwaitingCount             // in the `while !response.starts_with("ok:")` loop
    | Reading(remaining: Positive)  // in the `for i in 0..count` loop, `remaining` entries to go
    | Done
    | Panicked(why: Panic)

  /** What one step did: the state after it, the messages it wrote to the
      connection, and the items it appended to the match store. */
  datatype Step = Step(next: State, writes: seq<Msg>, appended: seq<Props>)

  /** The store item for a read entry: `GMatch::from(m)` with the
      connection's pid. */
  function Tagged(m: MatchIf.Match, pid: i32): (g: Props)
    ensures GMatches.ToMatch(g) == m && GetPluginPid(g) == AsU64(pid)
  {
    GMatches.MatchRoundTrip(m);
    SetPluginPid(GMatches.FromMatch(m), AsU64(pid))
  }

  /** The first poll of a spawned session: `abort`, then the query; then it
      waits for the count. */
  function Open(text: string): (r: Step)
    ensures r.writes == [Text("abort"), Text(QueryMessage(text))]
    ensures r.next == AwaitingCount && r.appended == []
    ensures forall k :: 0 <= k < |r.writes| ==> r.writes[k].Text?
  {
    Step(AwaitingCount, [Text("abort"), Text(QueryMessage(text))], [])
  }

  /** The session state once a count is known: no entries ends the loop at
      once. */
  function ReadingFor(count: nat): (s: State)
    ensures s.Done? <==> count == 0
    ensures s.Reading? ==> s.remaining == count
  {
    if count == 0 then Done else Reading(count)
  }

  /** One read of a running session. */
  function Receive(s: State, pid: i32, rd: Read): (r: Step)
    ensures rd.Failed? && (s.AwaitingCount? || s.Reading?) ==> r == Step(Panicked(ReadFailed), [], [])
    ensures s.AwaitingCount? && rd.Got? ==>
              && r.writes == [] && r.appended == []
              && (if rd.msg.Text? && StartsWith(rd.msg.s, "ok:") then r.next == ReadingFor(ParseCount(rd.msg.s))
                  else r.next == s)
    ensures s.Reading? && rd.Got? && rd.msg.Entry? ==>
              r == Step(ReadingFor(s.remaining - 1), [Text("ok")], [Tagged(rd.msg.m, pid)])
    ensures s.Reading? && rd.Got? && rd.msg.Text? ==> r == Step(Panicked(BadEntry), [], [])
    ensures !(s.AwaitingCount? || s.Reading?) ==> r == Step(s, [], [])
  {
    match s
    case AwaitingCount =>
      (match rd
       case Failed => Step(Panicked(ReadFailed), [], [])
       case Got(msg) =>
         if msg.Text? && StartsWith(msg.s, "ok:") then Step(ReadingFor(ParseCount(msg.s)), [], [])
         else Step(s, [], []))
    case Reading(n) =>
      (match rd
       case Failed => Step(Panicked(ReadFailed), [], [])
       case Got(Entry(m)) => Step(ReadingFor(n - 1), [Text("ok")], [Tagged(m, pid)])
       case Got(Text(_)) => Step(Panicked(BadEntry), [], []))
    case _ => Step(s, [], [])
  }

  /** Sequencing two steps: the second starts where the first ended. */
  function Then(first: Step, second: Step): Step {
    Step(second.next, first.writes + second.writes, first.appended + second.appended)
  }

  /** A session fed a sequence of reads, in order. */
  function Run(s: State, pid: i32, rds: seq<Read>): (r: Step)
    ensures |r.appended| <= |rds| && |r.writes| <= |rds|
    decreases |rds|
  {
    if |rds| == 0 then Step(s, [], [])
    else
      var first := Receive(s, pid, rds[0]);
      Then(first, Run(first.next, pid, rds[1..]))
  }

  /** A finished or failed session writes and stores nothing, whatever it is
      sent. */
  lemma {:induction false} EndIsFinal(s: State, pid: i32, rds: seq<Read>)
    requires s.Done? || s.Panicked?
    ensures Run(s, pid, rds) == Step(s, [], [])
  {
    if |rds| > 0 {
      EndIsFinal(s, pid, rds[1..]);
    }
  }

  /** Waiting for the count discards every reply that does not start with
      `ok:`, entries included: no write, no store item, still waiting. */
  lemma {:induction false} CountWaitDiscards(pid: i32, rds: seq<Read>)
    requires forall k :: 0 <= k < |rds| ==> rds[k].Got? && !(rds[k].msg.Text? && StartsWith(rds[k].msg.s, "ok:"))
    ensures Run(AwaitingCount, pid, rds) == Step(AwaitingCount, [], [])
  {
    if |rds| > 0 {
      CountWaitDiscards(pid, rds[1..]);
    }
  }

  /** The reads that deliver the entries `ms`, in order. */
  function EntryReads(ms: seq<MatchIf.Match>): (rds: seq<Read>)
    ensures |rds| == |ms| && forall k :: 0 <= k < |ms| ==> rds[k] == Got(Entry(ms[k]))
  {
    seq(|ms|, k requires 0 <= k < |ms| => Got(Entry(ms[k])))
  }

  /** `n` acknowledgements. */
  function Acks(n: nat): (ws: seq<Msg>)
    ensures |ws| == n && forall k :: 0 <= k < n ==> ws[k] == Text("ok")
  {
    seq(n, _ => Text("ok"))
  }

  /** The store items for the entries `ms` read on a connection with the
      given pid. */
  function TaggedAll(ms: seq<MatchIf.Match>, pid: i32): (gs: seq<Props>)
    ensures |gs| == |ms| && forall k :: 0 <= k < |ms| ==> gs[k] == Tagged(ms[k], pid)
  {
    seq(|ms|, k requires 0 <= k < |ms| => Tagged(ms[k], pid))
  }

  /** An entry while reading: one acknowledgement, one store item, one
      fewer to go. */
  lemma EntryStep(n: Positive, pid: i32, m: MatchIf.Match)
    ensures Receive(Reading(n), pid, Got(Entry(m))) == Step(ReadingFor(n - 1), [Text("ok")], [Tagged(m, pid)])
  {
  }

  lemma AcksCons(n: nat)
    requires n > 0
    ensures Acks(n) == [Text("ok")] + Acks(n - 1)
  {
  }

  lemma TaggedAllCons(ms: seq<MatchIf.Match>, pid: i32)
    requires |ms| > 0
    ensures TaggedAll(ms, pid) == [Tagged(ms[0], pid)] + TaggedAll(ms[1..], pid)
  {
  }

  /** The entry loop: `n` entries are stored in arrival order, each tagged
      with the connection's pid and each answered by one `ok`; then the
      session is done. */
  lemma {:induction false} ReadEntries(pid: i32, ms: seq<MatchIf.Match>)
    ensures Run(ReadingFor(|ms|), pid, EntryReads(ms)) == Step(Done, Acks(|ms|), TaggedAll(ms, pid))
    decreases |ms|
  {
    var rds := EntryReads(ms);
    if |ms| > 0 {
      assert rds[1..] == EntryReads(ms[1..]);
      ReadEntries(pid, ms[1..]);
      var first := Step(ReadingFor(|ms| - 1), [Text("ok")], [Tagged(ms[0], pid)]);
      assert rds[0] == Got(Entry(ms[0]));
      EntryStep(|ms|, pid, ms[0]);
      RunCons(Reading(|ms|), pid, rds);
      var rest := Step(Done, Acks(|ms| - 1), TaggedAll(ms[1..], pid));
      assert Run(ReadingFor(|ms|), pid, rds) == Then(first, rest);
      AcksCons(|ms|);
      TaggedAllCons(ms, pid);
    }
  }

  /** A read of anything but an entry while entries are due panics: the
      session stores and writes nothing more. */
  lemma TextInsteadOfEntry(n: nat, pid: i32, s: string, rds: seq<Read>)
    requires n > 0
    ensures Run(Reading(n), pid, [Got(Text(s))] + rds) == Step(Panicked(BadEntry), [], [])
  {
    var all := [Got(Text(s))] + rds;
    assert all[1..] == rds;
    EndIsFinal(Panicked(BadEntry), pid, rds);
  }

  lemma ThenAssoc(x: Step, y: Step, z: Step)
    ensures Then(x, Then(y, z)) == Then(Then(x, y), z)
  {
    assert x.writes + (y.writes + z.writes) == (x.writes + y.writes) + z.writes;
    assert x.appended + (y.appended + z.appended) == (x.appended + y.appended) + z.appended;
  }

  lemma RunCons(s: State, pid: i32, rds: seq<Read>)
    requires |rds| > 0
    ensures Run(s, pid, rds) == Then(Receive(s, pid, rds[0]), Run(Receive(s, pid, rds[0]).next, pid, rds[1..]))
  {
  }

  /** Reading `a` then `b` is reading `a + b`. */
  lemma {:induction false} RunAppend(s: State, pid: i32, a: seq<Read>, b: seq<Read>)
    ensures Run(s, pid, a + b) == Then(Run(s, pid, a), Run(Run(s, pid, a).next, pid, b))
    decreases |a|
  {
    if |a| == 0 {
      assert a + b == b;
    } else {
      var first := Receive(s, pid, a[0]);
      assert (a + b)[0] == a[0];
      assert (a + b)[1..] == a[1..] + b;
      RunCons(s, pid, a + b);
      RunCons(s, pid, a);
      RunAppend(first.next, pid, a[1..], b);
      var tail := Run(first.next, pid, a[1..]);
      ThenAssoc(first, tail, Run(tail.next, pid, b));
    }
  }

  /** The announcement of `n` entries is read back as `n`. */
  lemma CountStep(pid: i32, n: nat)
    requires n < USIZE_LIMIT
    ensures Receive(AwaitingCount, pid, Got(Text(CountMessage(n)))) == Step(ReadingFor(n), [], [])
  {
    CountParses(n);
  }

  /** An announcement whose count does not parse as a `usize` reads as 0:
      the session ends at once, storing and acknowledging nothing, and
      ignores every later read, entries included. */
  lemma GarbledCountEndsSession(pid: i32, s: string, after: seq<Read>)
    requires StartsWith(s, "ok:") && ParseUsize(Trim(TrimStartMatches(s, "ok:"))).None?
    ensures Run(AwaitingCount, pid, [Got(Text(s))] + after) == Step(Done, [], [])
  {
    var rds := [Got(Text(s))] + after;
    assert rds[0] == Got(Text(s)) && rds[1..] == after;
    RunCons(AwaitingCount, pid, rds);
    EndIsFinal(Done, pid, after);
  }

  /** From the announcement on: the count is read back and exactly that many
      entries are stored and acknowledged; whatever follows is ignored. */
  lemma CountedSession(pid: i32, ms: seq<MatchIf.Match>, after: seq<Read>)
    requires |ms| < USIZE_LIMIT
    ensures Run(AwaitingCount, pid, [Got(Text(CountMessage(|ms|)))] + (EntryReads(ms) + after))
            == Step(Done, Acks(|ms|), TaggedAll(ms, pid))
  {
    var count := Got(Text(CountMessage(|ms|)));
    var rest := EntryReads(ms) + after;
    var rds := [count] + rest;
    assert rds[0] == count && rds[1..] == rest;
    RunCons(AwaitingCount, pid, rds);
    CountStep(pid, |ms|);
    RunAppend(ReadingFor(|ms|), pid, EntryReads(ms), after);
    ReadEntries(pid, ms);
    EndIsFinal(Done, pid, after);
    assert Acks(|ms|) + [] == Acks(|ms|);
    assert TaggedAll(ms, pid) + [] == TaggedAll(ms, pid);
  }

  /** A whole well-behaved session: after replies that are not a count, the
      plugin's announcement of `n` and `n` entries, the session is done,
      has stored exactly those entries tagged with the pid, has answered
      each with `ok`, and ignores whatever follows. */
  lemma WholeSession(pid: i32, junk: seq<Read>, ms: seq<MatchIf.Match>, after: seq<Read>)
    requires forall k :: 0 <= k < |junk| ==> junk[k].Got? && !(junk[k].msg.Text? && StartsWith(junk[k].msg.s, "ok:"))
    requires |ms| < USIZE_LIMIT
    ensures Run(AwaitingCount, pid, junk + ([Got(Text(CountMessage(|ms|)))] + (EntryReads(ms) + after)))
            == Step(Done, Acks(|ms|), TaggedAll(ms, pid))
  {
    var tail := [Got(Text(CountMessage(|ms|)))] + (EntryReads(ms) + after);
    CountWaitDiscards(pid, junk);
    RunAppend(AwaitingCount, pid, junk, tail);
    CountedSession(pid, ms, after);
    assert [] + Acks(|ms|) == Acks(|ms|);
    assert [] + TaggedAll(ms, pid) == TaggedAll(ms, pid);
  }
}

=== FILE: match_if.dfy ===
/** `match_if::Match` (unirun-interface, lib.rs): the result record of the
    string protocol. Ids come from `Uuid::new_v4`, which the model takes as
    a `freshId` parameter. */
module MatchIf {
  import opened Wrappers
  import opened Text

  datatype Match = Match(
    id: string,
    title: string,
    description: Option<string>,
    icon: Option<string>,
    usePango: bool)

  /** `Match::new`: a fresh id and the four given fields, copied. */
  function New(freshId: string, title: string, description: Option<string>, icon: Option<string>,
               usePango: bool): (m: Match)
    ensures m.id == freshId
    ensures m.title == title && m.description == description
    ensures m.icon == icon && m.usePango == usePango
  {
    Match(freshId, title, description, icon, usePango)
  }

  function GetId(m: Match): string {
    m.id
  }

  /** `Match::update_id`: installs a fresh id and returns it. */
  function UpdateId(m: Match, freshId: string): (r: (Match, string))
    ensures r.1 == freshId && GetId(r.0) == r.1
    ensures r.0.title == m.title && r.0.description == m.description
    ensures r.0.icon == m.icon && r.0.usePango == m.usePango
  {
    var m' := m.(id := freshId);
    (m', GetId(m'))
  }

  /** `Display for Match`: `(id, title)`. */
  function Display(m: Match): string {
    ShowPair(m.id, m.title)
  }

  /** Matches with ids of one length (every v4 UUID) display alike exactly
      when their ids and titles agree. */
  lemma DisplayDeterminesIdAndTitle(a: Match, b: Match)
    requires |a.id| == |b.id|
    ensures Display(a) == Display(b) <==> a.id == b.id && a.title == b.title
  {
    ShowPairInjective(a.id, a.title, b.id, b.title);
  }
}

=== FILE: package.dfy ===
/** The typed message family of the current protocol (unirun-interface,
    package.rs): `Uuid`, `Command`, `Payload`, `Package`, `Hit`, and their
    serde shape.

    The wire shape is modelled one level above JSON text, as a `Json` value
    tree: serde's externally tagged enums (a unit variant is its tag string,
    any other variant a one-field object keyed by its tag) with the payload
    flattened into the package object beside its `id`. */
module Packages {
  import opened Wrappers
  import opened Text

  /** `Uuid(String)`: any string, usually a v4 UUID's text. */
  datatype Uuid = Uuid(value: string)

  /** `From<&str> for Uuid`. */
  function UuidFrom(s: string): Uuid {
    Uuid(s)
  }

  /** `Display for Uuid`. */
  function UuidDisplay(u: Uuid): string {
    u.value
  }

  /** A `Uuid` shows as exactly the text it was made from, and conversion
      from text loses nothing. */
  lemma UuidRoundTrip(s: string, u: Uuid)
    ensures UuidDisplay(UuidFrom(s)) == s
    ensures UuidFrom(UuidDisplay(u)) == u
    ensures UuidFrom(s) == u <==> UuidDisplay(u) == s
  {
  }

  type HitId = Uuid
  type PackageId = Uuid

  datatype Command = Quit | Activate(hit: HitId) | GetData(text: string) | Abort

  /** `Result<(), String>` as carried by `Payload::Result`. */
  datatype Outcome = Ok | Err(message: string)

  datatype Hit = Hit(
    id: HitId,
    title: string,
    description: Option<string>,
    icon: Option<string>,
    usePango: bool)

  datatype Payload =
    | CommandPayload(command: Command)
    | ResultPayload(request: PackageId, outcome: Outcome)
    | HitPayload(hit: Hit)

  datatype Package = Package(id: PackageId, payload: Payload)

  /** `Package::new`: a fresh id around the given payload. */
  function NewPackage(freshId: PackageId, payload: Payload): (p: Package)
    ensures p.payload == payload && p.id == freshId
  {
    Package(freshId, payload)
  }

  /** `Package::get_id`. */
  function GetId(p: Package): PackageId {
    p.id
  }

  /** `Hit::new`: a fresh id and the four given fields, copied. */
  function NewHit(freshId: HitId, title: string, description: Option<string>, icon: Option<string>,
                  usePango: bool): (h: Hit)
    ensures h.id == freshId && h.title == title && h.description == description
    ensures h.icon == icon && h.usePango == usePango
  {
    Hit(freshId, title, description, icon, usePango)
  }

  /** `Display for Hit`: `(id, title)`. */
  function HitDisplay(h: Hit): string {
    ShowPair(UuidDisplay(h.id), h.title)
  }

  lemma HitDisplayDeterminesIdAndTitle(a: Hit, b: Hit)
    requires |a.id.value| == |b.id.value|
    ensures HitDisplay(a) == HitDisplay(b) <==> a.id == b.id && a.title == b.title
  {
    ShowPairInjective(a.id.value, a.title, b.id.value, b.title);
  }

  // ---------------------------------------------------------------------
  // serde shape

  datatype Json =
    | JNull
    | JBool(b: bool)
    | JString(s: string)
    | JArray(items: seq<Json>)
    | JObject(fields: seq<Field>)

  datatype Field = Field(key: string, value: Json)

  /** Why serde refuses a value tree: a tag that names no variant (the
      message names the tag), a flattened payload with no entry keyed by a
      variant (the message names only the enum), or any other shape, type,
      length, missing-field or duplicate-field error. */
  datatype DecodeError = UnknownVariant(tag: string) | NoVariant | Malformed

  /** `#[serde(rename = ..)]` on `Command`. */
  function CommandTag(c: Command): string {
    match c
    case Quit => "quit"
    case Activate(_) => "activate"
    case GetData(_) => "get_data"
    case Abort => "abort"
  }

  /** `#[serde(rename = ..)]` on `Payload`. */
  function PayloadTag(p: Payload): string {
    match p
    case CommandPayload(_) => "command"
    case ResultPayload(_, _) => "result"
    case HitPayload(_) => "hit"
  }

  predicate IsCommandTag(k: string) {
    k == "quit" || k == "activate" || k == "get_data" || k == "abort"
  }

  predicate IsPayloadTag(k: string) {
    k == "command" || k == "result" || k == "hit"
  }

  /** The four command tags are pairwise distinct, so the tag alone tells
      the variant. */
  lemma CommandTagsDistinct(a: Command, b: Command)
    ensures CommandTag(a) == CommandTag(b) <==>
            (a.Quit? && b.Quit?) || (a.Activate? && b.Activate?)
            || (a.GetData? && b.GetData?) || (a.Abort? && b.Abort?)
  {
  }

  lemma PayloadTagsDistinct(a: Payload, b: Payload)
    ensures PayloadTag(a) == PayloadTag(b) <==>
            (a.CommandPayload? && b.CommandPayload?) || (a.ResultPayload? && b.ResultPayload?)
            || (a.HitPayload? && b.HitPayload?)
  {
  }

  // Object entries, looked up by key as serde's derived visitors do.

  /** How many entries of an object carry `key`. */
  function KeyCount(fs: seq<Field>, key: string): nat {
    if |fs| == 0 then 0 else (if fs[0].key == key then 1 else 0) + KeyCount(fs[1..], key)
  }

  /** The value of the first entry carrying `key`. */
  function FirstValue(fs: seq<Field>, key: string): (r: Option<Json>)
    ensures r.Some? <==> KeyCount(fs, key) > 0
  {
    if |fs| == 0 then None
    else if fs[0].key == key then Some(fs[0].value)
    else FirstValue(fs[1..], key)
  }

  /** The object has exactly one entry for `key`, and it holds `v`. */
  predicate Holds(fs: seq<Field>, key: string, v: Json) {
    KeyCount(fs, key) == 1 && FirstValue(fs, key) == Some(v)
  }

  /** An `Option` field: absent means `None`; present, it occurs once and
      holds the option's encoding. */
  predicate OptionalHolds(fs: seq<Field>, key: string, o: Option<string>) {
    if KeyCount(fs, key) == 0 then o == None else Holds(fs, key, EncodeOptString(o))
  }

  /** One lookup step: the first entry, then the rest. */
  lemma LookupCons(f: Field, fs: seq<Field>, key: string)
    ensures KeyCount([f] + fs, key) == (if f.key == key then 1 else 0) + KeyCount(fs, key)
    ensures FirstValue([f] + fs, key) == if f.key == key then Some(f.value) else FirstValue(fs, key)
  {
    assert ([f] + fs)[1..] == fs;
  }

  lemma {:induction false} KeyCountAppend(u: seq<Field>, v: seq<Field>, key: string)
    ensures KeyCount(u + v, key) == KeyCount(u, key) + KeyCount(v, key)
  {
    if |u| > 0 {
      assert (u + v)[1..] == u[1..] + v;
      KeyCountAppend(u[1..], v, key);
    } else {
      assert u + v == v;
    }
  }

  lemma {:induction false} FirstValueAppend(u: seq<Field>, v: seq<Field>, key: string)
    ensures FirstValue(u + v, key) == if KeyCount(u, key) > 0 then FirstValue(u, key) else FirstValue(v, key)
  {
    if |u| > 0 {
      assert (u + v)[1..] == u[1..] + v;
      FirstValueAppend(u[1..], v, key);
    } else {
      assert u + v == v;
    }
  }

  /** Swapping two neighbouring entries changes no key's count, nor the
      value of a key that occurs at most once. */
  lemma SwapKeepsLookup(a: seq<Field>, x: Field, y: Field, b: seq<Field>, key: string)
    ensures KeyCount(a + [x, y] + b, key) == KeyCount(a + [y, x] + b, key)
    ensures KeyCount(a + [x, y] + b, key) <= 1 ==>
              FirstValue(a + [x, y] + b, key) == FirstValue(a + [y, x] + b, key)
  {
    assert a + [x, y] + b == a + ([x, y] + b);
    assert a + [y, x] + b == a + ([y, x] + b);
    KeyCountAppend(a, [x, y] + b, key);
    KeyCountAppend(a, [y, x] + b, key);
    KeyCountAppend([x, y], b, key);
    KeyCountAppend([y, x], b, key);
    FirstValueAppend(a, [x, y] + b, key);
    FirstValueAppend(a, [y, x] + b, key);
    FirstValueAppend([x, y], b, key);
    FirstValueAppend([y, x], b, key);
  }

  /** Dropping an entry with another key changes no lookup of `key`. */
  lemma DropKeepsLookup(a: seq<Field>, f: Field, b: seq<Field>, key: string)
    requires f.key != key
    ensures KeyCount(a + [f] + b, key) == KeyCount(a + b, key)
    ensures FirstValue(a + [f] + b, key) == FirstValue(a + b, key)
  {
    assert a + [f] + b == a + ([f] + b);
    KeyCountAppend(a, [f] + b, key);
    KeyCountAppend(a, b, key);
    KeyCountAppend([f], b, key);
    FirstValueAppend(a, [f] + b, key);
    FirstValueAppend(a, b, key);
    FirstValueAppend([f], b, key);
  }

  // `()` and `Option<String>`.

  /** Buffered content that serde reads as `()`: null, or an empty object. */
  predicate IsUnit(j: Json) {
    j == JNull || j == JObject([])
  }

  function EncodeOptString(o: Option<string>): Json {
    match o
    case None => JNull
    case Some(s) => JString(s)
  }

  function DecodeOptString(j: Json): (r: Result<Option<string>, DecodeError>)
    ensures r.Success? <==> j.JNull? || j.JString?
    ensures r.Success? ==> EncodeOptString(r.value) == j
    ensures r.Failure? ==> r.error == Malformed
  {
    match j
    case JNull => Success(None)
    case JString(s) => Success(Some(s))
    case _ => Failure(Malformed)
  }

  // `Command`. The payload is flattened, so serde reads a command from its
  // buffered content: a unit variant from its tag, or from a one-entry
  // object whose body reads as `()`; any other variant only from a
  // one-entry object.

  function EncodeCommand(c: Command): Json {
    match c
    case Quit => JString(CommandTag(c))
    case Abort => JString(CommandTag(c))
    case Activate(id) => JObject([Field(CommandTag(c), JString(id.value))])
    case GetData(text) => JObject([Field(CommandTag(c), JString(text))])
  }

  /** The trees serde reads as command `c`. */
  predicate CommandReads(j: Json, c: Command) {
    j == EncodeCommand(c)
    || ((c.Quit? || c.Abort?) && j.JObject? && |j.fields| == 1
        && j.fields[0].key == CommandTag(c) && IsUnit(j.fields[0].value))
  }

  function DecodeCommand(j: Json): (r: Result<Command, DecodeError>)
    ensures r.Success? ==> CommandReads(j, r.value)
    ensures j.JString? && !IsCommandTag(j.s) ==> r == Failure(UnknownVariant(j.s))
    ensures j.JObject? && |j.fields| == 1 && !IsCommandTag(j.fields[0].key) ==>
              r == Failure(UnknownVariant(j.fields[0].key))
    ensures r != Failure(NoVariant)
  {
    match j
    case JString(tag) =>
      if tag == "quit" then Success(Quit)
      else if tag == "abort" then Success(Abort)
      else if IsCommandTag(tag) then Failure(Malformed)
      else Failure(UnknownVariant(tag))
    case JObject(fields) =>
      if |fields| != 1 then Failure(Malformed)
      else
        var f := fields[0];
        assert fields == [f];
        if f.key == "quit" || f.key == "abort" then
          if !IsUnit(f.value) then Failure(Malformed)
          else if f.key == "quit" then Success(Quit)
          else Success(Abort)
        else if f.key == "activate" || f.key == "get_data" then
          if !f.value.JString? then Failure(Malformed)
          else if f.key == "activate" then Success(Activate(Uuid(f.value.s)))
          else Success(GetData(f.value.s))
        else Failure(UnknownVariant(f.key))
    case _ => Failure(Malformed)
  }

  lemma DecodeEncodeCommand(c: Command)
    ensures DecodeCommand(EncodeCommand(c)) == Success(c)
  {
  }

  /** A tree decodes to command `c` exactly when serde reads it as `c`. */
  lemma CommandCodec(j: Json, c: Command)
    ensures DecodeCommand(j) == Success(c) <==> CommandReads(j, c)
  {
    if CommandReads(j, c) && j != EncodeCommand(c) {
      assert j.fields == [Field(CommandTag(c), j.fields[0].value)];
    }
  }

  /** `{"quit": null}` and `{"abort": null}` (or with `{}` as the body) are
      read as the unit variants, like their bare tags. */
  lemma UnitCommandsAsObjects(v: Json)
    requires IsUnit(v)
    ensures DecodeCommand(JObject([Field("quit", v)])) == Success(Quit)
    ensures DecodeCommand(JObject([Field("abort", v)])) == Success(Abort)
  {
  }

  // `Result<(), String>`.

  function EncodeOutcome(o: Outcome): Json {
    match o
    case Ok => JObject([Field("Ok", JNull)])
    case Err(e) => JObject([Field("Err", JString(e))])
  }

  /** The trees serde reads as outcome `o`: both variants carry a value, so
      only the one-entry object form is read. */
  predicate OutcomeReads(j: Json, o: Outcome) {
    j == EncodeOutcome(o) || (o == Ok && j == JObject([Field("Ok", JObject([]))]))
  }

  function DecodeOutcome(j: Json): (r: Result<Outcome, DecodeError>)
    ensures r.Success? ==> OutcomeReads(j, r.value)
    ensures r != Failure(NoVariant)
  {
    match j
    case JString(tag) =>
      if tag == "Ok" || tag == "Err" then Failure(Malformed) else Failure(UnknownVariant(tag))
    case JObject(fields) =>
      if |fields| != 1 then Failure(Malformed)
      else
        var f := fields[0];
        assert fields == [f];
        if f.key == "Ok" then
          if IsUnit(f.value) then Success(Ok) else Failure(Malformed)
        else if f.key == "Err" then
          if f.value.JString? then Success(Err(f.value.s)) else Failure(Malformed)
        else Failure(UnknownVariant(f.key))
    case _ => Failure(Malformed)
  }

  lemma OutcomeCodec(j: Json, o: Outcome)
    ensures DecodeOutcome(EncodeOutcome(o)) == Success(o)
    ensures DecodeOutcome(j) == Success(o) <==> OutcomeReads(j, o)
  {
  }

  // `Hit`: a struct without `deny_unknown_fields`, read from an object by
  // key or from an array by position.

  const HIT_KEYS: seq<string> := ["id", "title", "description", "icon", "use_pango"]

  function EncodeHit(h: Hit): Json {
    JObject([Field("id", JString(h.id.value)), Field("title", JString(h.title)),
             Field("description", EncodeOptString(h.description)),
             Field("icon", EncodeOptString(h.icon)), Field("use_pango", JBool(h.usePango))])
  }

  /** The positional form: the five fields in declaration order. */
  function HitItems(h: Hit): seq<Json> {
    [JString(h.id.value), JString(h.title), EncodeOptString(h.description),
     EncodeOptString(h.icon), JBool(h.usePango)]
  }

  /** An object's entries hold hit `h`: one entry for each required field,
      at most one for each `Option` field, any other keys ignored. */
  predicate HitEntries(fs: seq<Field>, h: Hit) {
    && Holds(fs, "id", JString(h.id.value))
    && Holds(fs, "title", JString(h.title))
    && OptionalHolds(fs, "description", h.description)
    && OptionalHolds(fs, "icon", h.icon)
    && Holds(fs, "use_pango", JBool(h.usePango))
  }

  /** The trees serde reads as hit `h`. */
  predicate HitReads(j: Json, h: Hit) {
    (j.JObject? && HitEntries(j.fields, h)) || j == JArray(HitItems(h))
  }

  /** No field of `Hit` occurs twice (serde's duplicate-field error). */
  predicate HitKeysUnique(fs: seq<Field>) {
    && KeyCount(fs, "id") <= 1 && KeyCount(fs, "title") <= 1
    && KeyCount(fs, "description") <= 1 && KeyCount(fs, "icon") <= 1
    && KeyCount(fs, "use_pango") <= 1
  }

  /** An `Option` field as the derived visitor finishes it: a missing one
      is `None`. */
  function DecodeOptional(v: Option<Json>): (r: Result<Option<string>, DecodeError>)
    ensures r.Success? ==> (v == None && r.value == None) || v == Some(EncodeOptString(r.value))
    ensures r.Failure? ==> r.error == Malformed
  {
    match v
    case None => Success(None)
    case Some(j) => DecodeOptString(j)
  }

  /** The five fields collected by the derived visitor, each `None` when
      missing. */
  function DecodeHitFields(id: Option<Json>, title: Option<Json>, description: Option<Json>,
                           icon: Option<Json>, usePango: Option<Json>): (r: Result<Hit, DecodeError>)
    ensures r.Success? ==> id == Some(JString(r.value.id.value)) && title == Some(JString(r.value.title))
    ensures r.Success? ==> usePango == Some(JBool(r.value.usePango))
    ensures r.Success? ==> (description == None && r.value.description == None)
                           || description == Some(EncodeOptString(r.value.description))
    ensures r.Success? ==> (icon == None && r.value.icon == None) || icon == Some(EncodeOptString(r.value.icon))
    ensures r.Failure? ==> r.error == Malformed
  {
    if !(id.Some? && id.value.JString? && title.Some? && title.value.JString?
         && usePango.Some? && usePango.value.JBool?) then Failure(Malformed)
    else match (DecodeOptional(description), DecodeOptional(icon))
      case (Success(d), Success(i)) => Success(Hit(Uuid(id.value.s), title.value.s, d, i, usePango.value.b))
      case _ => Failure(Malformed)
  }

  function DecodeHit(j: Json): (r: Result<Hit, DecodeError>)
    ensures r.Success? ==> HitReads(j, r.value)
    ensures r.Failure? ==> r.error == Malformed
  {
    match j
    case JObject(fs) =>
      if !HitKeysUnique(fs) then Failure(Malformed)
      else
        var r := DecodeHitFields(FirstValue(fs, "id"), FirstValue(fs, "title"), FirstValue(fs, "description"),
                                 FirstValue(fs, "icon"), FirstValue(fs, "use_pango"));
        assert r.Success? ==> HitEntries(fs, r.value);
        r
    case JArray(items) =>
      if |items| != 5 then Failure(Malformed)
      else
        var r := DecodeHitFields(Some(items[0]), Some(items[1]), Some(items[2]), Some(items[3]), Some(items[4]));
        assert r.Success? ==> items == HitItems(r.value);
        r
    case _ => Failure(Malformed)
  }

  lemma HitFieldLookup(fs: seq<Field>, key: string)
    requires |fs| == 5
    ensures KeyCount(fs, key) == (if fs[0].key == key then 1 else 0) + (if fs[1].key == key then 1 else 0)
                                 + (if fs[2].key == key then 1 else 0) + (if fs[3].key == key then 1 else 0)
                                 + (if fs[4].key == key then 1 else 0)
    ensures FirstValue(fs, key) == if fs[0].key == key then Some(fs[0].value)
                                   else if fs[1].key == key then Some(fs[1].value)
                                   else if fs[2].key == key then Some(fs[2].value)
                                   else if fs[3].key == key then Some(fs[3].value)
                                   else if fs[4].key == key then Some(fs[4].value)
                                   else None
  {
    assert fs == [fs[0]] + ([fs[1]] + ([fs[2]] + ([fs[3]] + ([fs[4]] + [])))) by {
      assert fs == [fs[0], fs[1], fs[2], fs[3], fs[4]];
    }
    LookupCons(fs[4], [], key);
    LookupCons(fs[3], [fs[4]] + [], key);
    LookupCons(fs[2], [fs[3]] + ([fs[4]] + []), key);
    LookupCons(fs[1], [fs[2]] + ([fs[3]] + ([fs[4]] + [])), key);
    LookupCons(fs[0], [fs[1]] + ([fs[2]] + ([fs[3]] + ([fs[4]] + []))), key);
  }

  lemma DecodeEncodeHit(h: Hit)
    ensures DecodeHit(EncodeHit(h)) == Success(h)
  {
    var fs := EncodeHit(h).fields;
    HitFieldLookup(fs, "id");
    HitFieldLookup(fs, "title");
    HitFieldLookup(fs, "description");
    HitFieldLookup(fs, "icon");
    HitFieldLookup(fs, "use_pango");
    assert HitEntries(fs, h);
    HitCodec(EncodeHit(h), h);
  }

  /** A tree decodes to hit `h` exactly when serde reads it as `h`. */
  lemma HitCodec(j: Json, h: Hit)
    ensures DecodeHit(j) == Success(h) <==> HitReads(j, h)
  {
    if j.JObject? && HitEntries(j.fields, h) {
      var fs := j.fields;
      assert HitKeysUnique(fs);
      assert DecodeOptional(FirstValue(fs, "description")) == Success(h.description);
      assert DecodeOptional(FirstValue(fs, "icon")) == Success(h.icon);
    }
  }

  /** The order of a hit's keys does not matter: swapping two neighbouring
      entries decodes the same. */
  lemma HitKeyOrderFree(a: seq<Field>, x: Field, y: Field, b: seq<Field>)
    ensures DecodeHit(JObject(a + [x, y] + b)) == DecodeHit(JObject(a + [y, x] + b))
  {
    SwapKeepsLookup(a, x, y, b, "id");
    SwapKeepsLookup(a, x, y, b, "title");
    SwapKeepsLookup(a, x, y, b, "description");
    SwapKeepsLookup(a, x, y, b, "icon");
    SwapKeepsLookup(a, x, y, b, "use_pango");
  }

  /** Keys that are not fields of `Hit` are ignored. */
  lemma HitUnknownKeysIgnored(a: seq<Field>, f: Field, b: seq<Field>)
    requires f.key !in HIT_KEYS
    ensures DecodeHit(JObject(a + [f] + b)) == DecodeHit(JObject(a + b))
  {
    DropKeepsLookup(a, f, b, "id");
    DropKeepsLookup(a, f, b, "title");
    DropKeepsLookup(a, f, b, "description");
    DropKeepsLookup(a, f, b, "icon");
    DropKeepsLookup(a, f, b, "use_pango");
  }

  /** `description` and `icon` may be left out; they read as `None`. */
  lemma HitOptionalsMayBeMissing(id: string, title: string, usePango: bool)
    ensures DecodeHit(JObject([Field("id", JString(id)), Field("title", JString(title)),
                               Field("use_pango", JBool(usePango))]))
            == Success(Hit(Uuid(id), title, None, None, usePango))
  {
    var h := Hit(Uuid(id), title, None, None, usePango);
    var fs := [Field("id", JString(id)), Field("title", JString(title)), Field("use_pango", JBool(usePango))];
    assert fs == [fs[0]] + ([fs[1]] + ([fs[2]] + []));
    forall key | key in HIT_KEYS
      ensures KeyCount(fs, key) == (if key in ["id", "title", "use_pango"] then 1 else 0)
      ensures FirstValue(fs, key) == if key == "id" then Some(JString(id)) else if key == "title" then Some(JString(title))
                                     else if key == "use_pango" then Some(JBool(usePango)) else None
    {
      LookupCons(fs[2], [], key);
      LookupCons(fs[1], [fs[2]] + [], key);
      LookupCons(fs[0], [fs[1]] + ([fs[2]] + []), key);
    }
    assert HitEntries(fs, h);
    HitCodec(JObject(fs), h);
  }

  // `Payload`, flattened into the package object beside its `id`.

  /** The payload's single map entry. */
  function EncodePayload(p: Payload): Field {
    match p
    case CommandPayload(c) => Field(PayloadTag(p), EncodeCommand(c))
    case ResultPayload(id, o) => Field(PayloadTag(p), JArray([JString(id.value), EncodeOutcome(o)]))
    case HitPayload(h) => Field(PayloadTag(p), EncodeHit(h))
  }

  /** The trees serde reads as the tuple `(request, outcome)`. */
  predicate ResultReads(j: Json, request: PackageId, outcome: Outcome) {
    j.JArray? && |j.items| == 2 && j.items[0] == JString(request.value) && OutcomeReads(j.items[1], outcome)
  }

  /** The entries serde reads as payload `p`: keyed by its tag, with a body
      read as its content. */
  predicate PayloadReads(f: Field, p: Payload) {
    && f.key == PayloadTag(p)
    && match p
       case CommandPayload(c) => CommandReads(f.value, c)
       case ResultPayload(id, o) => ResultReads(f.value, id, o)
       case HitPayload(h) => HitReads(f.value, h)
  }

  /** `(PackageId, Result<(), String>)` from buffered content: an array
      read element by element, its length checked last. */
  function DecodeResultBody(j: Json): (r: Result<Payload, DecodeError>)
    ensures r.Success? ==> r.value.ResultPayload? && ResultReads(j, r.value.request, r.value.outcome)
    ensures r != Failure(NoVariant)
  {
    if !j.JArray? || |j.items| == 0 || !j.items[0].JString? || |j.items| == 1 then Failure(Malformed)
    else match DecodeOutcome(j.items[1])
      case Failure(e) => Failure(e)
      case Success(o) => if |j.items| > 2 then Failure(Malformed) else Success(ResultPayload(Uuid(j.items[0].s), o))
  }

  /** The body of one entry, read as the variant its key names. */
  function DecodeVariant(f: Field): (r: Result<Payload, DecodeError>)
    ensures r.Success? ==> PayloadReads(f, r.value)
    ensures r == Failure(NoVariant) <==> !IsPayloadTag(f.key)
  {
    if f.key == "command" then
      match DecodeCommand(f.value)
      case Success(c) => Success(CommandPayload(c))
      case Failure(e) => Failure(e)
    else if f.key == "result" then DecodeResultBody(f.value)
    else if f.key == "hit" then
      match DecodeHit(f.value)
      case Success(h) => Success(HitPayload(h))
      case Failure(e) => Failure(e)
    else Failure(NoVariant)
  }

  /** The first entry whose key names a payload variant: the one serde's
      flattened enum takes. */
  function FirstTagged(fs: seq<Field>): (r: Option<Field>)
    ensures r.Some? ==> IsPayloadTag(r.value.key) && r.value in fs
    ensures r.None? <==> forall i :: 0 <= i < |fs| ==> !IsPayloadTag(fs[i].key)
  {
    if |fs| == 0 then None
    else if IsPayloadTag(fs[0].key) then Some(fs[0])
    else
      var r := FirstTagged(fs[1..]);
      assert forall i :: 1 <= i < |fs| ==> fs[i] == fs[1..][i - 1];
      r
  }

  lemma {:induction false} FirstTaggedAppend(u: seq<Field>, v: seq<Field>)
    ensures FirstTagged(u + v) == if FirstTagged(u).Some? then FirstTagged(u) else FirstTagged(v)
  {
    if |u| > 0 {
      assert (u + v)[1..] == u[1..] + v;
      FirstTaggedAppend(u[1..], v);
    } else {
      assert u + v == v;
    }
  }

  /** The payload of a package's entries: the first entry keyed by a
      payload tag, read as that variant; the rest are ignored. */
  function DecodePayload(fs: seq<Field>): (r: Result<Payload, DecodeError>)
    ensures r.Success? ==> FirstTagged(fs).Some? && PayloadReads(FirstTagged(fs).value, r.value)
    ensures r == Failure(NoVariant) <==> forall i :: 0 <= i < |fs| ==> !IsPayloadTag(fs[i].key)
  {
    match FirstTagged(fs)
    case None => Failure(NoVariant)
    case Some(f) => DecodeVariant(f)
  }

  /** Every payload is read back from its single entry. */
  lemma DecodeEncodePayload(p: Payload)
    ensures DecodePayload([EncodePayload(p)]) == Success(p)
  {
    assert FirstTagged([EncodePayload(p)]) == Some(EncodePayload(p));
    match p
    case CommandPayload(c) => DecodeEncodeCommand(c);
    case ResultPayload(id, o) => OutcomeCodec(EncodeOutcome(o), o);
    case HitPayload(h) => DecodeEncodeHit(h);
  }

  /** An entry keyed by a payload tag decodes to `p` exactly when serde
      reads it as `p`. */
  lemma VariantCodec(f: Field, p: Payload)
    ensures DecodeVariant(f) == Success(p) <==> PayloadReads(f, p)
  {
    if PayloadReads(f, p) {
      match p
      case CommandPayload(c) => CommandCodec(f.value, c);
      case ResultPayload(id, o) => OutcomeCodec(f.value.items[1], o);
      case HitPayload(h) => HitCodec(f.value, h);
    }
  }

  // `Package`.

  /** `Serialize for Package`: `{"id": .., <tag>: ..}`. */
  function EncodePackage(p: Package): Json {
    JObject([Field("id", JString(p.id.value)), EncodePayload(p.payload)])
  }

  /** The trees serde reads as package `p`: an object with one `id` entry
      holding p's id, whose first entry keyed by a payload tag reads as p's
      payload; other entries, and the order of all of them, do not matter. */
  predicate PackageReads(j: Json, p: Package) {
    && j.JObject?
    && Holds(j.fields, "id", JString(p.id.value))
    && FirstTagged(j.fields).Some?
    && PayloadReads(FirstTagged(j.fields).value, p.payload)
  }

  /** The derived visitor reads `id` as it meets it; the other entries are
      buffered, and the payload is read from them once the object ends. */
  function DecodePackage(j: Json): (r: Result<Package, DecodeError>)
    ensures r.Success? ==> PackageReads(j, r.value)
    ensures j.JObject? && KeyCount(j.fields, "id") != 1 ==> r == Failure(Malformed)
  {
    if !j.JObject? || KeyCount(j.fields, "id") != 1 then Failure(Malformed)
    else
      match FirstValue(j.fields, "id")
      case Some(JString(id)) =>
        (match DecodePayload(j.fields)
         case Success(p) => Success(Package(Uuid(id), p))
         case Failure(e) => Failure(e))
      case _ => Failure(Malformed)
  }

  /** Every package survives the round trip, and a tree decodes to `p`
      exactly when serde reads it as `p`. */
  lemma PackageCodec(p: Package, j: Json)
    ensures DecodePackage(EncodePackage(p)) == Success(p)
    ensures DecodePackage(j) == Success(p) <==> PackageReads(j, p)
  {
    var e := EncodePackage(p);
    assert e.fields == [e.fields[0]] + ([e.fields[1]] + []);
    LookupCons(e.fields[1], [], "id");
    LookupCons(e.fields[0], [e.fields[1]] + [], "id");
    assert FirstTagged(e.fields) == Some(EncodePayload(p.payload)) by {
      assert !IsPayloadTag(e.fields[0].key);
      assert e.fields[1..] == [EncodePayload(p.payload)];
    }
    DecodeEncodePayload(p.payload);
    if PackageReads(j, p) {
      VariantCodec(FirstTagged(j.fields).value, p.payload);
    }
  }

  /** Two neighbouring entries that are not both payload tags may change
      places without changing which entry the flattened payload takes. */
  lemma FirstTaggedSwap(a: seq<Field>, x: Field, y: Field, b: seq<Field>)
    requires !(IsPayloadTag(x.key) && IsPayloadTag(y.key))
    ensures FirstTagged(a + [x, y] + b) == FirstTagged(a + [y, x] + b)
  {
    assert a + [x, y] + b == a + ([x] + ([y] + b));
    assert a + [y, x] + b == a + ([y] + ([x] + b));
    FirstTaggedAppend(a, [x] + ([y] + b));
    FirstTaggedAppend(a, [y] + ([x] + b));
    FirstTaggedAppend([x], [y] + b);
    FirstTaggedAppend([y], [x] + b);
    FirstTaggedAppend([x], b);
    FirstTaggedAppend([y], b);
  }

  /** An entry not keyed by a payload tag never changes which entry the
      flattened payload takes. */
  lemma FirstTaggedDrop(a: seq<Field>, f: Field, b: seq<Field>)
    requires !IsPayloadTag(f.key)
    ensures FirstTagged(a + [f] + b) == FirstTagged(a + b)
  {
    assert a + [f] + b == a + ([f] + b);
    FirstTaggedAppend(a, [f] + b);
    FirstTaggedAppend([f], b);
    FirstTaggedAppend(a, b);
  }

  /** The order of a package's entries does not matter, short of two
      payload tags changing places: `id` may come after the payload. */
  lemma PackageKeyOrderFree(a: seq<Field>, x: Field, y: Field, b: seq<Field>)
    requires !(IsPayloadTag(x.key) && IsPayloadTag(y.key))
    ensures DecodePackage(JObject(a + [x, y] + b)) == DecodePackage(JObject(a + [y, x] + b))
  {
    SwapKeepsLookup(a, x, y, b, "id");
    FirstTaggedSwap(a, x, y, b);
    assert DecodePayload(a + [x, y] + b) == DecodePayload(a + [y, x] + b);
  }

  /** Entries keyed neither `id` nor by a payload tag are ignored. */
  lemma PackageUnknownKeysIgnored(a: seq<Field>, f: Field, b: seq<Field>)
    requires f.key != "id" && !IsPayloadTag(f.key)
    ensures DecodePackage(JObject(a + [f] + b)) == DecodePackage(JObject(a + b))
  {
    DropKeepsLookup(a, f, b, "id");
    FirstTaggedDrop(a, f, b);
    assert DecodePayload(a + [f] + b) == DecodePayload(a + b);
  }

  /** A package with no entry keyed by a payload tag is refused with the
      flattened enum's error, which names no key. */
  lemma UnknownPayloadTagRefused(id: string, tag: string, v: Json)
    requires tag != "id" && !IsPayloadTag(tag)
    ensures DecodePackage(JObject([Field("id", JString(id)), Field(tag, v)])) == Failure(NoVariant)
  {
    var fs := [Field("id", JString(id)), Field(tag, v)];
    assert fs == [fs[0]] + ([fs[1]] + []);
    LookupCons(fs[1], [], "id");
    LookupCons(fs[0], [fs[1]] + [], "id");
    assert KeyCount(fs, "id") == 1;
    assert FirstTagged(fs) == None;
  }
}

=== FILE: session.dfy ===
/** One query session of the current coordinator (unirun/src/utils.rs,
    the task body `on_entry_changed` spawns per connection): write `Abort`
    and `GetData(text)`, wait for the plugin's id-matched acknowledgement,
    then store every streamed `Hit` and acknowledge it, until the plugin
    sends `Abort`.

    Reads are the session's inputs: each `Delivery` is what one
    `read_future().await` returned, paired with the fresh id
    `Package::new` would give the session's reply to it. */
module Session {
  import opened Wrappers
  import opened Packages
  import opened GObjects
  import GHits

  datatype Incoming = Received(pkg: Package) | ReadError

  datatype Delivery = Delivery(msg: Incoming, replyId: PackageId)

  datatype State =
    | Spawned(text: string)        // spawned, not yet polled
    | AwaitingAck(request: PackageId)
    | Streaming
    | Finished                     // the plugin's `Abort` ended the stream
    | Panicked(why: Panic)

  /** What one step did: the state after it, the packages it wrote to the
      connection, and the items it appended to the hit store. */
  datatype Step = Step(next: State, writes: seq<Package>, appended: seq<Props>)

  /** The store item for a streamed hit: `GHit::from(h)` with the plugin pid
      of the connection it arrived on. */
  function Tagged(h: Hit, pid: u64): (g: Props)
    ensures GHits.ToHit(g) == h && GetPluginPid(g) == pid
  {
    GHits.HitRoundTrip(h);
    SetPluginPid(GHits.FromHit(h), pid)
  }

  /** The acknowledgement of one received package. */
  function AckOf(pkg: Package, replyId: PackageId): Package {
    Package(replyId, ResultPayload(pkg.id, Ok))
  }

  /** Whether a received package is the acknowledgement the session waits
      for: a successful result naming the request. */
  predicate IsAckFor(msg: Incoming, request: PackageId) {
    msg.Received? && msg.pkg.payload == ResultPayload(request, Ok)
  }

  /** The first poll of a spawned session: `Abort`, then the query, and from
      then on the session waits for the query's own id. */
  function Open(text: string, abortId: PackageId, requestId: PackageId): (r: Step)
    ensures |r.writes| == 2 && r.appended == []
    ensures r.writes[0].payload == CommandPayload(Abort)
    ensures r.writes[1].payload == CommandPayload(GetData(text))
    ensures r.next == AwaitingAck(Packages.GetId(r.writes[1]))
  {
    var request := NewPackage(requestId, CommandPayload(GetData(text)));
    Step(AwaitingAck(Packages.GetId(request)), [NewPackage(abortId, CommandPayload(Abort)), request], [])
  }

  /** One read of a running session. */
  function Receive(s: State, pid: u64, d: Delivery): (r: Step)
    ensures s.AwaitingAck? ==> r.writes == [] && r.appended == []
    ensures s.AwaitingAck? && IsAckFor(d.msg, s.request) ==> r.next == Streaming
    ensures s.AwaitingAck? && d.msg.Received? && !IsAckFor(d.msg, s.request) ==> r.next == s
    ensures s.Streaming? && d.msg.Received? && d.msg.pkg.payload.HitPayload? ==>
              r == Step(Streaming, [AckOf(d.msg.pkg, d.replyId)], [Tagged(d.msg.pkg.payload.hit, pid)])
    ensures s.Streaming? && d.msg.Received? && d.msg.pkg.payload == CommandPayload(Abort) ==>
              r == Step(Finished, [], [])
    ensures s.Streaming? && d.msg.Received? && !d.msg.pkg.payload.HitPayload? && d.msg.pkg.payload != CommandPayload(Abort) ==>
              r == Step(Panicked(Unexpected), [], [])
    ensures d.msg.ReadError? && (s.AwaitingAck? || s.Streaming?) ==> r == Step(Panicked(ReadFailed), [], [])
    ensures !(s.AwaitingAck? || s.Streaming?) ==> r == Step(s, [], [])
  {
    match s
    case AwaitingAck(request) =>
      (match d.msg
       case ReadError => Step(Panicked(ReadFailed), [], [])
       case Received(p) =>
         if p.payload == ResultPayload(request, Ok) then Step(Streaming, [], []) else Step(s, [], []))
    case Streaming =>
      (match d.msg
       case ReadError => Step(Panicked(ReadFailed), [], [])
       case Received(p) =>
         (match p.payload
          case HitPayload(h) => Step(Streaming, [AckOf(p, d.replyId)], [Tagged(h, pid)])
          case CommandPayload(Abort) => Step(Finished, [], [])
          case _ => Step(Panicked(Unexpected), [], [])))
    case _ => Step(s, [], [])
  }

  /** Sequencing two steps: the second starts where the first ended. */
  function Then(first: Step, second: Step): Step {
    Step(second.next, first.writes + second.writes, first.appended + second.appended)
  }

  /** A session fed a sequence of reads, in order. */
  function Run(s: State, pid: u64, ds: seq<Delivery>): (r: Step)
    ensures |r.appended| <= |ds| && |r.writes| <= |ds|
    ensures (s.Finished? || s.Panicked?) ==> r.next == s
    decreases |ds|
  {
    if |ds| == 0 then Step(s, [], [])
    else
      var first := Receive(s, pid, ds[0]);
      Then(first, Run(first.next, pid, ds[1..]))
  }

  /** A finished or failed session takes no further part: it writes and
      stores nothing whatever it is sent. */
  lemma {:induction false} EndIsFinal(s: State, pid: u64, ds: seq<Delivery>)
    requires s.Finished? || s.Panicked?
    ensures Run(s, pid, ds) == Step(s, [], [])
  {
    if |ds| > 0 {
      EndIsFinal(s, pid, ds[1..]);
    }
  }

  /** Waiting for the acknowledgement discards every received package that
      is not it: no write, no store item, still waiting. */
  lemma {:induction false} AckWaitDiscards(request: PackageId, pid: u64, ds: seq<Delivery>)
    requires forall k :: 0 <= k < |ds| ==> ds[k].msg.Received? && !IsAckFor(ds[k].msg, request)
    ensures Run(AwaitingAck(request), pid, ds) == Step(AwaitingAck(request), [], [])
  {
    if |ds| > 0 {
      AckWaitDiscards(request, pid, ds[1..]);
    }
  }

  /** The stream stage: hits are stored in arrival order, each tagged with
      the connection's pid, and each is answered by exactly one
      acknowledgement naming that hit's package. */
  lemma {:induction false} StreamHits(pid: u64, ds: seq<Delivery>)
    requires forall k :: 0 <= k < |ds| ==> ds[k].msg.Received? && ds[k].msg.pkg.payload.HitPayload?
    ensures var r := Run(Streaming, pid, ds);
            && r.next == Streaming
            && |r.appended| == |ds| == |r.writes|
            && (forall k :: 0 <= k < |ds| ==> r.appended[k] == Tagged(ds[k].msg.pkg.payload.hit, pid))
            && (forall k :: 0 <= k < |ds| ==> r.writes[k] == AckOf(ds[k].msg.pkg, ds[k].replyId))
  {
    if |ds| > 0 {
      StreamHits(pid, ds[1..]);
      var r := Run(Streaming, pid, ds);
      var rest := Run(Streaming, pid, ds[1..]);
      assert r.appended == [Tagged(ds[0].msg.pkg.payload.hit, pid)] + rest.appended;
      assert r.writes == [AckOf(ds[0].msg.pkg, ds[0].replyId)] + rest.writes;
    }
  }

  lemma ThenAssoc(x: Step, y: Step, z: Step)
    ensures Then(x, Then(y, z)) == Then(Then(x, y), z)
  {
    assert x.writes + (y.writes + z.writes) == (x.writes + y.writes) + z.writes;
    assert x.appended + (y.appended + z.appended) == (x.appended + y.appended) + z.appended;
  }

  /** A step that writes and stores nothing leaves what follows as it is. */
  lemma Silent(s: State, r: Step)
    ensures Then(Step(s, [], []), r) == r
  {
    assert [] + r.writes == r.writes;
    assert [] + r.appended == r.appended;
  }

  lemma RunCons(s: State, pid: u64, ds: seq<Delivery>)
    requires |ds| > 0
    ensures Run(s, pid, ds) == Then(Receive(s, pid, ds[0]), Run(Receive(s, pid, ds[0]).next, pid, ds[1..]))
  {
  }

  /** Reading `a` then `b` is reading `a + b`. */
  lemma {:induction false} RunAppend(s: State, pid: u64, a: seq<Delivery>, b: seq<Delivery>)
    ensures Run(s, pid, a + b) == Then(Run(s, pid, a), Run(Run(s, pid, a).next, pid, b))
    decreases |a|
  {
    if |a| == 0 {
      assert a + b == b;
    } else {
      var first := Receive(s, pid, a[0]);
      assert (a + b)[0] == a[0];
      assert (a + b)[1..] == a[1..] + b;
      RunCons(s, pid, a + b);
      RunCons(s, pid, a);
      RunAppend(first.next, pid, a[1..], b);
      var tail := Run(first.next, pid, a[1..]);
      ThenAssoc(first, tail, Run(tail.next, pid, b));
    }
  }

  /** A whole well-behaved session: after junk that does not acknowledge
      the query, the acknowledgement, a run of hits and the plugin's `Abort`,
      the session has written `Abort`, the query and one acknowledgement per
      hit, has stored exactly the hits, and ignores whatever follows. */
  lemma WholeSession(text: string, pid: u64, abortId: PackageId, requestId: PackageId,
                     junk: seq<Delivery>, ack: Delivery, hits: seq<Delivery>, end: Delivery,
                     after: seq<Delivery>)
    requires forall k :: 0 <= k < |junk| ==> junk[k].msg.Received? && !IsAckFor(junk[k].msg, requestId)
    requires IsAckFor(ack.msg, requestId)
    requires forall k :: 0 <= k < |hits| ==> hits[k].msg.Received? && hits[k].msg.pkg.payload.HitPayload?
    requires end.msg.Received? && end.msg.pkg.payload == CommandPayload(Abort)
    ensures var o := Open(text, abortId, requestId);
            var r := Run(o.next, pid, junk + [ack] + hits + [end] + after);
            && r.next == Finished
            && |r.writes| == |hits| && |r.appended| == |hits|
            && (forall k :: 0 <= k < |hits| ==> r.appended[k] == Tagged(hits[k].msg.pkg.payload.hit, pid))
            && (forall k :: 0 <= k < |hits| ==> r.writes[k] == AckOf(hits[k].msg.pkg, hits[k].replyId))
  {
    var o := Open(text, abortId, requestId);
    var waiting := AwaitingAck(requestId);
    assert o.next == waiting;
    var tail3 := [end] + after;
    var tail2 := hits + tail3;
    var tail1 := [ack] + tail2;
    assert junk + [ack] + hits + [end] + after == junk + tail1;
    RunAppend(waiting, pid, junk, tail1);
    AckWaitDiscards(requestId, pid, junk);
    Silent(waiting, Run(waiting, pid, tail1));
    RunCons(waiting, pid, tail1);
    assert tail1[0] == ack && tail1[1..] == tail2;
    Silent(Streaming, Run(Streaming, pid, tail2));
    RunAppend(Streaming, pid, hits, tail3);
    StreamHits(pid, hits);
    RunCons(Streaming, pid, tail3);
    assert tail3[0] == end && tail3[1..] == after;
    EndIsFinal(Finished, pid, after);
    Silent(Finished, Step(Finished, [], []));
    var streamed := Run(Streaming, pid, hits);
    assert streamed.writes + [] == streamed.writes;
    assert streamed.appended + [] == streamed.appended;
  }
}

=== FILE: text.dfy ===
/** The `str` operations the protocol leans on, with Rust's semantics:
    `starts_with`, `trim_start_matches`, `trim_matches(char)`, `trim`
    (Unicode White_Space, as `char::is_whitespace`), `usize`'s `Display`
    and `usize::from_str`. */
module Text {
  import opened Wrappers

  /** `usize` on the 64-bit targets the launcher is built for. */
  const USIZE_LIMIT: int := 0x1_0000_0000_0000_0000

  predicate StartsWith(s: string, prefix: string) {
    |prefix| <= |s| && s[..|prefix|] == prefix
  }

  /** `char::is_whitespace`: the characters with the White_Space property. */
  predicate IsWhitespace(c: char) {
    || ('\t' <= c <= '\r')
    || c == ' ' || c == '\U{0085}' || c == '\U{00A0}' || c == '\U{1680}'
    || ('\U{2000}' <= c <= '\U{200A}')
    || c == '\U{2028}' || c == '\U{2029}' || c == '\U{202F}' || c == '\U{205F}'
    || c == '\U{3000}'
  }

  /** `str::trim_start_matches(pat)`: strips `pat` from the front as many
      times as it occurs there. An empty pattern strips nothing. */
  function TrimStartMatches(s: string, pat: string): (r: string)
    ensures |pat| > 0 ==> !StartsWith(r, pat)
    ensures |pat| == 0 || !StartsWith(s, pat) ==> r == s
    ensures |r| <= |s| && r == s[|s| - |r|..]
    decreases |s|
  {
    if |pat| > 0 && StartsWith(s, pat) then TrimStartMatches(s[|pat|..], pat) else s
  }

  /** `k` copies of `pat`, one after another. */
  function Repeat(pat: string, k: nat): string {
    if k == 0 then [] else pat + Repeat(pat, k - 1)
  }

  lemma ConcatAssoc(a: string, b: string, c: string)
    ensures a + (b + c) == (a + b) + c
  {
  }

  /** A string that starts with `prefix` is `prefix` followed by the rest. */
  lemma PrefixSplit(s: string, prefix: string)
    requires StartsWith(s, prefix)
    ensures s == prefix + s[|prefix|..]
  {
    assert s == s[..|prefix|] + s[|prefix|..];
  }

  /** One stripped copy: if the rest after a leading `pat` is `k` copies
      followed by its trim, `s` is `k + 1` copies followed by its own. */
  lemma TrimStartMatchesStep(s: string, pat: string, k: nat)
    requires |pat| > 0 && StartsWith(s, pat)
    requires s[|pat|..] == Repeat(pat, k) + TrimStartMatches(s[|pat|..], pat)
    ensures s == Repeat(pat, k + 1) + TrimStartMatches(s, pat)
  {
    var before := Repeat(pat, k);
    var t := TrimStartMatches(s[|pat|..], pat);
    assert Repeat(pat, k + 1) == pat + before;
    assert TrimStartMatches(s, pat) == t;
    PrefixSplit(s, pat);
    ConcatAssoc(pat, before, t);
  }

  /** What `trim_start_matches` takes away is exactly some number of whole
      copies of the pattern at the front. */
  lemma {:induction false} TrimStartMatchesSplits(s: string, pat: string) returns (k: nat)
    ensures s == Repeat(pat, k) + TrimStartMatches(s, pat)
    decreases |s|
  {
    if |pat| > 0 && StartsWith(s, pat) {
      var k' := TrimStartMatchesSplits(s[|pat|..], pat);
      TrimStartMatchesStep(s, pat, k');
      k := k' + 1;
    } else {
      k := 0;
      assert Repeat(pat, 0) + s == s;
    }
  }

  function TrimStartBy(s: string, strip: char -> bool): (r: string)
    ensures |r| <= |s| && r == s[|s| - |r|..]
    ensures |r| > 0 ==> !strip(r[0])
    ensures forall k :: 0 <= k < |s| - |r| ==> strip(s[k])
    decreases |s|
  {
    if |s| > 0 && strip(s[0]) then TrimStartBy(s[1..], strip) else s
  }

  function TrimEndBy(s: string, strip: char -> bool): (r: string)
    ensures |r| <= |s| && r == s[..|r|]
    ensures |r| > 0 ==> !strip(r[|r| - 1])
    ensures forall k :: |r| <= k < |s| ==> strip(s[k])
    decreases |s|
  {
    if |s| > 0 && strip(s[|s| - 1]) then TrimEndBy(s[..|s| - 1], strip) else s
  }

  /** `str::trim`. */
  function Trim(s: string): (r: string)
    ensures |r| <= |s|
    ensures |r| > 0 ==> !IsWhitespace(r[0]) && !IsWhitespace(r[|r| - 1])
  {
    TrimEndBy(TrimStartBy(s, IsWhitespace), IsWhitespace)
  }

  predicate IsNul(c: char) {
    c == '\0'
  }

  /** `str::trim_matches(char::from(0))`. */
  function TrimNul(s: string): (r: string)
    ensures |r| <= |s|
    ensures |r| > 0 ==> !IsNul(r[0]) && !IsNul(r[|r| - 1])
  {
    TrimEndBy(TrimStartBy(s, IsNul), IsNul)
  }

  /** Trimming by `strip` at both ends takes away exactly a run of
      stripped characters at each end. */
  lemma TrimBySplits(s: string, strip: char -> bool) returns (i: nat, j: nat)
    ensures i <= j <= |s| && TrimEndBy(TrimStartBy(s, strip), strip) == s[i..j]
    ensures forall k :: 0 <= k < i ==> strip(s[k])
    ensures forall k :: j <= k < |s| ==> strip(s[k])
  {
    var t := TrimStartBy(s, strip);
    var r := TrimEndBy(t, strip);
    i := |s| - |t|;
    j := i + |r|;
    assert t == s[i..];
    assert r == t[..|r|];
    assert r == s[i..j];
    forall k | 0 <= k < i ensures strip(s[k]) {
      assert k < |s| - |t|;
    }
    forall k | j <= k < |s| ensures strip(s[k]) {
      assert s[k] == t[k - i];
      assert |r| <= k - i < |t|;
    }
  }

  /** What trimming takes away is exactly a run of whitespace at each end:
      `s` is `r` with such runs put back around it. */
  lemma TrimSplits(s: string) returns (i: nat, j: nat)
    ensures i <= j <= |s| && Trim(s) == s[i..j]
    ensures forall k :: 0 <= k < i ==> IsWhitespace(s[k])
    ensures forall k :: j <= k < |s| ==> IsWhitespace(s[k])
  {
    i, j := TrimBySplits(s, IsWhitespace);
  }

  /** What the NUL trim takes away is exactly a run of NULs at each end. */
  lemma TrimNulSplits(s: string) returns (i: nat, j: nat)
    ensures i <= j <= |s| && TrimNul(s) == s[i..j]
    ensures forall k :: 0 <= k < i ==> s[k] == '\0'
    ensures forall k :: j <= k < |s| ==> s[k] == '\0'
  {
    i, j := TrimBySplits(s, IsNul);
  }

  /** A string that neither starts nor ends with whitespace is its own trim. */
  lemma TrimNoop(s: string)
    requires |s| > 0 ==> !IsWhitespace(s[0]) && !IsWhitespace(s[|s| - 1])
    ensures Trim(s) == s
  {
  }

  lemma TrimIdempotent(s: string)
    ensures Trim(Trim(s)) == Trim(s)
  {
    TrimNoop(Trim(s));
  }

  /** Only whitespace disappears under `trim`: a string made of characters
      that are not whitespace is never shortened. */
  lemma TrimKeepsContent(s: string)
    requires forall k :: 0 <= k < |s| ==> !IsWhitespace(s[k])
    ensures Trim(s) == s
  {
  }

  function Digit(d: nat): (c: char)
    requires d < 10
    ensures IsDigit(c)
  {
    (d + '0' as int) as char
  }

  predicate IsDigit(c: char) {
    '0' as int <= c as int <= '9' as int
  }

  /** The value of a run of decimal digits. */
  function DigitsValue(s: string): nat
    requires AllDigits(s)
  {
    if |s| == 0 then 0
    else
      var last := s[|s| - 1];
      assert IsDigit(last);
      DigitsValue(s[..|s| - 1]) * 10 + (last as int - '0' as int)
  }

  /** `usize`'s `Display`: decimal, no sign, no leading zeros. */
  function Decimal(n: nat): (s: string)
    ensures |s| > 0 && AllDigits(s)
    ensures |s| > 1 ==> s[0] != '0'
  {
    if n < 10 then [Digit(n)] else Decimal(n / 10) + [Digit(n % 10)]
  }

  lemma {:induction false} DecimalValue(n: nat)
    ensures DigitsValue(Decimal(n)) == n
  {
    if n >= 10 {
      var s := Decimal(n);
      assert s[..|s| - 1] == Decimal(n / 10);
      DecimalValue(n / 10);
    }
  }

  predicate AllDigits(s: string) {
    forall k :: 0 <= k < |s| ==> IsDigit(s[k])
  }

  /** `usize::from_str`: an optional `+`, then one or more ASCII digits, the
      value below 2^64. A `-` is an invalid digit for an unsigned type. */
  function ParseUsize(s: string): (r: Option<nat>)
    ensures r.Some? ==> r.value < USIZE_LIMIT
  {
    var digits := if |s| > 0 && s[0] == '+' then s[1..] else s;
    if |digits| == 0 || !AllDigits(digits) then None
    else if DigitsValue(digits) >= USIZE_LIMIT then None
    else Some(DigitsValue(digits))
  }

  /** `usize::from_str` reads back what `Display` wrote. */
  lemma ParseDecimal(n: nat)
    requires n < USIZE_LIMIT
    ensures ParseUsize(Decimal(n)) == Some(n)
  {
    DecimalValue(n);
  }

  /** The parse fails on every string holding a character other than a
      digit after the optional sign, and on the empty string. */
  lemma ParseRejectsNonDigits(s: string, k: nat)
    requires 0 < k < |s| && !IsDigit(s[k])
    ensures ParseUsize(s) == None
  {
    var digits := if |s| > 0 && s[0] == '+' then s[1..] else s;
    var j := if s[0] == '+' then k - 1 else k;
    assert digits[j] == s[k];
  }

  /** The `"({}, {})"` format both `Display` impls of a result entry use. */
  function ShowPair(a: string, b: string): (r: string)
    ensures |r| == |a| + |b| + 4
    ensures StartsWith(r, "(" + a + ", ") && r[|a| + 3..] == b + ")"
  {
    "(" + a + ", " + b + ")"
  }

  /** With the first component's length known (a UUID's text is always 36
      characters), the rendered pair determines both components. */
  lemma ShowPairInjective(a1: string, b1: string, a2: string, b2: string)
    requires |a1| == |a2|
    ensures ShowPair(a1, b1) == ShowPair(a2, b2) <==> a1 == a2 && b1 == b2
  {
    if ShowPair(a1, b1) == ShowPair(a2, b2) {
      var r := ShowPair(a1, b1);
      assert a1 == r[1..|a1| + 1] == a2;
      assert b1 == r[|a1| + 3..|r| - 1] == b2;
    }
  }
}

=== FILE: utf8.dfy ===
/** UTF-8 as Rust's standard library uses it on the protocol's frames.

    `Encode` is the byte view of a Rust `String` (`as_ref::<[u8]>()`), and
    `DecodeLossy` is `String::from_utf8_lossy`: well-formed sequences
    (Table 3-7 of the Unicode Standard) become their scalar value, and every
    maximal prefix of a well-formed sequence that is cut short becomes one
    U+FFFD, which is the rule the standard library's `Utf8Chunks` follows.
    `ToStr` is `OsStr::to_str`, which refuses ill-formed input outright. */
module Utf8 {
  import opened Wrappers

  type uint8 = x: int | 0 <= x < 256

  const REPLACEMENT: char := '\U{FFFD}'

  predicate IsCont(b: uint8) {
    0x80 <= b <= 0xBF
  }

  /** The one-to-four byte encoding of a Unicode scalar value. */
  function EncodeChar(c: char): (r: seq<uint8>)
    ensures 1 <= |r| <= 4
    ensures (c as int < 0x80) <==> |r| == 1
    ensures |r| == 1 ==> r[0] == c as int
    ensures forall k :: 1 <= k < |r| ==> IsCont(r[k])
  {
    var n := c as int;
    if n < 0x80 then [n]
    else if n < 0x800 then [0xC0 + n / 64, 0x80 + n % 64]
    else if n < 0x10000 then [0xE0 + n / 4096, 0x80 + (n / 64) % 64, 0x80 + n % 64]
    else [0xF0 + n / 262144, 0x80 + (n / 4096) % 64, 0x80 + (n / 64) % 64, 0x80 + n % 64]
  }

  function Encode(s: string): (r: seq<uint8>)
    ensures |r| >= |s|
  {
    if |s| == 0 then [] else EncodeChar(s[0]) + Encode(s[1..])
  }

  /** One step of the decoder: the character produced, how many bytes it
      consumed, and whether those bytes were a well-formed sequence. */
  datatype Decoded = Decoded(c: char, len: nat, wellFormed: bool)

  function Invalid(len: nat): Decoded {
    Decoded(REPLACEMENT, len, false)
  }

  /** Admissible second bytes after a three-byte lead (no overlong forms,
      no surrogates). */
  predicate SecondOf3(b0: uint8, b1: uint8) {
    if b0 == 0xE0 then 0xA0 <= b1 <= 0xBF
    else if b0 == 0xED then 0x80 <= b1 <= 0x9F
    else IsCont(b1)
  }

  /** Admissible second bytes after a four-byte lead (no overlong forms,
      nothing above U+10FFFF). */
  predicate SecondOf4(b0: uint8, b1: uint8) {
    if b0 == 0xF0 then 0x90 <= b1 <= 0xBF
    else if b0 == 0xF4 then 0x80 <= b1 <= 0x8F
    else IsCont(b1)
  }

  /** One step of `from_utf8_lossy`: a well-formed sequence at the front
      becomes its scalar value; otherwise the longest prefix of one that is
      there (at least one byte) becomes U+FFFD. */
  function DecodeOne(b: seq<uint8>): (r: Decoded)
    requires |b| > 0
    ensures 1 <= r.len <= |b| && r.len <= 4
    ensures !r.wellFormed ==> r.c == REPLACEMENT
  {
    var b0: int := b[0];
    if b0 < 0x80 then
      Decoded(b0 as char, 1, true)
    else if 0xC2 <= b0 <= 0xDF then
      if |b| >= 2 && IsCont(b[1]) then
        Decoded(((b0 - 0xC0) * 64 + (b[1] as int - 0x80)) as char, 2, true)
      else Invalid(1)
    else if 0xE0 <= b0 <= 0xEF then
      if |b| >= 2 && SecondOf3(b0, b[1]) then
        if |b| >= 3 && IsCont(b[2]) then
          EncodeDecode3(b0, b[1], b[2]);
          Decoded(((b0 - 0xE0) * 4096 + (b[1] as int - 0x80) * 64 + (b[2] as int - 0x80)) as char, 3, true)
        else Invalid(2)
      else Invalid(1)
    else if 0xF0 <= b0 <= 0xF4 then
      if |b| >= 2 && SecondOf4(b0, b[1]) then
        if |b| >= 3 && IsCont(b[2]) then
          if |b| >= 4 && IsCont(b[3]) then
            EncodeDecode4(b0, b[1], b[2], b[3]);
            Decoded(((b0 - 0xF0) * 262144 + (b[1] as int - 0x80) * 4096 + (b[2] as int - 0x80) * 64 + (b[3] as int - 0x80)) as char, 4, true)
          else Invalid(3)
        else Invalid(2)
      else Invalid(1)
    else
      Invalid(1)
  }

  /** What a well-formed step consumed is exactly the encoding of the
      character it produced. */
  lemma DecodeOneSound(b: seq<uint8>)
    requires |b| > 0
    ensures var r := DecodeOne(b); r.wellFormed ==> b[..r.len] == EncodeChar(r.c)
  {
    var b0: int := b[0];
    var r := DecodeOne(b);
    if r.wellFormed {
      if b0 < 0x80 {
      } else if 0xC2 <= b0 <= 0xDF {
        EncodeDecode2(b0, b[1]);
      } else if 0xE0 <= b0 <= 0xEF {
        EncodeDecode3(b0, b[1], b[2]);
      } else {
        EncodeDecode4(b0, b[1], b[2], b[3]);
      }
    }
  }

  /** Quotient and remainder of a number written in base 64, 4096 or
      262144. */
  lemma Split64(q: int, r: int)
    requires q >= 0 && 0 <= r < 64
    ensures (q * 64 + r) / 64 == q && (q * 64 + r) % 64 == r
  {
  }

  lemma Split4096(q: int, r: int)
    requires q >= 0 && 0 <= r < 4096
    ensures (q * 4096 + r) / 4096 == q
  {
  }

  lemma Split262144(q: int, r: int)
    requires q >= 0 && 0 <= r < 262144
    ensures (q * 262144 + r) / 262144 == q
  {
  }

  lemma EncodeDecode2(b0: int, b1: int)
    requires 0xC2 <= b0 <= 0xDF && 0x80 <= b1 <= 0xBF
    ensures EncodeChar(((b0 - 0xC0) * 64 + (b1 - 0x80)) as char) == [b0, b1]
  {
    Split64(b0 - 0xC0, b1 - 0x80);
  }

  lemma EncodeDecode3(b0: int, b1: int, b2: int)
    requires 0xE0 <= b0 <= 0xEF && 0x80 <= b1 <= 0xBF && SecondOf3(b0, b1) && 0x80 <= b2 <= 0xBF
    ensures var n := (b0 - 0xE0) * 4096 + (b1 - 0x80) * 64 + (b2 - 0x80);
            (n < 0xD800 || 0xE000 <= n) && EncodeChar(n as char) == [b0, b1, b2]
  {
    var hi := (b0 - 0xE0) * 64 + (b1 - 0x80);
    var n := hi * 64 + (b2 - 0x80);
    assert n == (b0 - 0xE0) * 4096 + ((b1 - 0x80) * 64 + (b2 - 0x80));
    Split4096(b0 - 0xE0, (b1 - 0x80) * 64 + (b2 - 0x80));
    Split64(hi, b2 - 0x80);
    Split64(b0 - 0xE0, b1 - 0x80);
  }

  lemma EncodeDecode4(b0: int, b1: int, b2: int, b3: int)
    requires 0xF0 <= b0 <= 0xF4 && 0x80 <= b1 <= 0xBF && SecondOf4(b0, b1)
    requires 0x80 <= b2 <= 0xBF && 0x80 <= b3 <= 0xBF
    ensures var n := (b0 - 0xF0) * 262144 + (b1 - 0x80) * 4096 + (b2 - 0x80) * 64 + (b3 - 0x80);
            0x10000 <= n < 0x110000 && EncodeChar(n as char) == [b0, b1, b2, b3]
  {
    var top := (b0 - 0xF0) * 64 + (b1 - 0x80);
    var mid := top * 64 + (b2 - 0x80);
    var n := mid * 64 + (b3 - 0x80);
    var low := (b2 - 0x80) * 64 + (b3 - 0x80);
    assert n == (b0 - 0xF0) * 262144 + ((b1 - 0x80) * 4096 + low);
    assert n == top * 4096 + low;
    Split262144(b0 - 0xF0, (b1 - 0x80) * 4096 + low);
    Split4096(top, low);
    Split64(b0 - 0xF0, b1 - 0x80);
    Split64(mid, b3 - 0x80);
    Split64(top, b2 - 0x80);
  }

  /** `String::from_utf8_lossy`. */
  function DecodeLossy(b: seq<uint8>): (s: string)
    ensures |s| <= |b|
    decreases |b|
  {
    if |b| == 0 then ""
    else
      var d := DecodeOne(b);
      [d.c] + DecodeLossy(b[d.len..])
  }

  /** Well-formed UTF-8: every decoding step is well-formed. */
  predicate Valid(b: seq<uint8>)
    decreases |b|
  {
    |b| == 0 || (DecodeOne(b).wellFormed && Valid(b[DecodeOne(b).len..]))
  }

  /** `OsStr::to_str` on Unix: `None` unless the bytes are well-formed. */
  function ToStr(b: seq<uint8>): Option<string> {
    if Valid(b) then Some(DecodeLossy(b)) else None
  }

  /** Decoding the encoding of a character gives the character back and
      consumes exactly its bytes, whatever follows. */
  lemma DecodeOneEncodeChar(c: char, rest: seq<uint8>)
    ensures DecodeOne(EncodeChar(c) + rest) == Decoded(c, |EncodeChar(c)|, true)
  {
    var n := c as int;
    if n < 0x80 {
    } else if n < 0x800 {
      DecodeOneTwo(c, rest);
    } else if n < 0x10000 {
      DecodeOneThree(c, rest);
    } else {
      DecodeOneFour(c, rest);
    }
  }

  lemma DecodeOneTwo(c: char, rest: seq<uint8>)
    requires 0x80 <= c as int < 0x800
    ensures DecodeOne(EncodeChar(c) + rest) == Decoded(c, 2, true)
  {
    var n := c as int;
    var b := EncodeChar(c) + rest;
    var b0: int, b1: int := n / 64 + 0xC0, n % 64 + 0x80;
    assert b[0] == b0 && b[1] == b1;
    assert 0xC2 <= b0 <= 0xDF && IsCont(b1);
    assert (b0 - 0xC0) * 64 + (b1 - 0x80) == n;
  }

  lemma DecodeOneThree(c: char, rest: seq<uint8>)
    requires 0x800 <= c as int < 0x10000
    ensures DecodeOne(EncodeChar(c) + rest) == Decoded(c, 3, true)
  {
    var n := c as int;
    var b := EncodeChar(c) + rest;
    var b0: int, b1: int, b2: int := 0xE0 + n / 4096, 0x80 + (n / 64) % 64, 0x80 + n % 64;
    assert b[0] == b0 && b[1] == b1 && b[2] == b2;
    assert (n / 4096) * 64 + (n / 64) % 64 == n / 64;
    assert (b0 - 0xE0) * 4096 + (b1 - 0x80) * 64 + (b2 - 0x80) == n;
    assert SecondOf3(b0, b1) && IsCont(b2);
  }

  lemma DecodeOneFour(c: char, rest: seq<uint8>)
    requires 0x10000 <= c as int
    ensures DecodeOne(EncodeChar(c) + rest) == Decoded(c, 4, true)
  {
    var n := c as int;
    var b := EncodeChar(c) + rest;
    var b0: int, b1: int := 0xF0 + n / 262144, 0x80 + (n / 4096) % 64;
    var b2: int, b3: int := 0x80 + (n / 64) % 64, 0x80 + n % 64;
    assert b[0] == b0 && b[1] == b1 && b[2] == b2 && b[3] == b3;
    assert (n / 262144) * 64 + (n / 4096) % 64 == n / 4096;
    assert (n / 4096) * 64 + (n / 64) % 64 == n / 64;
    assert (b0 - 0xF0) * 262144 + (b1 - 0x80) * 4096 + (b2 - 0x80) * 64 + (b3 - 0x80) == n;
    assert SecondOf4(b0, b1) && IsCont(b2) && IsCont(b3);
  }

  /** Decoding is compositional over an encoded prefix: the lossy decoder
      reproduces every encoded character and only then looks at `rest`. */
  lemma {:induction false} DecodeEncode(s: string, rest: seq<uint8>)
    ensures DecodeLossy(Encode(s) + rest) == s + DecodeLossy(rest)
  {
    if |s| > 0 {
      var tail := DecodeLossy(rest);
      calc {
        DecodeLossy(Encode(s) + rest);
        == { DecodeEncodeHead(s, rest); }
        [s[0]] + DecodeLossy(Encode(s[1..]) + rest);
        == { DecodeEncode(s[1..], rest); }
        [s[0]] + (s[1..] + tail);
        == { assert s == [s[0]] + s[1..]; }
        s + tail;
      }
    } else {
      assert Encode(s) + rest == rest;
    }
  }

  /** Every encoding is well-formed, and stays so in front of well-formed
      bytes. */
  lemma {:induction false} EncodeValid(s: string, rest: seq<uint8>)
    requires Valid(rest)
    ensures Valid(Encode(s) + rest)
  {
    if |s| > 0 {
      ValidEncodeHead(s, rest);
      EncodeValid(s[1..], rest);
    } else {
      assert Encode(s) + rest == rest;
    }
  }

  /** The first decoding step over an encoded string yields its first
      character and leaves the encoding of the remaining characters. */
  lemma DecodeEncodeHead(s: string, rest: seq<uint8>)
    requires |s| > 0
    ensures DecodeLossy(Encode(s) + rest) == [s[0]] + DecodeLossy(Encode(s[1..]) + rest)
  {
    var b := EncodeHead(s, rest);
    DecodeStep(b);
  }

  /** The first decoding step over an encoded string is well-formed, so the
      whole is well-formed exactly when the remainder is. */
  lemma ValidEncodeHead(s: string, rest: seq<uint8>)
    requires |s| > 0
    ensures Valid(Encode(s) + rest) == Valid(Encode(s[1..]) + rest)
  {
    var b := EncodeHead(s, rest);
    ValidStep(b);
  }

  /** The decoder's first step over `Encode(s) + rest` consumes exactly the
      first character's bytes. */
  lemma EncodeHead(s: string, rest: seq<uint8>) returns (b: seq<uint8>)
    requires |s| > 0
    ensures b == Encode(s) + rest && |b| > 0
    ensures DecodeOne(b) == Decoded(s[0], |EncodeChar(s[0])|, true)
    ensures b[|EncodeChar(s[0])|..] == Encode(s[1..]) + rest
  {
    var e := EncodeChar(s[0]);
    var tail := Encode(s[1..]) + rest;
    b := Encode(s) + rest;
    assert b == e + tail;
    DecodeOneEncodeChar(s[0], tail);
    assert b[|e|..] == tail;
  }

  /** One unfolding of the decoder, stated once. */
  lemma DecodeStep(b: seq<uint8>)
    requires |b| > 0
    ensures DecodeLossy(b) == [DecodeOne(b).c] + DecodeLossy(b[DecodeOne(b).len..])
  {
  }

  /** One unfolding of `Valid`, stated once. */
  lemma ValidStep(b: seq<uint8>)
    requires |b| > 0
    ensures Valid(b) == (DecodeOne(b).wellFormed && Valid(b[DecodeOne(b).len..]))
  {
  }

  lemma EncodeCons(c: char, s: string)
    ensures Encode([c] + s) == EncodeChar(c) + Encode(s)
  {
    var t := [c] + s;
    assert t[0] == c && t[1..] == s;
  }

  /** `from_utf8_lossy` inverts the encoding of every string. */
  lemma DecodeLossyEncode(s: string)
    ensures DecodeLossy(Encode(s)) == s
    ensures Valid(Encode(s))
  {
    DecodeEncode(s, []);
    EncodeValid(s, []);
    assert Encode(s) + [] == Encode(s);
  }

  /** Well-formed bytes are the encoding of their decoding, so `Encode`
      and `ToStr` are inverse to each other. */
  lemma {:induction false} EncodeDecodeValid(b: seq<uint8>)
    requires Valid(b)
    ensures Encode(DecodeLossy(b)) == b
    decreases |b|
  {
    if |b| > 0 {
      var d := DecodeOne(b);
      var rest := b[d.len..];
      ValidStep(b);
      calc {
        Encode(DecodeLossy(b));
        == { DecodeStep(b); }
        Encode([d.c] + DecodeLossy(rest));
        == { EncodeCons(d.c, DecodeLossy(rest)); }
        EncodeChar(d.c) + Encode(DecodeLossy(rest));
        == { EncodeDecodeValid(rest); }
        EncodeChar(d.c) + rest;
        == { DecodeOneSound(b); }
        b[..d.len] + rest;
        == { assert b == b[..d.len] + rest; }
        b;
      }
    }
  }

  lemma ToStrEncode(s: string, b: seq<uint8>)
    ensures ToStr(b) == Some(s) <==> b == Encode(s)
  {
    DecodeLossyEncode(s);
    if ToStr(b) == Some(s) {
      EncodeDecodeValid(b);
    }
  }
}

=== FILE: wire.dfy ===
/** The older string protocol between the coordinator (unirun/src/gui.rs)
    and the applications plugin (plugins/applications/src/main.rs): plain
    command strings and JSON-encoded `Match` entries, each sent in one
    4096-byte frame (unirun-interface/src/lib.rs). */
module LegacyWire {
  import opened Wrappers
  import opened Utf8
  import opened Text
  import opened Framing
  import MatchIf

  /** One message. `Entry(m)` stands for the text `serde_json::to_string(&m)`:
      a JSON object, so it begins with `{` and never with a command word or
      `ok`. Reading an `Entry` back as a `Match` succeeds; reading any
      `Text` as one fails. */
  datatype Msg = Text(s: string) | Entry(m: MatchIf.Match)

  /** What one `stream_read_future` returns. */
  datatype Read = Got(msg: Msg) | Failed

  /** The message the reader sees when the writer sent `m`: text goes
      through `create_buffer` and `bytes_to_string`. */
  function Transmit(m: Msg): (r: Msg)
    ensures r.Text? <==> m.Text?
    ensures r.Entry? ==> r == m
  {
    match m
    case Text(s) => Text(Unframe(Frame(s)))
    case Entry(e) => Entry(e)
  }

  /** Text always arrives trimmed: whatever was written, the reader never
      sees surrounding whitespace. */
  lemma TransmitTrimmed(m: Msg)
    requires m.Text?
    ensures var s := Transmit(m).s; |s| > 0 ==> !IsWhitespace(s[0]) && !IsWhitespace(s[|s| - 1])
  {
  }

  /** Text that is already clean and fits one frame arrives unchanged. */
  lemma TransmitClean(s: string)
    requires Clean(s) && Fits(s)
    ensures Transmit(Text(s)) == Text(s)
  {
    FrameRoundTrip(s);
  }

  /** `format!("ok: {}", n)`, the plugin's announcement of `n` entries. */
  function CountMessage(n: nat): (s: string)
    ensures StartsWith(s, "ok:")
  {
    "ok: " + Decimal(n)
  }

  /** The coordinator's reading of an announcement: the text after every
      leading `ok:`, trimmed, as a `usize`, or 0 when that fails. */
  function ParseCount(s: string): (n: nat)
    ensures n < USIZE_LIMIT
  {
    match ParseUsize(Trim(TrimStartMatches(s, "ok:")))
    case Some(v) => v
    case None => 0
  }

  function Pow10(k: nat): (p: nat)
    ensures p >= 1
  {
    if k == 0 then 1 else 10 * Pow10(k - 1)
  }

  lemma {:induction false} Pow10Add(a: nat, b: nat)
    ensures Pow10(a + b) == Pow10(a) * Pow10(b)
    decreases a
  {
    if a > 0 {
      Pow10Add(a - 1, b);
    }
  }

  /** Every `usize` has at most 20 decimal digits. */
  lemma UsizeDigits()
    ensures USIZE_LIMIT <= Pow10(20)
  {
    assert Pow10(4) == 10000;
    Pow10Add(4, 4);
    Pow10Add(8, 4);
    Pow10Add(12, 4);
    Pow10Add(16, 4);
  }

  lemma {:induction false} DecimalLength(n: nat, k: nat)
    requires 1 <= k && n < Pow10(k)
    ensures |Decimal(n)| <= k
  {
    if n >= 10 {
      assert k > 1;
      DecimalLength(n / 10, k - 1);
    }
  }

  predicate Ascii(s: string) {
    forall k :: 0 <= k < |s| ==> s[k] as int < 0x80
  }

  lemma {:induction false} EncodeAscii(s: string)
    requires Ascii(s)
    ensures |Encode(s)| == |s|
  {
    if |s| > 0 {
      EncodeAscii(s[1..]);
    }
  }

  lemma AsciiAppend(a: string, b: string)
    requires Ascii(a) && Ascii(b)
    ensures Ascii(a + b)
  {
    var ab := a + b;
    forall k | 0 <= k < |ab| ensures ab[k] as int < 0x80 {
      if k >= |a| {
        assert ab[k] == b[k - |a|];
      }
    }
  }

  /** The announcement of any `usize` count is clean and fits a frame, so
      it arrives unchanged. */
  lemma CountFrames(n: nat)
    requires n < USIZE_LIMIT
    ensures Transmit(Text(CountMessage(n))) == Text(CountMessage(n))
  {
    CountClean(n);
    TransmitClean(CountMessage(n));
  }

  /** An announcement is at most 24 characters: `ok: ` and at most 20
      digits. */
  lemma CountShort(n: nat)
    requires n < USIZE_LIMIT
    ensures |CountMessage(n)| <= 24
  {
    UsizeDigits();
    DecimalLength(n, 20);
  }

  /** An announcement is ASCII. */
  lemma CountAscii(n: nat)
    ensures Ascii(CountMessage(n))
  {
    var d := Decimal(n);
    var head := "ok: ";
    assert head[0] == 'o' && head[1] == 'k' && head[2] == ':' && head[3] == ' ';
    assert Ascii(head);
    assert Ascii(d) by {
      forall k | 0 <= k < |d| ensures d[k] as int < 0x80 {
        assert IsDigit(d[k]);
      }
    }
    AsciiAppend(head, d);
  }

  /** An announcement starts with `o`, ends with a digit and fits a frame. */
  lemma CountClean(n: nat)
    requires n < USIZE_LIMIT
    ensures Clean(CountMessage(n)) && Fits(CountMessage(n))
  {
    var s := CountMessage(n);
    var d := Decimal(n);
    CountShort(n);
    CountAscii(n);
    EncodeAscii(s);
    assert s[0] == "ok: "[0];
    assert s[|s| - 1] == d[|d| - 1] && IsDigit(d[|d| - 1]);
  }

  /** Stripping `ok:` from an announcement leaves the space and the
      digits. */
  lemma CountAfterPrefix(n: nat)
    ensures TrimStartMatches(CountMessage(n), "ok:") == " " + Decimal(n)
  {
    var d := Decimal(n);
    var s := CountMessage(n);
    assert s[3..] == " " + d;
    assert !StartsWith(" " + d, "ok:") by {
      assert (" " + d)[0] == ' ';
    }
  }

  /** Trimming a space off the front of a run of digits leaves the digits. */
  lemma TrimSpaceDigits(d: string)
    requires AllDigits(d)
    ensures Trim(" " + d) == d
  {
    assert (" " + d)[1..] == d;
    assert TrimStartBy(" " + d, IsWhitespace) == TrimStartBy(d, IsWhitespace);
    TrimKeepsContent(d);
  }

  /** The coordinator parses an announcement back to its count. */
  lemma CountParses(n: nat)
    requires n < USIZE_LIMIT
    ensures ParseCount(CountMessage(n)) == n
  {
    CountAfterPrefix(n);
    TrimSpaceDigits(Decimal(n));
    ParseDecimal(n);
  }

  /** Whatever count the plugin announces, the coordinator reads the same
      number back. */
  lemma CountRoundTrip(n: nat)
    requires n < USIZE_LIMIT
    ensures Transmit(Text(CountMessage(n))) == Text(CountMessage(n))
    ensures ParseCount(Transmit(Text(CountMessage(n))).s) == n
  {
    CountFrames(n);
    CountParses(n);
  }

  /** `format!("get_data,{}", text)`. */
  function QueryMessage(text: string): (s: string)
    ensures StartsWith(s, "get_data,") && s[9..] == text
  {
    "get_data," + text
  }

  /** `format!("activate,{}", id)`. */
  function ActivateMessage(id: string): (s: string)
    ensures StartsWith(s, "activate,") && s[9..] == id
  {
    "activate," + id
  }
}

=== FILE: wrappers.dfy ===
/** Failure-carrying datatypes shared by every module of the model.

    Rust's `Option<T>` and `Result<T, E>` map onto `Option` and `Result`;
    `Panic` names the places where the program calls `unwrap`, `expect`,
    `panic!`, `unreachable!` or `unimplemented!`. In the program a panic
    ends the process; the coordinators record it as a fault and go on
    applying events, so their invariants are stated over more runs than
    the program can reach. */
module Wrappers {

  datatype Option<+T> = None | Some(value: T)

  datatype Result<+T, +E> = Success(value: T) | Failure(error: E)

  /** Why a modelled Rust code path panics. */
  datatype Panic =
    | ReadFailed          // `read_future().await.unwrap()` on a broken stream
    | MissingRow          // `ListStore::item(row)` returned `None`
    | NoSuchConnection    // `find(..).unwrap()` over the connection list
    | Unexpected          // `unreachable!()` on a message the state does not allow
    | BadEntry            // `serde_json::from_str::<Match>` failed
    | UnknownProperty     // `unimplemented!()` in a property switch
    | WrongValueType      // `Value::get().expect(..)` with a value of another type
    | MissingFileName     // `Path::file_name().unwrap()`
    | MissingMetadata     // `Path::metadata().unwrap()`
    | NoDesktopEntry      // `DesktopAppInfo::new(id).unwrap()`
}
